=== FILE: README.md ===
# latex.ts interpreter core in Dafny

This project models the stateful macro interpreter of latex.ts, the LaTeX to
HTML translator, and proves properties of the model. The interpreter is the
`Generator` together with the macro bodies that change its state. The model
covers:

- named counters and their reset table, and the numeral formatters;
- the stack of scope frames with its group-balance counters;
- the argument protocol the parser drives;
- labels and forward references;
- sectioning and list depths;
- the macro registry;
- `Length` arithmetic and the picture-mode geometry;
- the numbering rules of the document classes `base`, `article`, `report`
  and `book`;
- the `xcolor` and `echo` packages.

The interpreter state is one immutable datatype (`Generator.State`). Every
operation is a pure function from a state to a `Result`. Where the original
calls `this.error(...)` or runs into a JavaScript exception, the model
returns `Err`. Generated DOM nodes are not modelled. Where an operation
produces output, the model keeps only the text or the fragment ids that the
output is built from.

Modules, one per file:

| module | file | models |
|---|---|---|
| Wrappers | wrappers.dfy | `Option`, `Result` and the interpreter's error conditions |
| Lengths | lengths.dfy | `Length` and `Vector` (src/types.ts) |
| Numerals | numerals.dfy | `roman`, `Roman`, `alph`, `Alph`, `arabic` and `fnsymbol` |
| Counters | counters.dfy | the counter values and the reset table, including `clearCounter` |
| Scopes | scopes.dfy | the frame stack, the balance stack, attributes and lengths |
| Arguments | arguments.dfy | `beginArgs`, `selectArgsBranch`, `nextArg`, `addParsedArg` and `endArgs` |
| Registry | registry.dfy | the descriptor table, the mode tags and the extension loading |
| Labels | labels.dfy | `setLabel`, `ref` and the pending placeholder table |
| Generator | generator.dfy | the interpreter state and the generator services built on the modules above |
| Macros | macros.dfy | the macro bodies of src/latex.ltx.ts that change state or compute |
| Picture | picture.dfy | slopes, oval radii and clip-rectangle intersection |
| Classes | classes.dfy | the document classes: counters, geometry, options, numbering, appendix, matter |
| Environments | environments.dfy | `begin` and `end` with the `end<env>` bodies |
| XColor | xcolor.dfy | `definecolor`, `definecolorset` and the colour descriptors |
| Echo | echo.dfy | the echo package |

Lengths use `real` magnitudes. The unit factors such as 72.27 and 7227/2540
are not integers. IEEE rounding is not modelled, so the model computes
exactly what the original approximates.

Modelling decisions where the code, not the documented intent, decides:

- `startsection` steps the counter only in its first call, the one without
  a title. The call that produces the heading never steps
  (src/generator.ts:654-678).
- `clearCounter` has no cycle guard in the original. A cycle in the reset
  table would recurse forever. The model carries the set of counters on the
  current path and returns `Err(ResetCycle)` on a cycle. A reset table
  ranked by a measure, as every class builds it, provably never hits that
  error (`Counters.StepSucceeds`).
- `end` runs the `end<env>` macro before leaving the environment's group
  (src/generator.ts:266-278). The model therefore applies the state changes
  of `end<env>` first.
- `endabstract` closes a list level that `abstract` never opened
  (src/documentclasses/article.ts:28-42). The model keeps this, and
  `Environments.AbstractEnvironmentLowersListDepth` states its effect.
- The empty balance stack: `exitGroup` on it fails, because `--undefined`
  is `NaN` and `NaN >= 0` is false.
- Loading a class merges the class object into the macro object with
  lodash `merge` (src/latex.ltx.ts:1304). This copies the class's methods
  and fields, but not the getters `contentsname`, `appendixname` and the
  other `*name` accessors of src/documentclasses/base.ts:116-146. TypeScript
  accessors are not enumerable, so `merge` does not see them. A macro
  call or a read of one of them on the macro object therefore meets
  `undefined` (see "## Findings").
- `maketitle` without a title dereferences `null`. The model reports
  `Err(MissingTitle)`.
- `arrowlength` sets `@arrowlength`, a length that no code declares. It
  therefore always fails.
- Division of a length by zero and a ratio to a zero length give an
  infinite or NaN magnitude in JavaScript. The model reports
  `Err(NonFinite)` (see "## Left out").
- An optional argument that was not given is `None`. The interpreter drops
  `undefined` and `null` entries of a macro's result when it emits them.
  `Echo.Shown` models that filter.

## Model

| member | source | states |
|---|---|---|
| Lengths.UnitFactor | src/types.ts:34-45 | exactly the ten absolute units have a factor, and every factor is positive |
| Lengths.MakeLength | src/types.ts:47-56 | an absolute unit is converted to "sp" so that converting back gives the given magnitude; any other unit is kept as given; the result is always canonical |
| Lengths.MakeLengthOfCanonical | src/types.ts:47-56 | constructing from a canonical length is the identity |
| Lengths.Cmp | src/types.ts:92-103 | fails exactly on differing unit tags; otherwise -1, 0 or 1 exactly as the magnitudes compare |
| Lengths.CmpAntisymmetric | src/types.ts:92-103 | swapping the operands negates the comparison |
| Lengths.CmpTransitive | src/types.ts:92-103 | the comparison is transitive, strictly so when either step is strict |
| Lengths.Add | src/types.ts:105-110 | fails exactly on differing units; the sum keeps the unit and adds the magnitudes |
| Lengths.Sub | src/types.ts:112-117 | fails exactly on differing units; the difference keeps the unit and subtracts the magnitudes |
| Lengths.AddSubRoundTrip | src/types.ts:105-117 | adding then subtracting the same length gives back the original length |
| Lengths.Mul | src/types.ts:119-121 | scaling keeps the unit and multiplies the magnitude |
| Lengths.Div | src/types.ts:123-125 | dividing by a nonzero factor keeps the unit, and the quotient times the factor is the original |
| Lengths.Abs | src/types.ts:127-129 | the unit is kept and the magnitude is the non-negative one of plus or minus the original |
| Lengths.Ratio | src/types.ts:131-136 | fails on differing units; for a nonzero divisor the ratio times the divisor is the dividend |
| Lengths.Px | src/types.ts:72-78 | defined exactly for "sp" lengths, and the pixel value times the pixel factor is the magnitude |
| Lengths.MinOf | src/types.ts:145-153 | succeeds exactly when all units agree; the result is an argument and is no larger than any argument |
| Lengths.MaxOf | src/types.ts:155-163 | succeeds exactly when all units agree; the result is an argument and is no smaller than any argument |
| Lengths.Min2 | src/types.ts:145-153 | the two-argument minimum is one of the two and no larger than either |
| Lengths.Max2 | src/types.ts:155-163 | the two-argument maximum is one of the two and no smaller than either |
| Lengths.VAdd | src/types.ts:183-185 | a componentwise sum that fails exactly when a component's units differ |
| Lengths.VSub | src/types.ts:187-189 | a componentwise difference that fails exactly when a component's units differ |
| Lengths.VMul | src/types.ts:191-193 | scales both components and keeps their units |
| Lengths.VAddSubRoundTrip | src/types.ts:183-189 | vector addition is undone by subtraction |
| Numerals.SkipEntries | src/generator.ts:580-591 | entries whose value exceeds the remaining number contribute nothing to the greedy walk |
| Numerals.Ones | src/generator.ts:580-591 | the walk repeats an entry's symbol once per multiple of its value, then continues with the remainder |
| Numerals.DecadeHigh | src/generator.ts:580-591 | a digit 5 to 8 of a decade is spelled with the five symbol followed by the one symbol repeated |
| Numerals.DecadeLow | src/generator.ts:580-591 | a digit 0 to 3 of a decade is spelled by repeating the one symbol |
| Numerals.Decade | src/generator.ts:580-591 | every digit of a decade is spelled as the digit-spelling table says, whatever lies below it |
| Numerals.Thousands | src/generator.ts:568-591 | the lower-case walk writes one "m" per thousand, then spells the rest below 1000 |
| Numerals.RepeatSmall | src/generator.ts:580-591 | repeating a symbol one, two or three times concatenates that many copies |
| Numerals.DigitSpellingTable | src/generator.ts:568-572 | the entries of one decade spell each digit as the textbook table does |
| Numerals.BelowThousand | src/generator.ts:568-591 | below 1000 the walk spells the hundreds, tens and units digits in turn |
| Numerals.LowerRomanOf | src/generator.ts:568-572 | `roman(n)` is the standard Roman numeral of n, digit by digit, for every n, and is empty below 1 |
| Numerals.LowerRomanReference | src/generator.ts:580-591 | the greedy walk over the lower-case table spells every number as the digit-by-digit reference does |
| Numerals.Upper | src/generator.ts:574-578 | upper-casing keeps the length and maps each character |
| Numerals.RomanFromUpper | src/generator.ts:574-591 | walking a table of upper-cased symbols with the same values produces the upper-cased numeral |
| Numerals.Roman | src/generator.ts:574-578 | `Roman(n)` is `roman(n)` in upper case, for every n |
| Numerals.UpperTable | src/generator.ts:568-578 | the upper-case table is the lower-case one with upper-cased symbols and the same values |
| Numerals.FromCharCode | src/generator.ts:556-562 | a code below the surrogate range becomes the character with that code |
| Numerals.Alph | src/generator.ts:556-558 | `alph` gives one character; 1..26 give the letters a..z, each giving its number back as its place in the alphabet |
| Numerals.UpperAlph | src/generator.ts:560-562 | `Alph` gives one character; 1..26 give the letters A..Z, each giving its number back, and each is the upper case of `alph` |
| Numerals.LetterRoundTrip | src/generator.ts:556-562 | every letter is the `alph` or `Alph` of its place in the alphabet |
| Numerals.NatDecimalRoundTrip | src/generator.ts:564-566 | the decimal spelling of a natural number consists of digits and reads back as that number |
| Numerals.Arabic | src/generator.ts:564-566 | `arabic(n)` is never empty and reads back as n for every integer, so distinct numbers are spelled differently |
| Numerals.ArabicDigits | src/generator.ts:564-566 | a non-negative number is spelled with digits only, a negative one with "-" and then digits |
| Numerals.Fnsymbol | src/generator.ts:593-616 | defined exactly on 1..9 and an error otherwise; 1..6 give one glyph, and 7..9 give the glyph of n-6 twice |
| Numerals.FnsymbolDistinct | src/generator.ts:593-616 | the nine footnote marks are pairwise different |
| Counters.ReachesSplit | src/generator.ts:549-554 | a counter reachable from a list of children is the first child, a descendant of it, or reachable from the rest |
| Counters.ReachesNothingAll | src/generator.ts:549-554 | nothing is reachable from an empty reset list |
| Counters.ReachesSplitAll | src/generator.ts:549-554 | the split of reachability holds for every counter at once |
| Counters.ClearChildren | src/generator.ts:549-554 | `clearCounter` zeroes exactly the counters reachable from the reset list and leaves every other value alone; it never revisits a counter on the current path |
| Counters.ClearChildrenSucceeds | src/generator.ts:549-554 | on a reset table without cycles, clearing never fails |
| Counters.Get | src/generator.ts:458-463 | reading a counter fails exactly when it is unknown, and otherwise gives its value |
| Counters.Set | src/generator.ts:446-451 | setting fails exactly when the counter is unknown; only its value changes |
| Counters.AddToReset | src/generator.ts:413-421 | fails unless both counters exist, the parent checked first; otherwise only the parent's reset list changes, by appending the child |
| Counters.New | src/generator.ts:423-439 | a duplicate name fails; a new counter starts at 0 with an empty reset list and, with a non-empty parent, is appended to the parent's list; an unknown parent fails |
| Counters.NewPreservesValid | src/generator.ts:423-439 | creating a counter keeps every counter with a reset list that names only known counters |
| Counters.Step | src/generator.ts:453-456 | an unknown counter fails; stepping raises the counter by one, zeroes every transitive descendant, keeps every other counter, and the counter is not its own descendant |
| Counters.StepSucceeds | src/generator.ts:453-456 | on a valid table without cycles, stepping a known counter never fails |
| Scopes.WithAttr | src/generator.ts:372-397 | writing one font attribute sets it and leaves the other four as they were |
| Scopes.InitialValid | src/generator.ts:91-121 | the state `reset` leaves, with one root frame and one balance counter at 0, satisfies the scope invariant |
| Scopes.WithTop | src/generator.ts:20-26 | replacing the top frame keeps the depth, the balance counters and every frame below |
| Scopes.EnterGroup | src/generator.ts:280-291 | pushes a frame with empty or copied attributes, no alignment, and the top frame's current label and lengths; the frames below stay; the innermost balance counter goes up by one |
| Scopes.ExitGroup | src/generator.ts:293-296 | fails exactly when the innermost balance counter is already 0 or missing; otherwise that counter goes down by one and the top frame is popped |
| Scopes.StartBalanced | src/generator.ts:298-300 | pushes a fresh balance counter at 0 and leaves the frames alone |
| Scopes.EndBalanced | src/generator.ts:302-305 | drops exactly the innermost balance counter |
| Scopes.SumAppend | src/generator.ts:298-305 | pushing a balance counter adds its value to the total of open groups |
| Scopes.SumBump | src/generator.ts:280-296 | changing the innermost balance counter changes the total of open groups by the same amount |
| Scopes.EnterGroupValid | src/generator.ts:280-291 | entering a group keeps every balance counter non-negative and at least one frame per open group above the root |
| Scopes.ExitGroupValid | src/generator.ts:293-296 | a successful exit keeps the scope invariant |
| Scopes.StartBalancedValid | src/generator.ts:298-300 | starting a balance counter keeps the scope invariant |
| Scopes.EndBalancedValid | src/generator.ts:302-305 | dropping a balance counter keeps the scope invariant |
| Scopes.ValidHasFrame | src/generator.ts:293-296 | under the scope invariant the root frame is never popped |
| Scopes.SumNonNegative | src/generator.ts:293-296 | non-negative balance counters have a non-negative total |
| Scopes.EnterExitRoundTrip | src/generator.ts:280-296 | leaving a group gives back the scopes as they were when it was entered, whatever its own frame became |
| Scopes.ActiveAttribute | src/generator.ts:404-411 | the innermost frame with a non-empty value of the attribute decides; no value means no frame has a non-empty one |
| Scopes.SetAttr | src/generator.ts:372-397 | sets one attribute of the top frame; the other attributes, the alignment, the label, the lengths and every lower frame stay |
| Scopes.SetFontShape | src/generator.ts:380-389 | any shape but "em" is stored as given; "em" becomes "up" when the active shape is "it" and "it" otherwise |
| Scopes.EmToggles | src/generator.ts:380-389 | emphasis nested twice gives italic, then upright |
| Scopes.SetAlignment | src/generator.ts:358-360 | only the top frame's alignment changes |
| Scopes.SetCurrentLabel | src/generator.ts:534-547 | only the top frame's current label changes |
| Scopes.NewLength | src/generator.ts:323-328 | a duplicate name fails; otherwise the top frame gains the register at 0sp |
| Scopes.SetLength | src/generator.ts:334-339 | an unknown register fails; otherwise only that register of the top frame changes |
| Scopes.GetLength | src/generator.ts:341-346 | an unknown register fails; otherwise it gives the top frame's value |
| Scopes.SetLengthScoped | src/generator.ts:280-296 | a length set inside a group reads back inside it, and after the group the outer value is back |
| Scopes.SetAttrScoped | src/generator.ts:280-296 | an attribute set inside a group is invisible once the group is left |
| Arguments.BeginArgs | src/generator.ts:203-213 | pushes one frame and keeps the stack below; a known macro's frame expects its descriptor list without the mode tag and has parsed nothing; an unknown macro's frame expects nothing |
| Arguments.FirstFit | src/generator.ts:217-236 | the chosen alternative fits the lookahead and none before it does; no choice means none fits |
| Arguments.SelectArgsBranch | src/generator.ts:217-236 | with a branch expected next, it is replaced by the first alternative whose first kind is optional exactly when the lookahead is `[`, and the result is true exactly when such an alternative exists; otherwise nothing changes |
| Arguments.NextArg | src/generator.ts:240-245 | the expected head is consumed exactly when it is the given kind; otherwise nothing changes |
| Arguments.AddParsedArg | src/generator.ts:311-313 | appends the value to the top frame's parsed values and changes nothing else |
| Arguments.EndArgs | src/generator.ts:251-255 | fails when expected arguments remain; otherwise pops the top frame and returns its values in parsing order |
| Arguments.Kinds | src/generator.ts:240-245 | a list of plain argument kinds as descriptors, position by position |
| Arguments.FeedConsumes | src/generator.ts:240-245 | feeding one value per expected plain kind consumes all of them and records the values in order |
| Arguments.ArgsRoundTrip | src/generator.ts:203-255 | begin, one value per kind, end: the stack comes back as it was and the values come out in order, the mode tag never expected |
| Arguments.FeedRejectsWrongKind | src/generator.ts:240-255 | a value of a kind not expected next is not consumed, and ending then fails |
| Registry.LatexArgs | src/latex.ltx.ts:61-183 | a base macro has a descriptor exactly when it has a mode tag, and the descriptor starts with that tag |
| Registry.Descriptor | src/generator.ts:203-205 | a macro has a descriptor exactly when the table has an entry, and it is that entry |
| Registry.ModesExclusive | src/generator.ts:169-187 | no macro is in two of the H, V, HV and P mode classes, and a macro without a descriptor is horizontal |
| Registry.BuiltinTagged | src/latex.ltx.ts:61-183 | the built-in table holds every base descriptor, and each base macro falls in one of the four mode classes |
| Registry.BuiltinBodies | src/latex.ltx.ts:535-720 | the base macros provide the enumerate formats and prefixes, the list environments and their ends |
| Registry.Load | src/latex.ltx.ts:1294-1365 | loading a class or package makes its descriptors and bodies visible, replaces the entries of the same name, and leaves every other name as it was |
| Registry.HasMacroLoaded | src/generator.ts:164-167 | after loading, a name has a macro exactly when it is not "constructor" and the load brought its body or it had one before; "constructor" is never a macro |
| Registry.Install | src/generator.ts:433-438 | installing a run-time body defines that one name and changes no other body and no descriptor |
| Labels.SetLabel | src/generator.ts:618-638 | binding an already bound name fails; otherwise the name is bound to the current label, exactly its pending links are patched to the label's anchor and content, and it stops being pending |
| Labels.Ref | src/generator.ts:640-652 | a reference appends one link: to the anchor of a bound name, or a "??" placeholder to "#" that is recorded as pending for an unbound name |
| Labels.SetLabelValid | src/generator.ts:618-638 | binding keeps every pending entry pointing at an existing link and only for unbound names |
| Labels.RefValid | src/generator.ts:640-652 | a reference keeps the pending table consistent |
| Labels.ForwardRefResolves | src/generator.ts:618-652 | a reference made before its label ends up with the same href and content as one made after it |
| Labels.SetLabelLocal | src/generator.ts:618-638 | binding one name leaves the links pending on other names untouched, and they stay pending |
| Generator.NextId | src/generator.ts:123-125 | hands out the current id and advances the counter by one, changing nothing else |
| Generator.SetCounter | src/generator.ts:446-451 | an unknown counter fails; otherwise only that counter's value changes |
| Generator.StepCounter | src/generator.ts:453-456 | an unknown counter fails; otherwise only the counter table changes, as `Counters.Step` states |
| Generator.AddToReset | src/generator.ts:413-421 | fails unless both counters exist; otherwise only the parent's reset list grows, by the child |
| Generator.NewCounter | src/generator.ts:423-439 | a duplicate fails; the new counter is at 0; afterwards `the<c>` exists, and when it did not before it is the generic arabic formatter of c; nothing but the counters and that one body changes |
| Generator.Numeral | src/generator.ts:556-566 | a counter's value as an arabic or Alph numeral, failing exactly when the counter is unknown |
| Generator.PrefixOf | src/generator.ts:541-543 | a counter without a `p@<c>` macro has an empty label prefix |
| Generator.RefCounter | src/generator.ts:534-547 | the top frame's current label gets the given id, or without one a fresh anchor `c-<n>` that is also returned; its text is `p@<c>` followed by `the<c>`; only the top frame and the id counter change; a missing `the<c>` fails |
| Generator.SetLabel | src/generator.ts:618-638 | binding fails exactly on a bound name and binds it to the top frame's current label |
| Generator.LabelAfterRefCounter | src/generator.ts:534-547 | a label set after `refCounter` binds to the counter's anchor and formatted number |
| Generator.StartList | src/generator.ts:680-686 | opening a list steps `@listdepth`; more than six levels is an error; a missing counter fails |
| Generator.EndList | src/generator.ts:688-691 | closing a list lowers `@listdepth` by one and changes nothing else; it fails only when the counter is missing |
| Generator.StartEndList | src/generator.ts:680-691 | when nothing hangs off `@listdepth` in the reset table, closing a list undoes opening it |
| Generator.StartSection | src/generator.ts:654-678 | without toc entry and title it is the numbering call and yields no heading; with either it yields a heading and leaves the state alone; a missing `secnumdepth` fails an unstarred call |
| Generator.Numbers | src/generator.ts:655-656 | a starred section is unnumbered without reading `secnumdepth`; an unstarred one fails without `secnumdepth` and is numbered exactly when `secnumdepth` is at least its level |
| Generator.Counter | src/generator.ts:458-463 | reading a counter fails with "no such counter" exactly when it does not exist, and otherwise gives its value |
| Generator.GetLength | src/generator.ts:341-346 | reading a length fails with "no such length" exactly when the innermost frame lacks it, and otherwise gives its value |
| Generator.Ref | src/generator.ts:640-652 | a reference appends one link: to the label's target when the label is set, otherwise a placeholder recorded as pending for that label; nothing else changes |
| Generator.The | src/generator.ts:433-438 | `the<c>` without a macro fails; a body installed at run time formats its counter, in arabic or in Alph, and fails exactly when that counter is missing |
| Generator.SectionNumber | src/generator.ts:655-661 | a starred or too deep section changes nothing; a numbered one steps its counter and makes `sec-<n>` the current label, with a fresh n; an unstarred one fails without `secnumdepth` |
| Generator.SectionHeading | src/generator.ts:662-677 | a starred or too deep heading is the plain title; a numbered one carries `the<sec>` and the title, is a chapter heading exactly for chapters, and carries the current label's id exactly when that id is not empty |
| Generator.ChapterName | src/documentclasses/report.ts:34-36 | `chaptername` is an unknown macro outside report and book; there it gives the class's current chapter name, and when that name is undefined the chapter heading's `concat` fails |
| Generator.NewLength | src/generator.ts:323-328 | a duplicate register fails; otherwise the top frame gains it at 0sp and nothing else changes |
| Generator.SetLength | src/generator.ts:334-339 | an unknown register fails; otherwise only that register of the top frame changes |
| Generator.NewCounters | src/latex.ltx.ts:185-196 | creating a run of counters keeps every counter with a reset list and does not touch the scopes |
| Generator.NewCountersFresh | src/latex.ltx.ts:185-196 | fresh, distinct names are all created at 0 with empty reset lists, and every earlier counter keeps its value and list |
| Generator.NewLengths | src/latex.ltx.ts:212-262 | declared registers are 0sp, earlier registers keep their values, and the counters are untouched |
| Generator.NewLengthsFresh | src/latex.ltx.ts:212-262 | fresh, distinct register names can all be declared |
| Generator.InitLengths | src/latex.ltx.ts:196-262 | `@@size` and every plain register are declared, `unitlength` is 1pt and `@wholewidth` is 0.4pt |
| Generator.InitCounters | src/latex.ltx.ts:185-262 | when it completes, every base counter is at 0, earlier counters keep their values, `unitlength` is 1pt, `@wholewidth` is 0.4pt and every plain register is declared |
| Generator.NewCountersSet | src/latex.ltx.ts:185-196 | a successful run of counter creations leaves each new counter at 0 and every earlier counter at its value |
| Generator.EnumCountersCreated | src/generator.ts:115-118 | `reset` first creates the four enumerate counters, each at 0 |
| Generator.BaseCountersCreated | src/latex.ltx.ts:185-196 | `initCounters` then creates the base counters, each at 0, keeping the enumerate counters |
| Generator.ResetFromInitializes | src/generator.ts:91-121 | when `reset` completes, every enumerate and base counter is at 0 and every base length register is declared in the one root frame |
| Generator.Reset | src/generator.ts:91-121 | when `reset` completes from the blank state, every enumerate and base counter is at 0 and every base length register is declared in the one root frame |
| Macros.TextFont | src/latex.ltx.ts:396-447 | each text-font macro sets one family, weight or shape attribute |
| Macros.SetFont | src/generator.ts:372-389 | a font setting writes its attribute in the top frame, "em" toggling the shape, and leaves the other attributes, the lengths, the label and the lower frames alone |
| Macros.FontAttribute | src/latex.ltx.ts:376-394 | without its argument the call opens a group, sets the attribute in the new frame and returns nothing; with it the call leaves the group, failing when none is open, and returns the argument |
| Macros.FontAttributePair | src/latex.ltx.ts:376-394 | the two calls of a text-font macro leave the scopes exactly as they were |
| Macros.TextNormal | src/latex.ltx.ts:432-443 | without its argument it opens a group with family rm, weight md and shape up; with it, it leaves the group |
| Macros.DeclarationScoped | src/latex.ltx.ts:449-533 | a font or size declaration made inside a group is undone by leaving the group |
| Macros.Declaration | src/latex.ltx.ts:449-533 | each font declaration is named after what it sets: family `<f>family`, weight `<w>series`, shape `<s>shape` (and `em`), size the size itself; none sets a text decoration |
| Macros.Alignment | src/latex.ltx.ts:598-608 | `centering`, `raggedright` and `raggedleft` set the top frame's alignment to their own name and change nothing else |
| Macros.AlignmentScoped | src/latex.ltx.ts:598-608 | an alignment made inside a group ends with the group |
| Macros.OpenList | src/latex.ltx.ts:669-677 | opening itemize or enumerate steps `@listdepth` and then the kind's depth counter; more than four levels of a kind is an error |
| Macros.Itemize | src/latex.ltx.ts:669-677 | `itemize` fails whenever the list nesting fails and never leaves more than four itemize levels open |
| Macros.Enumerate | src/latex.ltx.ts:695-703 | `enumerate` fails whenever the list nesting fails and never leaves more than four enumerate levels open |
| Macros.CloseList | src/latex.ltx.ts:690-693 | the list end lowers `@listdepth` and the kind's depth counter by one each, failing only when one is missing |
| Macros.OpenCloseList | src/latex.ltx.ts:669-720 | with nothing hanging off the depth counters, closing a list undoes opening it |
| Macros.EnumerateItems | src/latex.ltx.ts:706-707 | the enumerate body resets the item counter `enum<roman(depth)>` to 0 and fails when that counter does not exist |
| Macros.EnumerateItemCounter | src/latex.ltx.ts:706 | at depths 1 to 4 the item counter is enumi, enumii, enumiii or enumiv |
| Macros.ItemLabelMacro | src/latex.ltx.ts:679 | the item label comes from `labelitem<roman(@itemdepth)>`, failing when the depth counter is missing |
| Macros.LabelEnum | src/latex.ltx.ts:551-565 | `labelenumii` is its number in parentheses, the other levels their number followed by "." |
| Macros.EnumFormats | src/latex.ltx.ts:535-549 | the four enumerate levels number in arabic, alph, roman and Alph |
| Macros.EnumPrefixes | src/latex.ltx.ts:567-577 | the label prefixes of levels ii, iii and iv are the numbers of the enclosing levels, with level ii in parentheses |
| Macros.OrDefault | src/latex.ltx.ts:824-826 | an empty or missing option takes the default |
| Macros.BoxPosClass | src/latex.ltx.ts:827-841 | exactly the positions s, c, l and r have a box class |
| Macros.BoxClasses | src/latex.ltx.ts:822-851 | without a width the classes stay as given; with one, the position defaults to c, an unknown position fails, and the classes are extended |
| Macros.BoxClassesInjective | src/latex.ltx.ts:827-841 | two boxes with a width get the same classes only for the same position |
| Macros.MakeBox | src/latex.ltx.ts:791-820 | the picture form fails when given both optional arguments and yields no box; the other form boxes with the classes of `_box` |
| Macros.ParPosClass | src/latex.ltx.ts:866-877 | exactly the outer positions c, t and b have a class |
| Macros.ParInnerClass | src/latex.ltx.ts:878-893 | exactly the inner positions s, c, t and b have a class |
| Macros.ParboxClasses | src/latex.ltx.ts:853-900 | the position defaults to c and the inner position to the position; an unknown position fails before an unknown inner position; "pbh" appears exactly when a height is given |
| Macros.ParboxDefaults | src/latex.ltx.ts:853-900 | without positions a parbox is "parbox p-c p-cc", with "pbh" for a height |
| Macros.ParboxInnerFollowsOuter | src/latex.ltx.ts:858-860 | leaving the inner position out is the same as repeating the outer one |
| Macros.Thinlines | src/latex.ltx.ts:902-904 | `@wholewidth` becomes 0.4pt, provided the register is declared |
| Macros.Thicklines | src/latex.ltx.ts:906-908 | `@wholewidth` becomes 0.8pt, provided the register is declared |
| Macros.Linethickness | src/latex.ltx.ts:910-915 | a length not in "sp" is refused; otherwise `@wholewidth` takes the length |
| Macros.Arrowlength | src/latex.ltx.ts:917-919 | the call succeeds exactly when `@arrowlength` is declared, and then sets it |
| Macros.Addtolength | src/latex.ltx.ts:1239-1241 | an unknown register fails; units must agree; the register becomes the old value plus the length, and nothing else changes |
| Macros.AddtolengthRoundTrip | src/latex.ltx.ts:1239-1241 | adding a length and then its negation restores an absolute register |
| Macros.Addtocounter | src/latex.ltx.ts:1251-1253 | an unknown counter fails; otherwise only that counter changes, by n, and no reset is applied |
| Macros.AddtocounterRoundTrip | src/latex.ltx.ts:1251-1253 | adding n and then -n restores the state |
| Macros.Refstepcounter | src/latex.ltx.ts:1259-1262 | steps the counter, then makes it the current label under a fresh anchor with `p@<c>` and the stepped `the<c>` as its text |
| Macros.NumeralMacro | src/latex.ltx.ts:1264-1286 | an unknown counter fails; the arabic form reads back as the value; the roman form is the digit-by-digit reference numeral and the Roman form its upper case; alph and Alph give one letter, for 1..26 the lower or upper letter at that place in the alphabet; the footnote symbol is defined exactly for 1..9 |
| Picture.AbsReal | src/latex.ltx.ts:1059 | the absolute value is non-negative and is the number or its negation |
| Picture.Signed | src/latex.ltx.ts:1061-1066 | a flipped value cancels the original; an unflipped one is the original |
| Picture.FlipIf | src/latex.ltx.ts:1061-1066 | multiplying by -1 flips only the value and keeps the unit |
| Picture.SlopeLengthToCoords | src/latex.ltx.ts:1044-1069 | a slope in relative units is refused, and so is a relative length; the segment starts at the origin; a slope whose x shows as zero pixels at the display precision gives a vertical segment of length l, any other a horizontal extent l and a vertical one l times the slope's ratio, each signed like the slope |
| Picture.SlopeOnLine | src/latex.ltx.ts:1044-1069 | the end point lies on the slope's line through the origin, in the slope's quadrant |
| Picture.SlopeExtent | src/latex.ltx.ts:1044-1069 | the horizontal extent of a non-vertical segment is l |
| Picture.OvalRadius | src/latex.ltx.ts:1145-1161 | sides of different units fail; the radius is at most the cap (20px by default) and at most half of each side, and equals the cap or half the smaller side |
| Picture.OvalUncapped | src/latex.ltx.ts:1155-1161 | with a cap no smaller than half the sides, the radius is half the smaller side |
| Picture.Overlap | src/latex.ltx.ts:1224-1231 | on one axis the overlap starts at the later start and has the non-negative width from there to the earlier end; it fails unless all four are absolute |
| Picture.Intersect | src/latex.ltx.ts:1224-1231 | the intersection exists exactly for absolute rectangles, is the overlap on each axis and has non-negative sizes |
| Picture.IntersectInside | src/latex.ltx.ts:1224-1231 | a non-empty intersection lies inside both rectangles |
| Picture.IntersectSymmetric | src/latex.ltx.ts:1224-1231 | intersecting is symmetric |
| Picture.OverlapSymmetric | src/latex.ltx.ts:1224-1231 | the overlap of two intervals does not depend on their order |
| Classes.GeometryOf | src/documentclasses/base.ts:96-113 | the text block is the paper width less two inches, at most 345pt; the left margin is half the remaining paper less an inch; the margin notes get half the remaining paper less 11pt and 0.8in, at most 2in; a relative paper width fails |
| Classes.CapAt | src/documentclasses/base.ts:99-101 | a length that compares greater than the cap is replaced by the cap |
| Classes.TextWidth | src/documentclasses/base.ts:96-101 | the paper width less two inches, capped at 345pt |
| Classes.MarginNoteWidth | src/documentclasses/base.ts:106-111 | half the remaining paper less the note separation and 0.8in, capped at 2in |
| Classes.GeometryCentred | src/documentclasses/base.ts:96-113 | the text block is centred on the paper, at most 345pt and exactly 345pt on wide paper; the margin notes are at most 2in |
| Classes.ApplyGeometry | src/documentclasses/base.ts:96-113 | the geometry registers are written from the current paper width and nothing else changes |
| Classes.PaperSize | src/documentclasses/base.ts:60-83 | exactly the six paper options have a size, each taller than wide |
| Classes.PointSize | src/documentclasses/base.ts:89-93 | a point-size option is a number followed by "pt" whose printed form is the text before "pt" |
| Classes.PointSizeRoundTrip | src/documentclasses/base.ts:89-93 | every exactly printable integer size is recognised |
| Classes.ApplyOption | src/documentclasses/base.ts:43-94 | ignored options change nothing; a paper option sets height and width; landscape swaps them; a point size sets `@@size`; any other option changes nothing; only the top frame's lengths change |
| Classes.LandscapeTwice | src/documentclasses/base.ts:84-88 | turning the paper twice gives back the state |
| Classes.ApplyOptions | src/documentclasses/base.ts:41-95 | the intended option loop: the options touch only the scopes and keep the number of frames |
| Classes.ApplyOptionsAsWritten | src/documentclasses/base.ts:41-95 | the option loop as written: every option reaches the switch as "0" or "", so no option changes the state |
| Classes.OptionKey | src/documentclasses/base.ts:42 | `Object.keys` of an option name gives "0" for a non-empty name and nothing for the empty one |
| Classes.A4PaperIgnoredAsWritten | src/documentclasses/base.ts:41-63 | as written, `a4paper` leaves the state unchanged |
| Classes.A4PaperApplied | src/documentclasses/base.ts:60-63 | the intended loop makes `a4paper` a 210mm by 297mm page |
| Classes.NewChain | src/documentclasses/base.ts:24-28 | creating a chain of counters changes only counters and registry and keeps every existing counter's value |
| Classes.NewChainKeepsResets | src/generator.ts:413-439 | a chain leaves the existing reset lists alone, except that the parent gains the first new name |
| Classes.NewChainLinks | src/documentclasses/base.ts:24-28 | the chain's counters are all new, start at zero, and each resets exactly the next; the last resets nothing |
| Classes.SectionCounters | src/documentclasses/base.ts:23-31 | the base counters change only counters and registry |
| Classes.ChainStage | src/documentclasses/base.ts:23-28 | part and the section chain keep the counter maps aligned |
| Classes.NewCounterKeeps | src/generator.ts:423-439 | a counter without a parent is new at zero, resets nothing, and nothing else changes |
| Classes.ChainStageLinks | src/documentclasses/base.ts:23-28 | section down to subparagraph reset one another in order; part and subparagraph reset nothing; older reset lists are kept |
| Classes.ChainStageValues | src/documentclasses/base.ts:23-28 | part and the section chain are new at zero and older values are kept |
| Classes.SectionChainFormed | src/documentclasses/base.ts:23-31 | after the base counters the section chain is formed and part, subparagraph, figure and table reset nothing |
| Classes.FloatsFresh | src/documentclasses/base.ts:30-31 | figure and table are created only when new |
| Classes.FloatsStage | src/documentclasses/base.ts:30-31 | figure and table are new at zero, reset nothing, and keep the chain stage |
| Classes.SectionCountersFresh | src/documentclasses/base.ts:23-31 | every base counter is new and starts at zero, and older values are kept |
| Classes.ChainDescends | src/generator.ts:549-554 | along a reset chain every later counter is below every earlier one |
| Classes.StepClearsBelow | src/generator.ts:453-456 | stepping a counter of a reset chain raises it by one and zeroes every counter below it |
| Classes.BaseConstruct | src/documentclasses/base.ts:19-114 | the base constructor's counters are the base counters, and it keeps the frames and the class fields |
| Classes.ArticleConstruct | src/documentclasses/article.ts:7-10 | article numbers and lists down to level 3 and fails only when those counters are missing |
| Classes.AddResets | src/documentclasses/report.ts:18-20 | the names are appended, in order, to the parent's reset list; values are kept; a missing counter fails |
| Classes.ReportConstruct | src/documentclasses/report.ts:9-27 | the intended report constructor: a new chapter counter resetting section, figure, table and footnote, numbered and listed down to level 2 |
| Classes.ClassArgs | src/documentclasses/report.ts:23-27 | every class gives the sectioning commands and maketitle their descriptors, and `tableofcontents`, `abstract` and `appendix` the vertical mode; `chapter` is declared exactly in report and book, the misspelt `tableofcotents` exactly in article, and the matter divisions exactly in book |
| Classes.SharedArgsNamed | src/documentclasses/base.ts:4-12 | base's sectioning and maketitle descriptors, with the three vertical-mode commands every class declares |
| Classes.SharedArgsOmitted | src/documentclasses/article.ts:11-14 | `chapter`, the misspelt `tableofcotents` and `mainmatter` are not among the shared descriptors |
| Classes.ReportArgsNamed | src/documentclasses/report.ts:23-27 | report keeps every shared descriptor and declares `chapter` like the sectioning commands |
| Classes.BookArgsNamed | src/documentclasses/book.ts:11-13 | book keeps every report descriptor and declares the three matter divisions in vertical mode |
| Classes.ClassBodies | src/documentclasses/report.ts:34-95 | every class has base's bodies and the table of contents, abstract and appendix; report and book also have the chapter bodies |
| Classes.ChapterBodiesByKind | src/documentclasses/report.ts:34-95 | exactly report and book define a chapter body |
| Classes.MatterBodiesByKind | src/documentclasses/book.ts:20-30 | exactly book defines the matter divisions |
| Classes.ConstructClass | src/documentclasses/report.ts:9-27 | the intended constructors: the numbering depth is 3 for article and 2 otherwise, and report and book reset below the chapter |
| Classes.ConstructKeepsChain | src/documentclasses/report.ts:12-20 | every class keeps base's reset chain from section to subparagraph |
| Classes.LoadClass | src/latex.ltx.ts:1294-1318 | the intended `documentclass`: a second class is refused; otherwise the class is constructed, its bodies are installed, every descriptor of the class (report's `chapter` included) takes effect, and the chapter name starts as "Chapter" |
| Classes.LoadClassAsWritten | src/documentclasses/report.ts:9-27 | `documentclass` as written: article loads as intended, report and book always fail, with the `_args` TypeError once their counters are set up |
| Classes.ReportLoadThrows | src/documentclasses/report.ts:23-27 | whenever the intended report or book loads, the written one throws instead |
| Classes.TheIsDefined | src/documentclasses/base.ts:172-194 | a class-defined `the<c>` is used instead of the generic one |
| Classes.ArticleSectionNumber | src/documentclasses/base.ts:172-178 | parts are numbered in Roman and sections in arabic |
| Classes.ArticleSubsectionNumber | src/documentclasses/base.ts:180-182 | a subsection's number is its section's, ".", and its own arabic value |
| Classes.ArticleSectionThe | src/documentclasses/base.ts:176-178 | in a loaded article, `thesection` is the section counter in arabic |
| Classes.ArticleSubsectionThe | src/documentclasses/base.ts:180-182 | in a loaded article, `thesubsection` is the section's number, ".", and the subsection counter in arabic |
| Classes.ReportChapterNumber | src/documentclasses/report.ts:50-52 | before the appendix chapters are numbered in arabic |
| Classes.ReportSectionNumber | src/documentclasses/report.ts:54-56 | report sections carry the chapter number |
| Classes.ReportFigureNumber | src/documentclasses/report.ts:58-62 | figures carry the chapter number only once a chapter has started |
| Classes.Level | src/documentclasses/base.ts:148-170 | each sectioning command's level lies between -1 and 5; only report and book have chapters |
| Classes.Hierarchy | src/documentclasses/report.ts:42-48 | every class sections from part down |
| Classes.LevelsNest | src/documentclasses/report.ts:42-48 | each class's sectioning commands nest one level apart |
| Classes.SectionMacro | src/documentclasses/book.ts:16-18 | a sectioning command starts its section at its level; a book's chapter outside the main matter is starred; an unknown command fails |
| Classes.BookChapterUnnumbered | src/documentclasses/book.ts:16-18 | outside the main matter a book's chapter changes nothing and its heading is unnumbered |
| Classes.NumberingDepth | src/generator.ts:655-661 | with the classes' secnumdepth, levels below it are not numbered |
| Classes.TableOfContents | src/documentclasses/article.ts:24-26 | the intended contents heading: it succeeds exactly when a class is loaded, and is an unnumbered section called "Contents" |
| Classes.TableOfContentsAsWritten | src/documentclasses/article.ts:24-26 | as written, with a class loaded the call `macro('contentsname')` fails, because `contentsname` is a getter and not a macro; without a class there is no `tableofcontents` |
| Classes.TableOfContentsThrows | src/documentclasses/report.ts:70-72 | the written `tableofcontents` never succeeds, and it throws whenever the intended heading would be produced |
| Classes.Maketitle | src/documentclasses/base.ts:213-231 | a missing title fails; otherwise the title becomes the document title, the footnote counter restarts and the title fields are cleared |
| Classes.Abstract | src/documentclasses/article.ts:28-36 | the abstract sets the font size small and its bold head leaves no trace; it needs an open balance counter |
| Classes.EndAbstract | src/documentclasses/article.ts:38-42 | the end of the abstract lowers the list depth by one and fails only without it |
| Classes.AbstractLowersListDepth | src/documentclasses/article.ts:28-42 | the abstract pair leaves the list depth one lower |
| Classes.Appendix | src/documentclasses/report.ts:90-95 | the intended appendix: article resets section and subsection and letters sections; report and book reset chapter and section, letter chapters and name them "Appendix" |
| Classes.AppendixAsWritten | src/documentclasses/report.ts:90-95 | as written, report's and book's appendix resets and letters the chapters like the intended one, but leaves the chapter name undefined, so `chaptername` fails; article's is the intended one |
| Classes.AppendixChapterThrows | src/generator.ts:663-666 | after the written appendix the next numbered chapter heading fails on the undefined chapter name; after the intended one it is a chapter heading named "Appendix" |
| Classes.LetteredSection | src/documentclasses/article.ts:47-49 | the lettering `thesection` prints the section as a capital letter |
| Classes.ArticleAppendixSection | src/documentclasses/article.ts:44-50 | after the appendix an article's sections are lettered |
| Classes.ArticleAppendixFirstSection | src/documentclasses/article.ts:44-50 | the first section after the appendix is "A" |
| Classes.ArticleAppendixSubsection | src/documentclasses/base.ts:180-182 | right after the appendix a subsection reads "@.0" |
| Classes.ReportAppendixNumbering | src/documentclasses/report.ts:90-95 | after the appendix chapters are lettered and named "Appendix" |
| Classes.SetMatter | src/documentclasses/book.ts:20-30 | only book has the matter commands; mainmatter switches chapter numbering on, the other two off |
| Environments.Begin | src/generator.ts:257-264 | an environment opens exactly when a macro of its name exists; it adds one frame and a new balance counter at 1 and pushes the macro's argument frame, keeping everything below |
| Environments.EndMacro | src/latex.ltx.ts:611-737 | an end body changes only counter values; the list-based environments and the abstract close one list level, and the environments without a stateful end leave the state alone |
| Environments.AfterEndMacro | src/generator.ts:266-278 | `end<env>` runs only when it is defined |
| Environments.End | src/generator.ts:266-278 | a mismatched name fails; closing succeeds exactly when the end body does and the balance counter is back at its one group; a group left open inside fails; success drops the balance counter and the environment's frame |
| Environments.ScopesRoundTrip | src/generator.ts:280-305 | leaving an environment's group restores the frames and balance counters it opened on, whatever was set inside |
| Environments.EndClosesBegin | src/generator.ts:257-278 | closing an environment whose end leaves the scopes alone restores the scopes it was opened on |
| Environments.BeginEndRoundTrip | src/generator.ts:257-278 | an environment without an end body leaves everything but the argument stack as it found it |
| Environments.EndUnbalanced | src/generator.ts:266-278 | a group left open inside an environment makes its end fail |
| Environments.DepthOf | src/latex.ltx.ts:669-720 | each list environment has the itemize or enumerate depth counter |
| Environments.ListEndUndoesOpen | src/latex.ltx.ts:669-720 | the end of itemize or enumerate undoes its opening call |
| Environments.ListEnvironmentRoundTrip | src/latex.ltx.ts:669-720 | an itemize or enumerate environment leaves the counters and scopes as they were |
| Environments.AbstractEnvironmentLowersListDepth | src/documentclasses/article.ts:28-42 | the abstract environment restores the scopes but leaves the list depth one lower than before |
| XColor.ColorOf | src/packages/xcolor.ts:106-121 | a colour has exactly the given models |
| XColor.ColorOfValues | src/packages/xcolor.ts:106-121 | each model of a colour holds the specification of its last mention |
| XColor.DefineColor | src/packages/xcolor.ts:106-121 | an unknown type fails, then a model count different from the specification count; otherwise the name maps to the new colour and every other colour is kept |
| XColor.DefineColorDistinct | src/packages/xcolor.ts:114-120 | with distinct models each model holds the specification at its own position |
| XColor.RedefineReplaces | src/packages/xcolor.ts:114-120 | redefining a colour forgets its earlier models |
| XColor.OrEmpty | src/packages/xcolor.ts:94-99 | a missing head or tail is the empty string |
| XColor.DefineColorSet | src/packages/xcolor.ts:89-104 | the set is defined exactly when the type is known and every entry has one specification per model; no colour is lost and colours the set does not name are kept |
| XColor.DefineColorSetDefines | src/packages/xcolor.ts:89-104 | each name of the set, head + name + tail, ends up with the colour of its last entry |
| XColor.ColorBranchSelected | src/packages/xcolor.ts:10-11 | for `color` and `textcolor` the lookahead `[` selects the model list form, `{` the name form, and anything else selects nothing |
| XColor.ColorModes | src/packages/xcolor.ts:7-14 | once loaded, `definecolor` and `definecolorset` are preamble-only, `color` and `textcolor` work in both modes and the boxes are horizontal |
| Echo.Shown | src/generator.ts:189-201 | the emitted entries are exactly the given arguments, none added |
| Echo.ShownComplete | src/generator.ts:189-201 | a result without missing entries is emitted unchanged |
| Echo.ShownAppend | src/generator.ts:189-201 | emitting a concatenation emits each part in order |
| Echo.MarkedIf | src/packages/echo.ts:24-30 | a missing argument adds nothing, a given one adds itself between two marks |
| Echo.GobbleO | src/packages/echo.ts:14-16 | `gobbleO` emits nothing |
| Echo.EchoO | src/packages/echo.ts:18-20 | `echoO` emits the argument between "-" marks, and just the two marks without it |
| Echo.EchoOGO | src/packages/echo.ts:22-32 | `echoOGO` never returns a missing entry and has three entries per argument given |
| Echo.EchoGOG | src/packages/echo.ts:33-40 | `echoGOG` never returns a missing entry and has three entries per argument given |
| Echo.EchoOGOLayout | src/packages/echo.ts:22-32 | `echoOGO` is the mandatory argument marked with "+" between the given optional ones marked with "-" |
| Echo.ShownMarked | src/packages/echo.ts:22-32 | a marked argument is emitted as mark, argument, mark |
| Echo.EchoOGOShown | src/packages/echo.ts:22-32 | what `echoOGO` emits for each combination of optional arguments |
| Echo.EchoGOGFromOGO | src/packages/echo.ts:33-40 | `echoGOG` is `echoOGO` without its first optional argument, followed by its second mandatory argument marked with "+" |

## Left out

- The HTML backend (src/html-generator.ts): DOM construction, hyphenation, entity decoding, stylesheets and the float geometry. Generated nodes are represented by their text or fragment ids.
- SVG drawing for `\line`, `\vector`, `\circle` and the drawing half of `\oval`. It depends on svg.js geometry and floating-point rounding.
- `Vector.shift_start`, `Vector.shift_end` and `Length.norm`. They need square roots, and the shifts read a display string as a number.
- `round`, `value` and `pxpct`. These only format floating-point numbers for display.
- Lengths.Px: gives the exact pixel count, without the rounding to the display precision.
- Floating-point rounding in general. Magnitudes are exact reals, and counters are unbounded integers. Counters are JavaScript numbers, so `String(n)` switches to exponent form ("1e+21") from 10^21 in magnitude and integers above 2^53 lose precision. Numerals.Arabic states the decimal spelling for every integer, so it does not cover these counters.
- The "illegal slope (0,0)" check of `_slopeLengthToCoords`. It compares a display string with the number 0, so it never fires.
- Picture.SlopeLengthToCoords: fixes the display precision at the HTML backend's default of three decimals, where the original reads it from the generator's options. It also does not read `@wholewidth`, which the original fetches and never uses.
- Dynamic `import()` of classes and packages, and the lodash `merge` onto the macro object. Loading is a synchronous table update (`Registry.Load`). Replacement and lodash's index-wise merge agree here, because no class or package descriptor shares a name with a built-in one.
- Lengths.Div: a zero divisor fails with `Err(NonFinite)`. In JavaScript it gives an infinite or NaN magnitude, which real numbers cannot hold.
- Lengths.Ratio: a zero divisor fails with `Err(NonFinite)`, where JavaScript gives Infinity or NaN, for the same reason.
- Numerals.FromCharCode: a code in the surrogate range becomes U+FFFD. JavaScript returns the lone surrogate, which a Dafny `char` cannot hold.
- `today()`, which reads the clock and the locale. Also `console` diagnostics, and `continue` and `break`, which depend on parser locations.
- The symbol-only packages (latexsym, gensymb, stix) and the wrappers hyperref, multicol and graphicx.
- The xcolor constructor's option handling, and the bodies of `color`, `textcolor`, `colorbox` and `fcolorbox`. The bodies are empty in the original; only their descriptors are modelled.
- Classes.Maketitle: keeps the title text but not the rendered title block, author, date or the `today` fallback.
- Classes.Abstract: does not model the centred head list or the quotation it returns.
- Classes.PointSize: accepts only whole numbers of points of magnitude below 2^53. Fractional sizes such as "10.5pt", which JavaScript also prints back exactly, are left out because magnitudes are parsed as integers; so are the larger integers whose double prints back exactly, such as 10^20.
- Macros.MakeBox: does not model the `framebox` shortcut that frames an element already carrying a frame attribute. It also does not model that the picture form of `framebox` returns nothing rather than the text.
- Macros.ItemLabelMacro: names the `labelitem` macro but not the bullet symbols it produces.
- Item rendering, the `description` environment's labels and the list nodes. Only their effect on the depth counters is modelled.
- Generator.Reset: states partial correctness only. It speaks about the initial state when `Reset` succeeds, and `Reset` succeeding on the blank state is not stated separately.
- Registry.BuiltinTagged: states the mode tags of the built-in descriptors, but not that names outside the table have none.
- Echo.Shown: treats only a missing argument as dropped. An argument that is present but empty is falsy in JavaScript and would also be dropped by `echoOGO` and `echoGOG`.
- The end bodies of packages other than the classes, for example the `multicol` environment's end.
- Length.min and Length.max return the later of two tied arguments. Two tied lengths in the model have the same unit and the same value, so they are the same value and the choice cannot be observed.

## Findings

| source | as written | input that shows it | evidently intended | confidence | as-written member | corrected member |
|---|---|---|---|---|---|---|
| src/documentclasses/report.ts:23-27 | the report constructor, which book's runs first, stores its descriptors into `this._args`; no class declares `_args`, so the write throws a TypeError after the chapter counter is set up | `\documentclass{report}` or `\documentclass{book}` on a fresh generator | the descriptors go into `this.args`, as in article.ts:11-14 and book.ts:11-13, and the class loads with `chapter`, `part`, `abstract`, `tableofcontents`, `appendix` (and book's matter divisions) declared (`Classes.ClassArgs`) | not executed | Classes.LoadClassAsWritten | Classes.LoadClass |
| src/documentclasses/article.ts:24-26 | `tableofcontents` (also report.ts:70-72) passes `this.g.macro('contentsname')` as the title. `contentsname` is a getter of the class (base.ts:116-118), which the merge onto the macro object does not copy, so `macro.apply` is called on `undefined` and throws a TypeError | `\tableofcontents` in any loaded class | a starred section headed "Contents" | not executed | Classes.TableOfContentsAsWritten | Classes.TableOfContents |
| src/documentclasses/report.ts:93 | `this._chaptername = this.appendixname` runs on the macro object, which has no `appendixname` because getters are not merged (base.ts:140-142). The chapter name becomes `undefined`, and the next numbered chapter's `this.macro('chaptername').concat(...)` throws (generator.ts:665) | `\appendix` then `\chapter{A}` in report or book | chapters after the appendix are headed "Appendix A", ... | not executed | Classes.AppendixAsWritten | Classes.Appendix |
| src/documentclasses/base.ts:41-42 | `opt = Object.keys(opt)[0]` replaces each option name by the index "0" (or by nothing for an empty name), so the switch never matches a real option | `\documentclass[a4paper]{article}` keeps the 8.5in letter width | the switch runs on the option name itself, and `a4paper` gives a 210mm wide page | not executed | Classes.ApplyOptionsAsWritten | Classes.ApplyOptions |

=== FILE: arguments.dfy ===
/** The argument-parsing protocol between the parser and the interpreter.

    A macro's descriptor list starts with its mode tag, followed by one
    argument kind per argument ("g", "o?", "l", ...). A position may instead
    hold a branch: a list of alternative kind lists, one of which is chosen
    by a single character of lookahead. */
module Arguments {
  import opened Wrappers

  datatype Spec = Kind(k: string) | Branch(alts: seq<seq<Spec>>)

  /** The argument kinds that count as optional when choosing a branch. */
  const OptArgs: set<string> := {"o?", "i?", "k?", "kv?", "n?", "l?", "c-ml?", "cl?"}

  /** One macro whose arguments are being parsed: what is still expected and
      what has been parsed so far. An unknown macro gets a nameless frame. */
  datatype ArgFrame = ArgFrame(name: Option<string>, args: seq<Spec>, parsed: seq<string>)

  type ArgStack = seq<ArgFrame>

  /** `beginArgs`: push a frame expecting the descriptor list without its
      mode tag; a macro without descriptors expects nothing. */
  function BeginArgs(st: ArgStack, macro: string, descriptor: Option<seq<Spec>>): (r: ArgStack)
    ensures |r| == |st| + 1 && r[..|st|] == st
    ensures descriptor.Some? ==> r[|st|].name == Some(macro) && r[|st|].parsed == []
    ensures descriptor.Some? && |descriptor.value| > 0 ==> [descriptor.value[0]] + r[|st|].args == descriptor.value
    ensures descriptor.Some? && |descriptor.value| == 0 ==> r[|st|].args == []
    ensures descriptor.None? ==> r[|st|] == ArgFrame(None, [], [])
  {
    var f := match descriptor
      case Some(d) => ArgFrame(Some(macro), if |d| > 0 then d[1..] else [], [])
      case None => ArgFrame(None, [], []);
    st + [f]
  }

  /** Whether an alternative starts with an optional argument. An empty
      alternative has no first kind, which is not optional. */
  predicate StartsOptional(alt: seq<Spec>) {
    |alt| > 0 && alt[0].Kind? && alt[0].k in OptArgs
  }

  /** An alternative fits the lookahead when `[` meets an optional first
      argument or `{` meets a mandatory one. */
  predicate Fits(alt: seq<Spec>, next: char) {
    (next == '[' && StartsOptional(alt)) || (next == '{' && !StartsOptional(alt))
  }

  /** Index of the first alternative that fits, if any. */
  function FirstFit(alts: seq<seq<Spec>>, next: char): (r: Option<nat>)
    ensures r.Some? ==> r.value < |alts| && Fits(alts[r.value], next)
    ensures r.Some? ==> forall j | 0 <= j < r.value :: !Fits(alts[j], next)
    ensures r.None? ==> forall j | 0 <= j < |alts| :: !Fits(alts[j], next)
  {
    if |alts| == 0 then None
    else if Fits(alts[0], next) then Some(0)
    else
      match FirstFit(alts[1..], next)
      case None => None
      case Some(i) => Some(i + 1)
  }

  predicate AnyFits(alts: seq<seq<Spec>>, next: char) {
    exists i | 0 <= i < |alts| :: Fits(alts[i], next)
  }

  /** `selectArgsBranch`: when the next expected argument is a branch,
      replace it by the first alternative that fits the lookahead and report
      true; otherwise leave everything as it is and report false. */
  function SelectArgsBranch(st: ArgStack, next: char): (r: Result<(ArgStack, bool)>)
    ensures r.Ok? <==> |st| > 0
    ensures r.Err? ==> r.error == NoArgFrame
    ensures r.Ok? ==> |r.value.0| == |st| && r.value.0[..|st| - 1] == st[..|st| - 1]
    ensures r.Ok? && r.value.1 ==>
              var top := st[|st| - 1];
              && |top.args| > 0 && top.args[0].Branch?
              && exists i | 0 <= i < |top.args[0].alts| ::
                   && Fits(top.args[0].alts[i], next)
                   && (forall j | 0 <= j < i :: !Fits(top.args[0].alts[j], next))
                   && r.value.0[|st| - 1] == top.(args := top.args[0].alts[i] + top.args[1..])
    ensures r.Ok? && !r.value.1 ==> r.value.0 == st
    ensures r.Ok? && |st[|st| - 1].args| > 0 && st[|st| - 1].args[0].Branch? ==>
              (r.value.1 <==> AnyFits(st[|st| - 1].args[0].alts, next))
  {
    if |st| == 0 then Err(NoArgFrame)
    else
      var top := st[|st| - 1];
      if |top.args| == 0 || !top.args[0].Branch? then Ok((st, false))
      else
        match FirstFit(top.args[0].alts, next)
        case None => Ok((st, false))
        case Some(i) =>
          Ok((st[|st| - 1 := top.(args := top.args[0].alts[i] + top.args[1..])], true))
  }

  /** `nextArg`: consume the next expected argument when it is kind `k`. */
  function NextArg(st: ArgStack, k: string): (r: Result<(ArgStack, bool)>)
    ensures r.Ok? <==> |st| > 0
    ensures r.Err? ==> r.error == NoArgFrame
    ensures r.Ok? ==> (r.value.1 <==> |st[|st| - 1].args| > 0 && st[|st| - 1].args[0] == Kind(k))
    ensures r.Ok? && r.value.1 ==>
              && |r.value.0| == |st|
              && r.value.0[..|st| - 1] == st[..|st| - 1]
              && [Kind(k)] + r.value.0[|st| - 1].args == st[|st| - 1].args
              && r.value.0[|st| - 1].(args := st[|st| - 1].args) == st[|st| - 1]
    ensures r.Ok? && !r.value.1 ==> r.value.0 == st
  {
    if |st| == 0 then Err(NoArgFrame)
    else
      var top := st[|st| - 1];
      if |top.args| > 0 && top.args[0] == Kind(k) then
        Ok((st[|st| - 1 := top.(args := top.args[1..])], true))
      else Ok((st, false))
  }

  /** `addParsedArg`: record one parsed value on the top frame. */
  function AddParsedArg(st: ArgStack, a: string): (r: Result<ArgStack>)
    ensures r.Ok? <==> |st| > 0
    ensures r.Err? ==> r.error == NoArgFrame
    ensures r.Ok? ==> |r.value| == |st| && r.value[..|st| - 1] == st[..|st| - 1]
    ensures r.Ok? ==> r.value[|st| - 1] == st[|st| - 1].(parsed := st[|st| - 1].parsed + [a])
  {
    if |st| == 0 then Err(NoArgFrame)
    else Ok(st[|st| - 1 := st[|st| - 1].(parsed := st[|st| - 1].parsed + [a])])
  }

  /** `endArgs`: pop the top frame; every expected argument must have been
      consumed. The parsed values come back in parsing order. */
  function EndArgs(st: ArgStack): (r: Result<(ArgStack, seq<string>)>)
    ensures |st| == 0 ==> r == Err(NoArgFrame)
    ensures |st| > 0 && |st[|st| - 1].args| > 0 ==> r == Err(UnconsumedArguments)
    ensures r.Ok? <==> |st| > 0 && |st[|st| - 1].args| == 0
    ensures r.Ok? ==> r.value.0 + [st[|st| - 1]] == st && r.value.1 == st[|st| - 1].parsed
  {
    if |st| == 0 then Err(NoArgFrame)
    else if |st[|st| - 1].args| > 0 then Err(UnconsumedArguments)
    else Ok((st[..|st| - 1], st[|st| - 1].parsed))
  }

  /** The parser's side for a list of plain kinds: for each expected kind,
      consume it and record the matching value. */
  function Feed(st: ArgStack, kinds: seq<string>, values: seq<string>): Result<ArgStack>
    requires |kinds| == |values|
    decreases |kinds|
  {
    if |kinds| == 0 then Ok(st)
    else
      var (st1, ok) :- NextArg(st, kinds[0]);
      if !ok then Err(UnconsumedArguments)
      else
        var st2 :- AddParsedArg(st1, values[0]);
        Feed(st2, kinds[1..], values[1..])
  }

  function Kinds(ks: seq<string>): (r: seq<Spec>)
    ensures |r| == |ks| && forall i | 0 <= i < |ks| :: r[i] == Kind(ks[i])
  {
    if |ks| == 0 then [] else [Kind(ks[0])] + Kinds(ks[1..])
  }

  lemma {:induction false} FeedConsumes(st: ArgStack, f: ArgFrame, kinds: seq<string>, values: seq<string>)
    requires |kinds| == |values|
    requires f.args == Kinds(kinds)
    ensures Feed(st + [f], kinds, values) == Ok(st + [f.(args := [], parsed := f.parsed + values)])
    decreases |kinds|
  {
    if |kinds| == 0 {
      assert f.(args := [], parsed := f.parsed + values) == f;
    } else {
      var top := f.(args := f.args[1..]);
      assert Kinds(kinds)[1..] == Kinds(kinds[1..]);
      assert NextArg(st + [f], kinds[0]) == Ok((st + [top], true)) by {
        assert (st + [f])[|st| := top] == st + [top];
      }
      var g := top.(parsed := f.parsed + [values[0]]);
      assert AddParsedArg(st + [top], values[0]) == Ok(st + [g]) by {
        assert (st + [top])[|st| := g] == st + [g];
      }
      FeedConsumes(st, g, kinds[1..], values[1..]);
      assert g.parsed + values[1..] == f.parsed + values;
    }
  }

  /** The whole protocol for a macro with plain argument kinds: begin, feed
      one value per kind, end. The stack is restored and the values come
      back in order, with the mode tag never expected as an argument. */
  lemma ArgsRoundTrip(st: ArgStack, macro: string, mode: string, kinds: seq<string>, values: seq<string>)
    requires |kinds| == |values|
    ensures var begun := BeginArgs(st, macro, Some([Kind(mode)] + Kinds(kinds)));
            var fed := Feed(begun, kinds, values);
            fed.Ok? && EndArgs(fed.value) == Ok((st, values))
  {
    var d := [Kind(mode)] + Kinds(kinds);
    assert d[1..] == Kinds(kinds);
    var f := ArgFrame(Some(macro), Kinds(kinds), []);
    var begun := BeginArgs(st, macro, Some(d));
    assert begun == st + [f];
    FeedConsumes(st, f, kinds, values);
    assert f.parsed + values == values;
    var done := st + [f.(args := [], parsed := values)];
    assert Feed(begun, kinds, values) == Ok(done);
    assert done[..|done| - 1] == st;
    assert EndArgs(done) == Ok((st, values));
  }

  /** Feeding a value for a kind the frame does not expect next is refused. */
  lemma FeedRejectsWrongKind(st: ArgStack, f: ArgFrame, k: string, v: string)
    requires |f.args| > 0 && f.args[0] != Kind(k)
    ensures Feed(st + [f], [k], [v]) == Err(UnconsumedArguments)
  {
  }
}

=== FILE: classes.dfy ===
/** The document classes: base (shared by all), article, report and book.

    Loading a class runs its constructor against the interpreter state
    (counters, the class options, page geometry), then adds the class's
    argument descriptors and macro bodies to the registry. The class fields
    that later macros switch (chapter numbering style and name, book's
    main-matter flag) live in the state's `cls` component. */
module Classes {
  import opened Wrappers
  import opened Lengths
  import opened Numerals
  import Counters
  import opened Scopes
  import Sc = Scopes
  import opened Arguments
  import opened Registry
  import opened Generator

  /* ---------------------------------------------------------------- */
  /* Page geometry                                                     */
  /* ---------------------------------------------------------------- */

  const Inch: Length := MakeLength(1.0, "in")
  const Pt345: Length := MakeLength(345.0, "pt")
  const MarginparSep: Length := MakeLength(11.0, "pt")
  const MarginparPush: Length := MakeLength(5.0, "pt")

  datatype Geometry = Geometry(textwidth: Length, oddsidemargin: Length, marginparwidth: Length)

  /** The base constructor's geometry from the paper width: the text
      block is the paper less two inches but at most 345pt; the left margin
      is half the remaining paper less an inch; the margin notes get half
      the remaining paper less the note separation and 0.8in, at most 2in.
      A relative paper width cannot be combined with inches. */
  function GeometryOf(pw: Length): (r: Result<Geometry>)
    ensures r.Ok? <==> pw.unit == SP
    ensures r.Ok? ==> r.value.textwidth.unit == SP && r.value.oddsidemargin.unit == SP && r.value.marginparwidth.unit == SP
    ensures r.Ok? ==>
              var tw0 := pw.value - 2.0 * Inch.value;
              var tw := r.value.textwidth.value;
              && tw == (if tw0 > Pt345.value then Pt345.value else tw0)
              && r.value.oddsidemargin.value == (pw.value - tw) * 0.5 - Inch.value
              && var m := (pw.value - tw) * 0.5 - MarginparSep.value - 0.8 * Inch.value;
                 r.value.marginparwidth.value == (if m > 2.0 * Inch.value then 2.0 * Inch.value else m)
  {
    var tw :- TextWidth(pw);
    var half := Mul(Sub(pw, tw).value, 0.5);
    Ok(Geometry(tw, Sub(half, Inch).value, MarginNoteWidth(half)))
  }

  /** `l`, or `cap` when `l` compares greater. */
  function CapAt(l: Length, cap: Length): (r: Length)
    requires l.unit == SP && cap.unit == SP
    ensures r.unit == SP && r.value == (if l.value > cap.value then cap.value else l.value)
  {
    if Cmp(l, cap).value == 1 then cap else l
  }

  /** The paper width less two inches, capped at 345pt. */
  function TextWidth(pw: Length): (r: Result<Length>)
    ensures r.Ok? <==> pw.unit == SP
    ensures r.Ok? ==> r.value.unit == SP
    ensures r.Ok? ==> var tw0 := pw.value - 2.0 * Inch.value;
                      r.value.value == (if tw0 > Pt345.value then Pt345.value else tw0)
  {
    var tw0 :- Sub(pw, Mul(Inch, 2.0));
    Ok(CapAt(tw0, Pt345))
  }

  /** Half the remaining paper less the note separation and 0.8in,
      capped at 2in. */
  function MarginNoteWidth(half: Length): (r: Length)
    requires half.unit == SP
    ensures r.unit == SP
    ensures var m := half.value - MarginparSep.value - 0.8 * Inch.value;
            r.value == (if m > 2.0 * Inch.value then 2.0 * Inch.value else m)
  {
    var m := Sub(Sub(half, MarginparSep).value, Mul(Inch, 0.8)).value;
    CapAt(m, Mul(Inch, 2.0))
  }

  /** The text block sits centred on the paper (one inch of the left
      margin is the printer's offset), never wider than 345pt, and exactly
      345pt once the paper is wide enough; the margin notes are at most 2in. */
  lemma GeometryCentred(pw: Length)
    requires pw.unit == SP
    ensures var g := GeometryOf(pw).value;
            && 2.0 * (g.oddsidemargin.value + Inch.value) + g.textwidth.value == pw.value
            && g.textwidth.value <= Pt345.value
            && (pw.value - 2.0 * Inch.value >= Pt345.value ==> g.textwidth.value == Pt345.value)
            && (pw.value - 2.0 * Inch.value < Pt345.value ==> g.textwidth.value == pw.value - 2.0 * Inch.value)
            && g.marginparwidth.value <= 2.0 * Inch.value
  {
  }

  /** Write the geometry registers in the constructor's order. The
      constructor reads `marginparsep` back after writing it; the value read
      is the 11pt just written. */
  function ApplyGeometry(st: State): (r: Result<State>)
    requires |st.scopes.frames| > 0
    ensures r.Ok? ==> "paperwidth" in Top(st.scopes).lengths && GeometryOf(Top(st.scopes).lengths["paperwidth"]).Ok?
    ensures r.Ok? ==>
              var g := GeometryOf(Top(st.scopes).lengths["paperwidth"]).value;
              && |r.value.scopes.frames| == |st.scopes.frames|
              && Top(r.value.scopes).lengths == Top(st.scopes).lengths["textwidth" := g.textwidth]["marginparsep" := MarginparSep]
                   ["marginparpush" := MarginparPush]["oddsidemargin" := g.oddsidemargin]["marginparwidth" := g.marginparwidth]
    ensures r.Ok? ==> r.value == st.(scopes := r.value.scopes)
  {
    var pw :- Generator.GetLength(st, "paperwidth");
    var g :- GeometryOf(pw);
    var st1 :- Generator.SetLength(st, "textwidth", g.textwidth);
    var st2 :- Generator.SetLength(st1, "marginparsep", MarginparSep);
    var st3 :- Generator.SetLength(st2, "marginparpush", MarginparPush);
    var st4 :- Generator.SetLength(st3, "oddsidemargin", g.oddsidemargin);
    Generator.SetLength(st4, "marginparwidth", g.marginparwidth)
  }

  /* ---------------------------------------------------------------- */
  /* Class options                                                     */
  /* ---------------------------------------------------------------- */

  /** Options the base class accepts and ignores. */
  const IgnoredOptions: set<string> := {"oneside", "twoside", "onecolumn", "twocolumn", "titlepage", "notitlepage", "fleqn", "leqno"}

  /** The paper options: (height, width). */
  function PaperSize(opt: string): (r: Option<(Length, Length)>)
    ensures r.Some? ==> opt !in IgnoredOptions && opt != "landscape"
    ensures r.Some? <==> opt in {"a4paper", "a5paper", "b5paper", "letterpaper", "legalpaper", "executivepaper"}
    ensures r.Some? ==> r.value.0.unit == SP && r.value.1.unit == SP && r.value.1.value < r.value.0.value
  {
    match opt
    case "a4paper" => Some((MakeLength(297.0, "mm"), MakeLength(210.0, "mm")))
    case "a5paper" => Some((MakeLength(210.0, "mm"), MakeLength(148.0, "mm")))
    case "b5paper" => Some((MakeLength(250.0, "mm"), MakeLength(176.0, "mm")))
    case "letterpaper" => Some((MakeLength(11.0, "in"), MakeLength(8.5, "in")))
    case "legalpaper" => Some((MakeLength(14.0, "in"), MakeLength(8.5, "in")))
    case "executivepaper" => Some((MakeLength(10.5, "in"), MakeLength(7.25, "in")))
    case _ => None
  }

  /** 2^53: a double holds every integer of smaller magnitude exactly, so
      each of them prints back as written. */
  const MaxExact: int := 9_007_199_254_740_992

  /** The `<N>pt` option: a number followed by "pt", accepted only when
      printing the parsed number gives back exactly the text before "pt". */
  function PointSize(opt: string): (r: Option<int>)
    ensures r.Some? ==> opt == Arabic(r.value) + "pt" && -MaxExact < r.value < MaxExact
  {
    if |opt| >= 2 && opt[|opt| - 2..] == "pt" then
      var s := opt[..|opt| - 2];
      var n := ParseArabic(s);
      if Arabic(n) == s && -MaxExact < n < MaxExact then
        assert opt == s + "pt";
        Some(n)
      else None
    else None
  }

  /** Every point size the original prints exactly is recognised. */
  lemma PointSizeRoundTrip(n: int)
    requires -MaxExact < n < MaxExact
    ensures PointSize(Arabic(n) + "pt") == Some(n)
  {
    var opt := Arabic(n) + "pt";
    assert opt[|opt| - 2..] == "pt" && opt[..|opt| - 2] == Arabic(n);
  }

  /** One class option of the base constructor's switch. */
  function ApplyOption(st: State, opt: string): (r: Result<State>)
    requires |st.scopes.frames| > 0
    ensures opt in IgnoredOptions ==> r == Ok(st)
    ensures r.Ok? ==> r.value == st.(scopes := r.value.scopes) && |r.value.scopes.frames| == |st.scopes.frames|
    ensures r.Ok? ==> && r.value.scopes.groups == st.scopes.groups
                      && r.value.scopes.frames[..|st.scopes.frames| - 1] == st.scopes.frames[..|st.scopes.frames| - 1]
                      && Top(r.value.scopes) == Top(st.scopes).(lengths := Top(r.value.scopes).lengths)
    ensures PaperSize(opt).Some? ==>
              && (r.Ok? <==> "paperheight" in Top(st.scopes).lengths && "paperwidth" in Top(st.scopes).lengths)
              && (r.Ok? ==> Top(r.value.scopes).lengths == Top(st.scopes).lengths["paperheight" := PaperSize(opt).value.0]["paperwidth" := PaperSize(opt).value.1])
    ensures opt == "landscape" ==>
              && (r.Ok? <==> "paperheight" in Top(st.scopes).lengths && "paperwidth" in Top(st.scopes).lengths)
              && (r.Ok? ==>
                    var ls := Top(st.scopes).lengths;
                    Top(r.value.scopes).lengths == ls["paperheight" := ls["paperwidth"]]["paperwidth" := ls["paperheight"]])
    ensures opt !in IgnoredOptions && PaperSize(opt).None? && opt != "landscape" && PointSize(opt).Some? ==>
              && (r.Ok? <==> "@@size" in Top(st.scopes).lengths)
              && (r.Ok? ==> Top(r.value.scopes).lengths == Top(st.scopes).lengths["@@size" := MakeLength(PointSize(opt).value as real, "pt")])
    ensures opt !in IgnoredOptions && PaperSize(opt).None? && opt != "landscape" && PointSize(opt).None? ==> r == Ok(st)
  {
    if opt in IgnoredOptions then Ok(st)
    else if PaperSize(opt).Some? then
      var (h, w) := PaperSize(opt).value;
      var st1 :- Generator.SetLength(st, "paperheight", h);
      Generator.SetLength(st1, "paperwidth", w)
    else if opt == "landscape" then
      var ph :- Generator.GetLength(st, "paperheight");
      var pw :- Generator.GetLength(st, "paperwidth");
      var st1 := Generator.SetLength(st, "paperheight", pw).value;
      Generator.SetLength(st1, "paperwidth", ph)
    else
      match PointSize(opt)
      case Some(n) => Generator.SetLength(st, "@@size", MakeLength(n as real, "pt"))
      case None => Ok(st)
  }

  /** Turning the paper twice gives back the paper. */
  lemma LandscapeTwice(st: State)
    requires |st.scopes.frames| > 0
    requires "paperheight" in Top(st.scopes).lengths && "paperwidth" in Top(st.scopes).lengths
    ensures ApplyOption(st, "landscape").Ok?
    ensures ApplyOption(ApplyOption(st, "landscape").value, "landscape") == Ok(st)
  {
    var once := ApplyOption(st, "landscape").value;
    var twice := ApplyOption(once, "landscape").value;
    var ls := Top(st.scopes).lengths;
    var n := |st.scopes.frames|;
    assert Top(twice.scopes).lengths == ls;
    assert twice.scopes.frames == twice.scopes.frames[..n - 1] + [Top(twice.scopes)];
    assert st.scopes.frames == st.scopes.frames[..n - 1] + [Top(st.scopes)];
  }

  function ApplyOptions(st: State, opts: seq<string>): (r: Result<State>)
    requires |st.scopes.frames| > 0
    ensures r.Ok? ==> r.value == st.(scopes := r.value.scopes) && |r.value.scopes.frames| == |st.scopes.frames|
    decreases |opts|
  {
    if |opts| == 0 then Ok(st)
    else
      var st1 :- ApplyOption(st, opts[0]);
      ApplyOptions(st1, opts[1..])
  }

  /** The header of the base constructor's option loop as written:
      `Object.keys` of an option name gives the indices of its characters,
      so the switch sees "0" (or nothing, for an empty name). */
  function OptionKey(opt: string): (r: string)
    ensures r == "0" <==> |opt| > 0
    ensures r != "0" ==> r == ""
  {
    if |opt| > 0 then "0" else ""
  }

  /** The option loop as written, kept to exhibit its defect; the intended
      loop is `ApplyOptions`. Every option reaches the switch as "0" or "",
      which no case names and which is no point size, so no option has any
      effect. */
  function ApplyOptionsAsWritten(st: State, opts: seq<string>): (r: Result<State>)
    requires |st.scopes.frames| > 0
    ensures r == Ok(st)
    decreases |opts|
  {
    if |opts| == 0 then Ok(st)
    else
      var key := OptionKey(opts[0]);
      assert key !in IgnoredOptions && PaperSize(key).None? && key != "landscape" && PointSize(key).None?;
      ApplyOptionsAsWritten(ApplyOption(st, key).value, opts[1..])
  }

  /** `a4paper` as written leaves the paper as it was, letter paper after
      the base constructor's defaults. */
  lemma A4PaperIgnoredAsWritten(st: State)
    requires |st.scopes.frames| > 0
    ensures ApplyOptionsAsWritten(st, ["a4paper"]) == Ok(st)
  {
  }

  /** The intended loop sets an A4 page: 297mm by 210mm. */
  lemma A4PaperApplied(st: State)
    requires |st.scopes.frames| > 0
    requires "paperheight" in Top(st.scopes).lengths && "paperwidth" in Top(st.scopes).lengths
    ensures ApplyOptions(st, ["a4paper"]).Ok?
    ensures Top(ApplyOptions(st, ["a4paper"]).value.scopes).lengths["paperwidth"] == MakeLength(210.0, "mm")
    ensures Top(ApplyOptions(st, ["a4paper"]).value.scopes).lengths["paperheight"] == MakeLength(297.0, "mm")
  {
  }

  /* ---------------------------------------------------------------- */
  /* Constructors                                                      */
  /* ---------------------------------------------------------------- */

  /** The sectioning counters that reset one another, outermost first. */
  const SectionLevels: seq<string> := ["section", "subsection", "subsubsection", "paragraph", "subparagraph"]

  /** The section levels are five distinct non-empty names, none of them
      a counter the classes create beside the chain. */
  lemma SectionLevelsNamed()
    ensures |SectionLevels| == 5 && SectionLevels[0] == "section" && SectionLevels[4] == "subparagraph"
    ensures forall i | 0 <= i < |SectionLevels| ::
              && SectionLevels[i] != "" && SectionLevels[i] != "part" && SectionLevels[i] != "chapter"
              && SectionLevels[i] != "figure" && SectionLevels[i] != "table" && SectionLevels[i] != "footnote"
  {
  }

  /** Consecutive names reset one another and nothing else: each one's
      reset list is exactly the next name. */
  ghost predicate ResetChain(t: Counters.Counters, names: seq<string>) {
    forall i | 0 <= i < |names| - 1 :: names[i] in t.resets && t.resets[names[i]] == [names[i + 1]]
  }

  /** `c` exists and resets no other counter. */
  ghost predicate ResetsNothing(t: Counters.Counters, c: string) {
    c in t.resets && t.resets[c] == []
  }

  /** New counters, each one reset by the one before it; the first is
      reset by `parent` when one is given. */
  function NewChain(st: State, names: seq<string>, parent: Option<string>): (r: Result<State>)
    requires st.counters.values.Keys == st.counters.resets.Keys
    requires forall i | 0 <= i < |names| :: names[i] != ""
    requires parent.Some? ==> parent.value != "" && parent.value in st.counters.values
    ensures r.Ok? ==> r.value.counters.values.Keys == r.value.counters.resets.Keys
    ensures r.Ok? ==> r.value == st.(counters := r.value.counters, registry := r.value.registry)
    ensures r.Ok? ==> forall d | d in st.counters.values :: d in r.value.counters.values && r.value.counters.values[d] == st.counters.values[d]
    decreases |names|
  {
    if |names| == 0 then Ok(st)
    else
      var st1 :- NewCounter(st, names[0], parent);
      NewChain(st1, names[1..], Some(names[0]))
  }

  /** A chain leaves the reset lists of existing counters alone, except
      that the parent gains the first new name. */
  lemma {:induction false} NewChainKeepsResets(st: State, names: seq<string>, parent: Option<string>)
    requires st.counters.values.Keys == st.counters.resets.Keys
    requires forall i | 0 <= i < |names| :: names[i] != ""
    requires parent.Some? ==> parent.value != "" && parent.value in st.counters.values
    requires NewChain(st, names, parent).Ok?
    ensures forall d | d in st.counters.values ::
              NewChain(st, names, parent).value.counters.resets[d] ==
                (if parent.Some? && d == parent.value && |names| > 0 then st.counters.resets[d] + [names[0]]
                 else st.counters.resets[d])
    decreases |names|
  {
    if |names| > 0 {
      var st1 := NewCounter(st, names[0], parent).value;
      NewChainKeepsResets(st1, names[1..], Some(names[0]));
    }
  }

  /** The new counters were all fresh, start at zero, and reset one
      another in order; the last one resets nothing. */
  lemma {:induction false} NewChainLinks(st: State, names: seq<string>, parent: Option<string>)
    requires st.counters.values.Keys == st.counters.resets.Keys
    requires forall i | 0 <= i < |names| :: names[i] != ""
    requires parent.Some? ==> parent.value != "" && parent.value in st.counters.values
    requires NewChain(st, names, parent).Ok?
    ensures var t := NewChain(st, names, parent).value.counters;
            && (forall i | 0 <= i < |names| :: names[i] !in st.counters.values && names[i] in t.values && t.values[names[i]] == 0)
            && ResetChain(t, names)
            && (|names| > 0 ==> t.resets[names[|names| - 1]] == [])
    decreases |names|
  {
    if |names| > 0 {
      var st1 := NewCounter(st, names[0], parent).value;
      var rest := names[1..];
      NewChainLinks(st1, rest, Some(names[0]));
      NewChainKeepsResets(st1, rest, Some(names[0]));
      var t := NewChain(st, names, parent).value.counters;
      assert t == NewChain(st1, rest, Some(names[0])).value.counters;
      assert st1.counters.resets[names[0]] == [];
      forall i | 0 <= i < |names| - 1
        ensures names[i] in t.resets && t.resets[names[i]] == [names[i + 1]]
      {
        if i > 0 {
          assert names[i] == rest[i - 1] && names[i + 1] == rest[i];
        }
      }
      forall i | 0 <= i < |names|
        ensures names[i] !in st.counters.values && names[i] in t.values && t.values[names[i]] == 0
      {
        if i > 0 {
          assert names[i] == rest[i - 1];
        }
      }
      if |rest| > 0 {
        assert names[|names| - 1] == rest[|rest| - 1];
      }
    }
  }

  /** The base constructor's counters: part, the reset chain section >
      subsection > subsubsection > paragraph > subparagraph, figure and
      table. */
  function SectionCounters(st: State): (r: Result<State>)
    requires st.counters.values.Keys == st.counters.resets.Keys
    ensures r.Ok? ==> r.value.counters.values.Keys == r.value.counters.resets.Keys
    ensures r.Ok? ==> r.value == st.(counters := r.value.counters, registry := r.value.registry)
  {
    var st1 :- NewCounter(st, "part", None);
    SectionLevelsNamed();
    var st2 :- NewChain(st1, SectionLevels, None);
    NewCounters(st2, ["figure", "table"])
  }

  /** The counters after part and the section chain. */
  function ChainStage(st: State): (r: Result<State>)
    requires st.counters.values.Keys == st.counters.resets.Keys
    ensures r.Ok? ==> r.value.counters.values.Keys == r.value.counters.resets.Keys
  {
    var st1 :- NewCounter(st, "part", None);
    SectionLevelsNamed();
    NewChain(st1, SectionLevels, None)
  }

  /** A counter created without a parent starts at zero, resets nothing,
      and leaves every existing counter and reset list as it was. */
  lemma NewCounterKeeps(st: State, c: string)
    requires st.counters.values.Keys == st.counters.resets.Keys
    requires NewCounter(st, c, None).Ok?
    ensures var t := NewCounter(st, c, None).value.counters;
            && c !in st.counters.values && t.values == st.counters.values[c := 0] && t.resets == st.counters.resets[c := []]
  {
  }

  /** Part and the section chain reset nothing but the chain's own links,
      and the reset lists that existed are untouched. */
  lemma ChainStageLinks(st: State)
    requires st.counters.values.Keys == st.counters.resets.Keys
    requires ChainStage(st).Ok?
    ensures var t := ChainStage(st).value.counters;
            && ResetChain(t, SectionLevels)
            && ResetsNothing(t, "part") && ResetsNothing(t, "subparagraph")
            && (forall d | d in st.counters.values :: d in t.resets && t.resets[d] == st.counters.resets[d])
  {
    var st1 := NewCounter(st, "part", None).value;
    SectionLevelsNamed();
    assert ChainStage(st) == NewChain(st1, SectionLevels, None);
    NewCounterKeeps(st, "part");
    NewChainLinks(st1, SectionLevels, None);
    NewChainKeepsResets(st1, SectionLevels, None);
  }

  /** `c` did not exist before and exists at zero after. */
  ghost predicate NewAtZero(before: Counters.Counters, after: Counters.Counters, c: string) {
    c !in before.values && c in after.values && after.values[c] == 0
  }

  /** Every counter that existed before keeps its value. */
  ghost predicate ValuesKept(before: Counters.Counters, after: Counters.Counters) {
    forall d | d in before.values :: d in after.values && after.values[d] == before.values[d]
  }

  /** Part and the section chain are new and start at zero; the values
      that existed are untouched. */
  lemma ChainStageValues(st: State)
    requires st.counters.values.Keys == st.counters.resets.Keys
    requires ChainStage(st).Ok?
    ensures var t := ChainStage(st).value.counters;
            && NewAtZero(st.counters, t, "part")
            && (forall i | 0 <= i < |SectionLevels| :: NewAtZero(st.counters, t, SectionLevels[i]))
            && ValuesKept(st.counters, t)
  {
    var st1 := NewCounter(st, "part", None).value;
    SectionLevelsNamed();
    assert ChainStage(st) == NewChain(st1, SectionLevels, None);
    NewCounterKeeps(st, "part");
    NewChainLinks(st1, SectionLevels, None);
  }

  /** Section down to subparagraph form one reset chain; part,
      subparagraph, figure and table reset nothing; the reset lists of the
      counters that existed before are untouched. */
  lemma SectionChainFormed(st: State)
    requires st.counters.values.Keys == st.counters.resets.Keys
    requires SectionCounters(st).Ok?
    ensures var t := SectionCounters(st).value.counters;
            && ResetChain(t, SectionLevels)
            && ResetsNothing(t, "part") && ResetsNothing(t, "subparagraph") && ResetsNothing(t, "figure") && ResetsNothing(t, "table")
            && (forall d | d in st.counters.values :: d in t.resets && t.resets[d] == st.counters.resets[d])
  {
    ChainStageLinks(st);
    FloatsStage(st);
  }

  /** The floats are created after the chain, and only when new. */
  lemma FloatsFresh(st2: State)
    requires st2.counters.values.Keys == st2.counters.resets.Keys
    requires NewCounters(st2, ["figure", "table"]).Ok?
    ensures "figure" !in st2.counters.values && "table" !in st2.counters.values
  {
    var st3 := NewCounter(st2, "figure", None).value;
    assert NewCounters(st3, ["table"]).Ok? by {
      assert ["figure", "table"][1..] == ["table"];
    }
  }

  /** The last stage of the base counters: figure and table are new, at
      zero, reset nothing, and the counters of the chain stage are kept. */
  lemma FloatsStage(st: State)
    requires st.counters.values.Keys == st.counters.resets.Keys
    requires SectionCounters(st).Ok?
    ensures ChainStage(st).Ok?
    ensures var t2 := ChainStage(st).value.counters;
            var t := SectionCounters(st).value.counters;
            && NewAtZero(t2, t, "figure") && NewAtZero(t2, t, "table")
            && ResetsNothing(t, "figure") && ResetsNothing(t, "table")
            && ValuesKept(t2, t)
            && (forall d | d in t2.resets :: d in t.resets && t.resets[d] == t2.resets[d])
  {
    var st2 := ChainStage(st).value;
    assert SectionCounters(st) == NewCounters(st2, ["figure", "table"]);
    FloatsFresh(st2);
    NewPairFresh(st2, "figure", "table");
  }

  /** Two fresh counters created in a row are new at zero, reset nothing,
      and leave the counters that existed alone. */
  lemma NewPairFresh(st: State, a: string, b: string)
    requires st.counters.values.Keys == st.counters.resets.Keys
    requires a != b && a !in st.counters.values && b !in st.counters.values
    ensures NewCounters(st, [a, b]).Ok?
    ensures var t := NewCounters(st, [a, b]).value.counters;
            && NewAtZero(st.counters, t, a) && NewAtZero(st.counters, t, b)
            && ResetsNothing(t, a) && ResetsNothing(t, b)
            && ValuesKept(st.counters, t)
            && (forall d | d in st.counters.resets :: d in t.resets && t.resets[d] == st.counters.resets[d])
  {
    var cs := [a, b];
    assert cs[0] == a && cs[1] == b;
    NewCountersFresh(st, cs);
  }

  /** The base counters were all new, start at zero, and leave the values
      of the counters that existed before alone. */
  lemma SectionCountersFresh(st: State)
    requires st.counters.values.Keys == st.counters.resets.Keys
    requires SectionCounters(st).Ok?
    ensures var t := SectionCounters(st).value.counters;
            && NewAtZero(st.counters, t, "part") && NewAtZero(st.counters, t, "figure") && NewAtZero(st.counters, t, "table")
            && (forall i | 0 <= i < |SectionLevels| :: NewAtZero(st.counters, t, SectionLevels[i]))
            && ValuesKept(st.counters, t)
  {
    FloatsStage(st);
    ChainStageValues(st);
  }

  /** Along a reset chain every later name descends from every earlier one. */
  lemma ChainDescends(t: Counters.Counters, names: seq<string>, k: nat, j: nat)
    requires ResetChain(t, names) && k < j < |names|
    ensures Counters.Descendant(t, names[k], names[j])
  {
    var p := names[k + 1..j + 1];
    forall i | 0 <= i < |p| - 1
      ensures p[i] in t.resets && p[i + 1] in t.resets[p[i]]
    {
      assert p[i] == names[k + 1 + i] && p[i + 1] == names[k + 1 + i + 1];
    }
    assert Counters.IsChain(t, p);
    assert p[0] in t.resets[names[k]];
  }

  /** Stepping a counter of a reset chain zeroes every counter below it. */
  lemma StepClearsBelow(t: Counters.Counters, names: seq<string>, k: nat)
    requires ResetChain(t, names) && k < |names|
    requires forall i | 0 <= i < |names| :: names[i] in t.values
    requires Counters.Step(t, names[k]).Ok?
    ensures Counters.Step(t, names[k]).value.values[names[k]] == t.values[names[k]] + 1
    ensures forall j | k < j < |names| :: Counters.Step(t, names[k]).value.values[names[j]] == 0
  {
    var v := Counters.Step(t, names[k]).value.values;
    forall j | k < j < |names|
      ensures v[names[j]] == 0
    {
      ChainDescends(t, names, k, j);
    }
  }

  /** The base constructor: counters, the default letter paper and 14pt
      `@@size`, the class options in order, then the geometry. */
  function BaseConstruct(st: State, opts: seq<string>): (r: Result<State>)
    requires st.counters.values.Keys == st.counters.resets.Keys && |st.scopes.frames| > 0
    ensures r.Ok? ==> SectionCounters(st).Ok? && r.value.counters == SectionCounters(st).value.counters
    ensures r.Ok? ==> r.value.registry == SectionCounters(st).value.registry
    ensures r.Ok? ==> |r.value.scopes.frames| == |st.scopes.frames| && r.value.cls == st.cls
  {
    var st1 :- SectionCounters(st);
    var st2 :- Generator.SetLength(st1, "paperheight", MakeLength(11.0, "in"));
    var st3 :- Generator.SetLength(st2, "paperwidth", MakeLength(8.5, "in"));
    var st4 :- Generator.SetLength(st3, "@@size", MakeLength(14.0, "pt"));
    var st5 :- ApplyOptions(st4, opts);
    ApplyGeometry(st5)
  }

  /** Article: sections numbered and listed down to subsubsection. */
  function ArticleConstruct(st: State): (r: Result<State>)
    ensures r.Ok? <==> "secnumdepth" in st.counters.values && "tocdepth" in st.counters.values
    ensures r.Ok? ==> r.value == st.(counters := st.counters.(values := st.counters.values["secnumdepth" := 3]["tocdepth" := 3]))
  {
    var st1 :- SetCounter(st, "secnumdepth", 3);
    SetCounter(st1, "tocdepth", 3)
  }

  /** Add several counters to one parent's reset list, in order. */
  function AddResets(st: State, cs: seq<string>, parent: string): (r: Result<State>)
    requires st.counters.values.Keys == st.counters.resets.Keys
    ensures r.Ok? <==> |cs| == 0 || (parent in st.counters.values && forall c | c in cs :: c in st.counters.values)
    ensures r.Ok? ==> r.value.counters.values == st.counters.values
    ensures |cs| == 0 ==> r == Ok(st)
    ensures r.Ok? && |cs| > 0 ==> r.value.counters.resets == st.counters.resets[parent := st.counters.resets[parent] + cs]
    ensures r.Ok? ==> r.value == st.(counters := r.value.counters)
    decreases |cs|
  {
    if |cs| == 0 then Ok(st)
    else
      assert forall c | c in cs :: c == cs[0] || c in cs[1..];
      match AddToReset(st, cs[0], parent)
      case Err(e) => Err(e)
      case Ok(st1) =>
        var before := st.counters.resets[parent];
        assert st1.counters.resets[parent] == before + [cs[0]];
        assert before + [cs[0]] + cs[1..] == before + cs;
        if |cs| == 1 then
          assert cs == [cs[0]];
          Ok(st1)
        else
          AddResets(st1, cs[1..], parent)
  }

  /** Report (and book, which runs it first): a chapter counter that resets
      section, figure, table and footnote; numbered and listed down to
      subsection. */
  function ReportConstruct(st: State): (r: Result<State>)
    requires st.counters.values.Keys == st.counters.resets.Keys
    ensures r.Ok? <==> && "chapter" !in st.counters.values && "section" in st.counters.values
                       && "secnumdepth" in st.counters.values && "tocdepth" in st.counters.values
                       && "figure" in st.counters.values && "table" in st.counters.values && "footnote" in st.counters.values
    ensures r.Ok? ==> r.value.counters.values == st.counters.values["chapter" := 0]["secnumdepth" := 2]["tocdepth" := 2]
    ensures r.Ok? ==> r.value.counters.resets == st.counters.resets["chapter" := ["section", "figure", "table", "footnote"]]
    ensures r.Ok? ==> r.value == st.(counters := r.value.counters, registry := r.value.registry)
  {
    var st1 :- NewCounter(st, "chapter", None);
    var st2 :- AddToReset(st1, "section", "chapter");
    var st3 :- SetCounter(st2, "secnumdepth", 2);
    var st4 :- SetCounter(st3, "tocdepth", 2);
    var st5 :- AddResets(st4, ["figure", "table", "footnote"], "chapter");
    assert [] + ["section"] + ["figure", "table", "footnote"] == ["section", "figure", "table", "footnote"];
    Ok(st5)
  }

  /** `c` exists and holds zero. */
  ghost predicate IsZero(v: map<string, int>, c: string) {
    c in v && v[c] == 0
  }

  /** A counter whose reset list holds the head of a reset chain has every
      name of the chain below it. */
  lemma ChainBelow(t: Counters.Counters, parent: string, names: seq<string>, j: nat)
    requires ResetChain(t, names) && j < |names|
    requires parent in t.resets && names[0] in t.resets[parent]
    ensures Counters.Descendant(t, parent, names[j])
  {
    var p := names[..j + 1];
    forall i | 0 <= i < |p| - 1
      ensures p[i] in t.resets && p[i + 1] in t.resets[p[i]]
    {
      assert p[i] == names[i] && p[i + 1] == names[i + 1];
    }
    assert Counters.IsChain(t, p);
    assert p[0] in t.resets[parent] && p[|p| - 1] == names[j];
  }

  /** A counter directly in the reset list is below its parent. */
  lemma ChildBelow(t: Counters.Counters, parent: string, c: string)
    requires parent in t.resets && c in t.resets[parent]
    ensures Counters.Descendant(t, parent, c)
  {
    assert Counters.IsChain(t, [c]);
  }

  /** Stepping the chapter zeroes the sections and everything below them,
      figures, tables and footnotes. */
  lemma StepChapterClears(t: Counters.Counters)
    requires "chapter" in t.resets && t.resets["chapter"] == ["section", "figure", "table", "footnote"]
    requires ResetChain(t, SectionLevels)
    requires Counters.Step(t, "chapter").Ok?
    requires "section" in t.values && "subsection" in t.values && "subsubsection" in t.values
    requires "figure" in t.values && "table" in t.values && "footnote" in t.values
    ensures var v := Counters.Step(t, "chapter").value.values;
            && "chapter" in t.values && "chapter" in v && v["chapter"] == t.values["chapter"] + 1
            && IsZero(v, "section") && IsZero(v, "subsection") && IsZero(v, "subsubsection")
            && IsZero(v, "figure") && IsZero(v, "table") && IsZero(v, "footnote")
  {
    var kids := t.resets["chapter"];
    assert SectionLevels[0] == "section" && SectionLevels[1] == "subsection" && SectionLevels[2] == "subsubsection";
    ChainBelow(t, "chapter", SectionLevels, 0);
    ChainBelow(t, "chapter", SectionLevels, 1);
    ChainBelow(t, "chapter", SectionLevels, 2);
    assert kids[1] == "figure" && kids[2] == "table" && kids[3] == "footnote";
    ChildBelow(t, "chapter", "figure");
    ChildBelow(t, "chapter", "table");
    ChildBelow(t, "chapter", "footnote");
  }

  /* ---------------------------------------------------------------- */
  /* Loading                                                           */
  /* ---------------------------------------------------------------- */

  const SectionSpec: seq<Spec> := [Kind("V"), Kind("s"), Kind("X"), Kind("o?"), Kind("g")]

  /** The descriptors a class adds: base's sectioning commands and
      `maketitle`; the vertical-mode `tableofcontents`, `abstract` and
      `appendix` of every class (article also declares a misspelt
      `tableofcotents`, kept so); report's `part` and `chapter`; and book's
      three matter divisions. The report and book entries are the intended
      ones: as written they go to an undeclared property (see
      `LoadClassAsWritten`). */
  function ClassArgs(kind: ClassKind): (r: map<string, seq<Spec>>)
    ensures forall n | n in ["part", "section", "subsection", "subsubsection", "paragraph", "subparagraph"] :: n in r && r[n] == SectionSpec
    ensures "maketitle" in r && r["maketitle"] == [Kind("V")]
    ensures forall n | n in ["tableofcontents", "abstract", "appendix"] :: n in r && r[n] == [Kind("V")]
    ensures kind != Article <==> "chapter" in r
    ensures kind != Article ==> r["chapter"] == SectionSpec
    ensures kind == Article <==> "tableofcotents" in r
    ensures kind == Book <==> "mainmatter" in r
    ensures kind == Book ==> forall n | n in ["frontmatter", "mainmatter", "backmatter"] :: n in r && r[n] == [Kind("V")]
  {
    SharedArgsNamed();
    SharedArgsOmitted();
    ReportArgsNamed();
    BookArgsNamed();
    match kind
    case Article => SharedArgs["tableofcotents" := [Kind("V")]]
    case Report => ReportArgs
    case Book => BookArgs
  }

  /** Base's descriptors with the three every class adds. */
  const SharedArgs: map<string, seq<Spec>> :=
    map["part" := SectionSpec, "section" := SectionSpec, "subsection" := SectionSpec,
        "subsubsection" := SectionSpec, "paragraph" := SectionSpec, "subparagraph" := SectionSpec,
        "maketitle" := [Kind("V")],
        "tableofcontents" := [Kind("V")], "abstract" := [Kind("V")], "appendix" := [Kind("V")]]

  /** Report's: `part` (again) and `chapter` added. */
  const ReportArgs: map<string, seq<Spec>> := SharedArgs["part" := SectionSpec]["chapter" := SectionSpec]

  /** Book's: report's with the three matter divisions. */
  const BookArgs: map<string, seq<Spec>> :=
    ReportArgs["frontmatter" := [Kind("V")]]["mainmatter" := [Kind("V")]]["backmatter" := [Kind("V")]]

  /** The entries every class shares. */
  lemma SharedArgsNamed()
    ensures forall n | n in ["part", "section", "subsection", "subsubsection", "paragraph", "subparagraph"] :: n in SharedArgs && SharedArgs[n] == SectionSpec
    ensures "maketitle" in SharedArgs && SharedArgs["maketitle"] == [Kind("V")]
    ensures forall n | n in ["tableofcontents", "abstract", "appendix"] :: n in SharedArgs && SharedArgs[n] == [Kind("V")]
  {
  }

  /** The entries only some classes have are not shared. */
  lemma SharedArgsOmitted()
    ensures "chapter" !in SharedArgs && "tableofcotents" !in SharedArgs && "mainmatter" !in SharedArgs
  {
  }

  /** Report keeps every shared entry and adds `chapter`. */
  lemma ReportArgsNamed()
    ensures forall n | n in SharedArgs :: n in ReportArgs && ReportArgs[n] == SharedArgs[n]
    ensures "chapter" in ReportArgs && ReportArgs["chapter"] == SectionSpec
    ensures "tableofcotents" !in ReportArgs && "mainmatter" !in ReportArgs
  {
    SharedArgsNamed();
    SharedArgsOmitted();
  }

  /** Book keeps every report entry and adds the matter divisions. */
  lemma BookArgsNamed()
    ensures forall n | n in ReportArgs :: n in BookArgs && BookArgs[n] == ReportArgs[n]
    ensures forall n | n in ["frontmatter", "mainmatter", "backmatter"] :: n in BookArgs && BookArgs[n] == [Kind("V")]
    ensures "tableofcotents" !in BookArgs
  {
    ReportArgsNamed();
  }

  const BaseBodies: set<string> := {
      "part", "section", "subsection", "subsubsection", "paragraph", "subparagraph",
      "thepart", "thesection", "thesubsection", "thesubsubsection", "theparagraph", "thesubparagraph",
      "maketitle"
    }

  /** The bodies every class adds to base's. */
  const SharedBodies: set<string> := {"tableofcontents", "abstract", "endabstract", "appendix"}

  /** The bodies of the classes with chapters. */
  const ChapterBodies: set<string> := {"chaptername", "bibname", "chapter", "thechapter", "thefigure", "thetable"}

  /** The bodies only book has. */
  const MatterBodies: set<string> := {"mainmatter", "frontmatter", "backmatter"}

  /** The macro bodies a class defines. */
  function ClassBodies(kind: ClassKind): (r: set<string>)
    ensures BaseBodies + SharedBodies <= r
    ensures kind != Article ==> ChapterBodies <= r
  {
    match kind
    case Article => BaseBodies + SharedBodies + {"refname"}
    case Report => BaseBodies + SharedBodies + ChapterBodies
    case Book => BaseBodies + SharedBodies + ChapterBodies + MatterBodies
  }

  /** The classes with chapters define `thechapter` and the float
      formatters. */
  lemma ChapterBodyNamed(kind: ClassKind)
    requires kind != Article
    ensures "the" + "chapter" in ClassBodies(kind) && "the" + "figure" in ClassBodies(kind)
    ensures "the" + "section" in ClassBodies(kind)
  {
    assert "the" + "chapter" == "thechapter" && "the" + "figure" == "thefigure";
    assert "thechapter" in ChapterBodies && "thefigure" in ChapterBodies;
    assert "the" + "section" == "thesection" && "thesection" in BaseBodies;
  }

  /** Exactly report and book have chapters. */
  lemma ChapterBodiesByKind(kind: ClassKind)
    ensures kind != Article <==> "chapter" in ClassBodies(kind)
  {
  }

  /** Exactly book has the matter divisions. */
  lemma MatterBodiesByKind(kind: ClassKind)
    ensures kind == Book <==> "mainmatter" in ClassBodies(kind)
  {
  }

  /** The class fields as constructed: arabic chapters named "Chapter",
      main matter on. */
  const InitialName: seq<string> := ["Chapter"]

  /** Run the base constructor, then the class's own. */
  function ConstructClass(st: State, kind: ClassKind, opts: seq<string>): (r: Result<State>)
    requires st.counters.values.Keys == st.counters.resets.Keys && |st.scopes.frames| > 0
    ensures r.Ok? ==> BaseConstruct(st, opts).Ok?
    ensures r.Ok? ==> |r.value.scopes.frames| == |st.scopes.frames| && r.value.cls == st.cls
    ensures r.Ok? ==>
              var depth := if kind == Article then 3 else 2;
              && "secnumdepth" in r.value.counters.values && r.value.counters.values["secnumdepth"] == depth
              && "tocdepth" in r.value.counters.values && r.value.counters.values["tocdepth"] == depth
    ensures r.Ok? && kind != Article ==>
              "chapter" in r.value.counters.resets && r.value.counters.resets["chapter"] == ["section", "figure", "table", "footnote"]
  {
    var st1 :- BaseConstruct(st, opts);
    if kind == Article then ArticleConstruct(st1) else ReportConstruct(st1)
  }

  /** Every class keeps base's reset chain from section down to
      subparagraph: report's chapter is new, and only its own list grows. */
  lemma ConstructKeepsChain(st: State, kind: ClassKind, opts: seq<string>)
    requires st.counters.values.Keys == st.counters.resets.Keys && |st.scopes.frames| > 0
    requires ConstructClass(st, kind, opts).Ok?
    ensures ResetChain(ConstructClass(st, kind, opts).value.counters, SectionLevels)
  {
    var st1 := BaseConstruct(st, opts).value;
    SectionChainFormed(st);
    assert ResetChain(st1.counters, SectionLevels);
    if kind != Article {
      var t := ConstructClass(st, kind, opts).value.counters;
      assert t.resets == st1.counters.resets["chapter" := ["section", "figure", "table", "footnote"]];
      forall i | 0 <= i < |SectionLevels| - 1
        ensures SectionLevels[i] in t.resets && t.resets[SectionLevels[i]] == [SectionLevels[i + 1]]
      {
        assert SectionLevels[i] != "chapter";
      }
    }
  }

  /** `documentclass`: a second class is refused; otherwise construct the
      class and add its descriptors and bodies. */
  function LoadClass(st: State, kind: ClassKind, opts: seq<string>): (r: Result<State>)
    requires st.counters.values.Keys == st.counters.resets.Keys && |st.scopes.frames| > 0
    ensures st.cls.Some? ==> r == Err(DuplicateDocumentClass)
    ensures st.cls.None? ==> (r.Ok? <==> ConstructClass(st, kind, opts).Ok?)
    ensures r.Ok? ==> r.value.cls == Some(DocClass(kind, false, Some(InitialName), true))
    ensures r.Ok? ==> r.value.counters == ConstructClass(st, kind, opts).value.counters
    ensures r.Ok? ==> Loaded(r.value, kind)
    ensures r.Ok? ==> forall n | n in ClassArgs(kind) :: Descriptor(r.value.registry, n) == Some(ClassArgs(kind)[n])
  {
    if st.cls.Some? then Err(DuplicateDocumentClass)
    else
      var st1 :- ConstructClass(st, kind, opts);
      Ok(st1.(registry := Load(st1.registry, ClassArgs(kind), ClassBodies(kind)), cls := Some(DocClass(kind, false, Some(InitialName), true))))
  }

  /** `documentclass` as the report and book constructors are written:
      after the base constructor and report's counter set-up they store
      their descriptors into `this._args`, a property no class declares, so
      JavaScript throws a TypeError. Only article loads. */
  function LoadClassAsWritten(st: State, kind: ClassKind, opts: seq<string>): (r: Result<State>)
    requires st.counters.values.Keys == st.counters.resets.Keys && |st.scopes.frames| > 0
    ensures kind == Article ==> r == LoadClass(st, kind, opts)
    ensures kind != Article ==> r.Err?
    ensures kind != Article && st.cls.None? && ConstructClass(st, kind, opts).Ok? ==> r == Err(WriteToUndefined("_args"))
  {
    if st.cls.Some? then Err(DuplicateDocumentClass)
    else if kind == Article then LoadClass(st, kind, opts)
    else
      var st1 :- BaseConstruct(st, opts);
      var st2 :- ReportConstruct(st1);
      Err(WriteToUndefined("_args"))
  }

  /** Whenever the intended `documentclass{report}` or `{book}` loads, the
      written one throws instead. */
  lemma ReportLoadThrows(st: State, kind: ClassKind, opts: seq<string>)
    requires st.counters.values.Keys == st.counters.resets.Keys && |st.scopes.frames| > 0
    requires kind != Article && LoadClass(st, kind, opts).Ok?
    ensures LoadClassAsWritten(st, kind, opts) == Err(WriteToUndefined("_args"))
    ensures Loaded(LoadClass(st, kind, opts).value, kind)
  {
  }

  /** The class's macro bodies are in place, so the class-defined `the<c>`
      formatters are used rather than the generic arabic ones. */
  ghost predicate Loaded(st: State, kind: ClassKind) {
    && st.cls.Some? && st.cls.value.kind == kind
    && forall n | n in ClassBodies(kind) && n != "constructor" :: HasMacro(st.registry, n) && HandlerOf(st.registry, n) == Defined
  }

  /* ---------------------------------------------------------------- */
  /* Numbering                                                         */
  /* ---------------------------------------------------------------- */

  /** A class-defined `the<c>` formats through the class's definition. */
  lemma TheIsDefined(st: State, kind: ClassKind, c: string)
    requires Loaded(st, kind) && "the" + c in ClassBodies(kind)
    ensures The(st, c) == DefinedThe(st, c)
  {
    var name := "the" + c;
    assert name[0] == 't' && "constructor"[0] == 'c';
    assert HasMacro(st.registry, name) && HandlerOf(st.registry, name) == Defined;
  }

  /** Base numbering: parts in Roman; in article sections are arabic. */
  lemma ArticleSectionNumber(st: State)
    requires Loaded(st, Article) && "part" in st.counters.values && "section" in st.counters.values
    ensures The(st, "part") == Ok([Roman(st.counters.values["part"])])
    ensures The(st, "section") == Ok([Arabic(st.counters.values["section"])])
  {
    assert "the" + "part" == "thepart";
    TheIsDefined(st, Article, "part");
    ClassTheReached(st, "part");
    PartThe(st);
    ArticleSectionThe(st);
  }

  /** An article's `thesection` is the section in arabic. */
  lemma ArticleSectionThe(st: State)
    requires Loaded(st, Article) && "section" in st.counters.values
    ensures The(st, "section") == Ok([Arabic(st.counters.values["section"])])
  {
    assert "the" + "section" == "thesection";
    TheIsDefined(st, Article, "section");
    ClassTheReached(st, "section");
    SectionThe(st);
  }

  /** Each deeper level is its parent's number, ".", and its own arabic
      value. */
  lemma ArticleSubsectionNumber(st: State)
    requires Loaded(st, Article)
    requires "section" in st.counters.values && "subsection" in st.counters.values
    ensures var v := st.counters.values;
            The(st, "subsection") == Ok([Arabic(v["section"]), "." + Arabic(v["subsection"])])
  {
    var v := st.counters.values;
    ArticleSubsectionThe(st);
    ArticleSectionThe(st);
    DottedValue(st, "section", "subsection", [Arabic(v["section"])]);
    assert [Arabic(v["section"])] + ["." + Arabic(v["subsection"])] == [Arabic(v["section"]), "." + Arabic(v["subsection"])];
  }

  /** A loaded class's `thesubsection` is its `thesection`, ".", and the
      subsection. */
  lemma ArticleSubsectionThe(st: State)
    requires Loaded(st, Article)
    ensures The(st, "subsection") == Dotted(st, "section", "subsection")
  {
    assert "the" + "subsection" == "thesubsection";
    TheIsDefined(st, Article, "subsection");
    ClassTheReached(st, "subsection");
    SubsectionThe(st);
  }

  /** Report numbering: the chapter is arabic until the appendix. */
  lemma ReportChapterNumber(st: State, kind: ClassKind)
    requires kind != Article && Loaded(st, kind) && !st.cls.value.chapterAlph
    requires "chapter" in st.counters.values
    ensures The(st, "chapter") == Ok([Arabic(st.counters.values["chapter"])])
  {
    ChapterBodyNamed(kind);
    TheIsDefined(st, kind, "chapter");
    ClassTheReached(st, "chapter");
    ChapterThe(st);
  }

  /** Report sections carry the chapter number. */
  lemma ReportSectionNumber(st: State, kind: ClassKind)
    requires kind != Article && Loaded(st, kind) && !st.cls.value.chapterAlph
    requires "chapter" in st.counters.values && "section" in st.counters.values
    ensures var v := st.counters.values;
            The(st, "section") == Ok([Arabic(v["chapter"]), "." + Arabic(v["section"])])
  {
    var v := st.counters.values;
    ReportChapterNumber(st, kind);
    ChapterBodyNamed(kind);
    TheIsDefined(st, kind, "section");
    ClassTheReached(st, "section");
    SectionThe(st);
    assert [Arabic(v["chapter"])] + ["." + Arabic(v["section"])] == [Arabic(v["chapter"]), "." + Arabic(v["section"])];
  }

  /** Figures and tables carry the chapter number only once a chapter has
      started. */
  lemma ReportFigureNumber(st: State, kind: ClassKind)
    requires kind != Article && Loaded(st, kind) && !st.cls.value.chapterAlph
    requires "chapter" in st.counters.values && "figure" in st.counters.values
    ensures var v := st.counters.values;
            The(st, "figure") == Ok((if v["chapter"] > 0 then [Arabic(v["chapter"]), "."] else []) + [Arabic(v["figure"])])
  {
    var v := st.counters.values;
    ReportChapterNumber(st, kind);
    assert The(st, "figure") == ChapterPrefixed(st, "figure") by {
      ChapterBodyNamed(kind);
      TheIsDefined(st, kind, "figure");
      ClassTheReached(st, "figure");
      FigureThe(st);
    }
    var prefix: seq<string> := if v["chapter"] > 0 then [Arabic(v["chapter"]), "."] else [];
    ChapterPrefixedValue(st, "figure", prefix);
  }

  /** `ChapterPrefixed` once the chapter's number is known. */
  lemma ChapterPrefixedValue(st: State, c: string, prefix: seq<string>)
    requires ChainRank(c) == 1 && "chapter" in st.counters.values && c in st.counters.values
    requires st.counters.values["chapter"] > 0 ==> The(st, "chapter") == Ok([Arabic(st.counters.values["chapter"])])
    requires prefix == if st.counters.values["chapter"] > 0 then [Arabic(st.counters.values["chapter"]), "."] else []
    ensures ChapterPrefixed(st, c) == Ok(prefix + [Arabic(st.counters.values[c])])
  {
    if st.counters.values["chapter"] > 0 {
      assert [Arabic(st.counters.values["chapter"])] + ["."] == prefix;
    }
  }

  /* ---------------------------------------------------------------- */
  /* Class macros                                                      */
  /* ---------------------------------------------------------------- */

  /** The level each class gives a sectioning command. */
  function Level(kind: ClassKind, sec: string): (r: Option<int>)
    ensures r.Some? ==> -1 <= r.value <= 5
    ensures sec == "chapter" ==> (r.Some? <==> kind != Article)
  {
    match sec
    case "part" => Some(if kind == Article then 0 else -1)
    case "chapter" => if kind == Article then None else Some(0)
    case "section" => Some(1)
    case "subsection" => Some(2)
    case "subsubsection" => Some(3)
    case "paragraph" => Some(4)
    case "subparagraph" => Some(5)
    case _ => None
  }

  /** The commands a class can section with, outermost first. */
  function Hierarchy(kind: ClassKind): (r: seq<string>)
    ensures |r| >= 2 && r[0] == "part"
  {
    (if kind == Article then ["part"] else ["part", "chapter"]) + SectionLevels
  }

  /** Each class's sectioning commands nest strictly, one level apart. */
  lemma LevelsNest(kind: ClassKind)
    ensures forall i | 0 <= i < |Hierarchy(kind)| :: Level(kind, Hierarchy(kind)[i]).Some?
    ensures forall i | 0 <= i < |Hierarchy(kind)| - 1 ::
              Level(kind, Hierarchy(kind)[i]).value + 1 == Level(kind, Hierarchy(kind)[i + 1]).value
  {
  }

  /** A sectioning command of the loaded class: `startsection` at the
      command's level; a book chapter outside the main matter is starred. */
  function SectionMacro(st: State, sec: string, star: bool, toc: Option<string>, ttl: Option<string>): (r: Result<(State, Option<Heading>)>)
    requires |st.scopes.frames| > 0
    ensures st.cls.None? || Level(st.cls.value.kind, sec).None? ==> r == Err(UnknownMacro(sec))
    ensures st.cls.Some? && Level(st.cls.value.kind, sec).Some? ==>
              var cls := st.cls.value;
              var starred := star || (sec == "chapter" && cls.kind == Book && !cls.mainmatter);
              r == StartSection(st, sec, Level(cls.kind, sec).value, starred, toc, ttl)
  {
    if st.cls.None? then Err(UnknownMacro(sec))
    else
      var cls := st.cls.value;
      match Level(cls.kind, sec)
      case None => Err(UnknownMacro(sec))
      case Some(level) =>
        var starred := star || (sec == "chapter" && cls.kind == Book && !cls.mainmatter);
        StartSection(st, sec, level, starred, toc, ttl)
  }

  /** Outside the main matter a book's chapters are not numbered: the
      numbering call changes nothing and the heading is unnumbered. */
  lemma BookChapterUnnumbered(st: State, star: bool, ttl: Option<string>)
    requires |st.scopes.frames| > 0
    requires st.cls.Some? && st.cls.value.kind == Book && !st.cls.value.mainmatter
    ensures SectionMacro(st, "chapter", star, None, None) == Ok((st, None))
    ensures ttl.Some? ==> SectionMacro(st, "chapter", star, None, ttl) == Ok((st, Some(Unnumbered("chapter", ttl))))
  {
  }

  /** `secnumdepth` as the classes set it cuts numbering off: article
      numbers subsubsections but not paragraphs, report and book number
      subsections but not subsubsections. */
  lemma NumberingDepth(st: State, sec: string)
    requires |st.scopes.frames| > 0 && st.cls.Some?
    requires "secnumdepth" in st.counters.values
    requires st.counters.values["secnumdepth"] == (if st.cls.value.kind == Article then 3 else 2)
    requires sec in Hierarchy(st.cls.value.kind)
    ensures var depth := if st.cls.value.kind == Article then 3 else 2;
            Level(st.cls.value.kind, sec).value > depth ==> SectionMacro(st, sec, false, None, None) == Ok((st, None))
  {
    LevelsNest(st.cls.value.kind);
  }

  /** `tableofcontents`: a starred section headed "Contents". */
  function TableOfContents(st: State): (r: Result<Heading>)
    requires |st.scopes.frames| > 0
    ensures r.Ok? <==> st.cls.Some?
    ensures r.Ok? ==> r.value == Unnumbered("section", Some("Contents"))
  {
    var (_, h) :- SectionMacro(st, "section", true, None, Some("Contents"));
    if h.None? then assert false; Err(UnknownMacro("tableofcontents")) else Ok(h.value)
  }

  /** `tableofcontents` as written: its argument `macro('contentsname')`
      calls a macro the macro object does not have, because `contentsname`
      is a getter of the class, which the class merge does not copy. So it
      throws whenever a class is loaded; without one there is no
      `tableofcontents` macro at all. */
  function TableOfContentsAsWritten(st: State): (r: Result<Heading>)
    requires |st.scopes.frames| > 0
    ensures st.cls.None? ==> r == TableOfContents(st)
    ensures st.cls.Some? ==> r == Err(CallOfUndefined("contentsname"))
  {
    if st.cls.None? then TableOfContents(st) else Err(CallOfUndefined("contentsname"))
  }

  /** Whenever the intended contents heading is produced, the written
      macro throws instead, and it never succeeds. */
  lemma TableOfContentsThrows(st: State)
    requires |st.scopes.frames| > 0
    ensures TableOfContentsAsWritten(st).Err?
    ensures TableOfContents(st).Ok? ==>
              && TableOfContentsAsWritten(st) == Err(CallOfUndefined("contentsname"))
              && TableOfContents(st).value == Unnumbered("section", Some("Contents"))
  {
  }

  /** `maketitle`: the title becomes the document title (a missing title
      is a null dereference in the original), the footnote counter restarts
      and the title fields are cleared. The rendered block is left out. */
  function Maketitle(st: State): (r: Result<(State, string)>)
    ensures st.title.None? ==> r == Err(MissingTitle)
    ensures st.title.Some? ==> (r.Ok? <==> "footnote" in st.counters.values)
    ensures r.Ok? ==> r.value.1 == st.title.value
    ensures r.Ok? ==> r.value.0.counters.values == st.counters.values["footnote" := 0]
    ensures r.Ok? ==> r.value.0 == st.(counters := r.value.0.counters, title := None, author := None, date := None, thanks := None)
  {
    if st.title.None? then Err(MissingTitle)
    else
      var st1 :- SetCounter(st, "footnote", 0);
      Ok((st1.(title := None, author := None, date := None, thanks := None), st.title.value))
  }

  /** `abstract`: the abstract's font size is small; its bold head is set
      in a group of its own, entered and left again, so the bold does not
      leak. The group needs an open environment around it. */
  function Abstract(st: State): (r: Result<State>)
    requires |st.scopes.frames| > 0
    ensures r.Ok? <==> |st.scopes.groups| > 0 && st.scopes.groups[|st.scopes.groups| - 1] >= 0
    ensures r.Ok? ==> r.value == st.(scopes := SetAttr(st.scopes, FontSize, "small"))
  {
    var s1 := SetAttr(st.scopes, FontSize, "small");
    var e := EnterGroup(s1, false);
    var inner := SetAttr(e, FontWeight, "bf");
    var s2 :- ExitGroup(inner);
    assert s2.frames == s1.frames by {
      assert inner.frames[..|inner.frames| - 1] == e.frames[..|s1.frames|];
    }
    assert s2.groups == s1.groups by {
      var n := |s1.groups| - 1;
      assert inner.groups == s1.groups[n := s1.groups[n] + 1];
    }
    Ok(st.(scopes := s2))
  }

  /** `endabstract` closes a list level that `abstract` never opened. */
  function EndAbstract(st: State): (r: Result<State>)
    ensures r.Ok? <==> "@listdepth" in st.counters.values
    ensures r.Ok? ==> "@listdepth" in r.value.counters.values && r.value.counters.values["@listdepth"] + 1 == st.counters.values["@listdepth"]
    ensures r.Ok? ==> r.value == st.(counters := r.value.counters) && r.value.counters.resets == st.counters.resets
  {
    EndList(st)
  }

  /** The abstract pair leaves the list depth one below where it started. */
  lemma AbstractLowersListDepth(st: State)
    requires |st.scopes.frames| > 0 && |st.scopes.groups| > 0 && st.scopes.groups[|st.scopes.groups| - 1] >= 0
    requires "@listdepth" in st.counters.values
    ensures Abstract(st).Ok? && EndAbstract(Abstract(st).value).Ok?
    ensures EndAbstract(Abstract(st).value).value.counters.values["@listdepth"] == st.counters.values["@listdepth"] - 1
  {
  }

  /** `appendix`. Article: sections and subsections restart and sections
      are lettered from now on. Report and book: chapters and sections
      restart, and chapters are lettered and called "Appendix". */
  function Appendix(st: State): (r: Result<State>)
    requires st.cls.Some?
    ensures st.cls.value.kind == Article ==>
              && (r.Ok? <==> "section" in st.counters.values && "subsection" in st.counters.values)
              && (r.Ok? ==> r.value == st.(counters := st.counters.(values := st.counters.values["section" := 0]["subsection" := 0]),
                                            registry := Install(st.registry, "thesection", AlphThe("section"))))
    ensures st.cls.value.kind != Article ==>
              && (r.Ok? <==> "chapter" in st.counters.values && "section" in st.counters.values)
              && (r.Ok? ==> r.value == st.(counters := st.counters.(values := st.counters.values["chapter" := 0]["section" := 0]),
                                            cls := Some(st.cls.value.(chapterAlph := true, chapterName := Some(AppendixName)))))
  {
    var cls := st.cls.value;
    if cls.kind == Article then
      var st1 :- SetCounter(st, "section", 0);
      var st2 :- SetCounter(st1, "subsection", 0);
      assert "thesection"[0] == 't';
      Ok(st2.(registry := Install(st2.registry, "thesection", AlphThe("section"))))
    else
      var st1 :- SetCounter(st, "chapter", 0);
      var st2 :- SetCounter(st1, "section", 0);
      Ok(st2.(cls := Some(cls.(chapterAlph := true, chapterName := Some(AppendixName)))))
  }

  /** The name base's `appendixname` getter gives. */
  const AppendixName: seq<string> := ["Appendix"]

  /** `appendix` as report writes it: the chapter name becomes the
      `appendixname` of the macro object, which has none, because the class
      merge copies methods and fields but not getters. The name is then
      undefined; article's appendix is unaffected. */
  function AppendixAsWritten(st: State): (r: Result<State>)
    requires st.cls.Some?
    ensures st.cls.value.kind == Article ==> r == Appendix(st)
    ensures st.cls.value.kind != Article ==>
              && (r.Ok? <==> Appendix(st).Ok?)
              && (r.Ok? ==> r.value.counters == Appendix(st).value.counters && r.value.registry == st.registry)
              && (r.Ok? ==> r.value.cls.Some? && r.value.cls.value.chapterAlph && ChapterName(r.value) == Err(ConcatOnUndefined("chaptername")))
  {
    var a :- Appendix(st);
    if st.cls.value.kind == Article then Ok(a)
    else Ok(a.(cls := Some(a.cls.value.(chapterName := None))))
  }

  /** A `thesection` replaced by the lettering formatter prints the
      section in capital letters. */
  lemma LetteredSection(st: State)
    requires HasMacro(st.registry, "thesection") && HandlerOf(st.registry, "thesection") == AlphThe("section")
    requires "section" in st.counters.values
    ensures The(st, "section") == Ok([UpperAlph(st.counters.values["section"])])
  {
    assert "the" + "section" == "thesection";
  }

  /** After an article's appendix `thesection` letters the section. */
  lemma ArticleAppendixSection(st: State)
    requires Loaded(st, Article)
    requires "section" in st.counters.values && "subsection" in st.counters.values
    ensures Appendix(st).Ok?
    ensures var a := Appendix(st).value;
            The(a, "section") == Ok([UpperAlph(a.counters.values["section"])])
  {
    LetteredSection(Appendix(st).value);
  }

  /** So the first section after the appendix is "A". */
  lemma ArticleAppendixFirstSection(st: State)
    requires Loaded(st, Article)
    requires "section" in st.counters.values && "subsection" in st.counters.values
    requires Appendix(st).Ok? && StepCounter(Appendix(st).value, "section").Ok?
    ensures The(StepCounter(Appendix(st).value, "section").value, "section") == Ok(["A"])
  {
    var a := Appendix(st).value;
    var b := StepCounter(a, "section").value;
    assert b.registry == a.registry;
    assert b.counters.values["section"] == 1;
    LetteredSection(b);
    assert UpperAlph(1) == "A";
  }

  /** Deeper levels build on the lettered section: right after the
      appendix the subsection reads "@.0", the letter before "A" standing
      for section zero. */
  lemma ArticleAppendixSubsection(st: State)
    requires Loaded(st, Article)
    requires "section" in st.counters.values && "subsection" in st.counters.values
    ensures Appendix(st).Ok?
    ensures The(Appendix(st).value, "subsection") == Ok([UpperAlph(0), ".0"])
  {
    var a := Appendix(st).value;
    ArticleAppendixSection(st);
    assert a.counters.values["section"] == 0 && a.counters.values["subsection"] == 0;
    AppendixSubsectionDotted(st);
    DottedValue(a, "section", "subsection", [UpperAlph(0)]);
    assert Arabic(0) == "0";
    assert "." + "0" == ".0";
    assert [UpperAlph(0)] + [".0"] == [UpperAlph(0), ".0"];
  }

  /** After an article's appendix `thesubsection` still builds on
      `thesection`. */
  lemma AppendixSubsectionDotted(st: State)
    requires Loaded(st, Article)
    requires "section" in st.counters.values && "subsection" in st.counters.values
    ensures Appendix(st).Ok?
    ensures The(Appendix(st).value, "subsection") == Dotted(Appendix(st).value, "section", "subsection")
  {
    var a := Appendix(st).value;
    AppendixKeepsSubsection(st);
    assert "the" + "subsection" == "thesubsection";
    ClassTheReached(a, "subsection");
    SubsectionThe(a);
  }

  /** An article's appendix replaces `thesection` only: `thesubsection`
      keeps the class's body. */
  lemma AppendixKeepsSubsection(st: State)
    requires Loaded(st, Article)
    requires "section" in st.counters.values && "subsection" in st.counters.values
    ensures Appendix(st).Ok?
    ensures var a := Appendix(st).value;
            a.cls == st.cls && HasMacro(a.registry, "thesubsection") && HandlerOf(a.registry, "thesubsection") == Defined
  {
    assert "thesubsection" in ClassBodies(Article);
    assert HasMacro(st.registry, "thesubsection") && HandlerOf(st.registry, "thesubsection") == Defined;
  }

  /** After a report's appendix chapters are lettered from "A" and the
      chapter heading is named "Appendix". */
  lemma ReportAppendixNumbering(st: State, kind: ClassKind)
    requires kind != Article && Loaded(st, kind)
    requires "chapter" in st.counters.values && "section" in st.counters.values
    ensures Appendix(st).Ok?
    ensures var a := Appendix(st).value;
            && The(a, "chapter") == Ok([UpperAlph(0)])
            && ChapterName(a) == Ok(AppendixName)
  {
    var a := Appendix(st).value;
    assert a.registry == st.registry && a.cls.value.kind == kind;
    assert Loaded(a, kind);
    ChapterBodyNamed(kind);
    TheIsDefined(a, kind, "chapter");
    ClassTheReached(a, "chapter");
    ChapterThe(a);
  }

  /** After report's appendix as written, the next numbered chapter
      heading fails on the undefined chapter name, where the intended
      appendix heads it "Appendix" with the lettered number. */
  lemma AppendixChapterThrows(st: State, kind: ClassKind, ttl: Option<string>)
    requires kind != Article && Loaded(st, kind) && |st.scopes.frames| > 0
    requires "chapter" in st.counters.values && "section" in st.counters.values
    requires "secnumdepth" in st.counters.values && st.counters.values["secnumdepth"] >= 0
    ensures AppendixAsWritten(st).Ok? && Appendix(st).Ok?
    ensures SectionHeading(AppendixAsWritten(st).value, "chapter", 0, false, ttl) == Err(ConcatOnUndefined("chaptername"))
    ensures SectionHeading(Appendix(st).value, "chapter", 0, false, ttl).Ok?
    ensures SectionHeading(Appendix(st).value, "chapter", 0, false, ttl).value.ChapterHeading?
    ensures SectionHeading(Appendix(st).value, "chapter", 0, false, ttl).value.name == AppendixName
  {
    ReportAppendixNumbering(st, kind);
  }

  /** book's `frontmatter`, `mainmatter` and `backmatter`. */
  function SetMatter(st: State, name: string): (r: Result<State>)
    ensures r.Ok? <==> st.cls.Some? && st.cls.value.kind == Book && name in {"frontmatter", "mainmatter", "backmatter"}
    ensures r.Ok? ==> r.value == st.(cls := Some(st.cls.value.(mainmatter := name == "mainmatter")))
  {
    if st.cls.Some? && st.cls.value.kind == Book && name in {"frontmatter", "mainmatter", "backmatter"} then
      Ok(st.(cls := Some(st.cls.value.(mainmatter := name == "mainmatter"))))
    else Err(UnknownMacro(name))
  }
}

=== FILE: counters.dfy ===
/** Named integer counters with a parent-to-children reset table.

    Stepping a counter raises it by one and zeroes every counter reachable
    from it through the reset table. The original recursion has no cycle
    guard (a cycle recurses forever); this model carries the set of
    counters on the current recursion path and reports a cycle as
    ResetCycle instead of diverging. */
module Counters {
  import opened Wrappers

  datatype Counters = Counters(values: map<string, int>, resets: map<string, seq<string>>)

  const Empty: Counters := Counters(map[], map[])

  /** Every counter has a reset list, and every reset list names counters. */
  ghost predicate Valid(t: Counters) {
    && t.values.Keys == t.resets.Keys
    && forall c, r | c in t.resets && r in t.resets[c] :: r in t.values
  }

  /** `p` is a walk along reset edges. */
  ghost predicate IsChain(t: Counters, p: seq<string>) {
    forall i | 0 <= i < |p| - 1 :: p[i] in t.resets && p[i + 1] in t.resets[p[i]]
  }

  /** `d` is one of `from`, or reachable from one of them along reset edges. */
  ghost predicate Reaches(t: Counters, from: seq<string>, d: string) {
    exists p :: IsChain(t, p) && |p| > 0 && p[0] in from && p[|p| - 1] == d
  }

  /** `d` is a transitive reset-descendant of `c`. */
  ghost predicate Descendant(t: Counters, c: string, d: string) {
    c in t.resets && Reaches(t, t.resets[c], d)
  }


  /** Reachability from a list splits into its head, the head's reset list
      and the tail. */
  lemma ReachesSplit(t: Counters, kids: seq<string>, d: string)
    requires |kids| > 0
    ensures Reaches(t, kids, d) <==>
              d == kids[0] || Descendant(t, kids[0], d) || Reaches(t, kids[1..], d)
  {
    var r := kids[0];
    if Reaches(t, kids, d) {
      var p :| IsChain(t, p) && |p| > 0 && p[0] in kids && p[|p| - 1] == d;
      if p[0] in kids[1..] {
      } else if |p| == 1 {
      } else {
        assert p[0] == r;
        var q := p[1..];
        assert IsChain(t, q) && q[0] in t.resets[r] && q[|q| - 1] == d;
      }
    }
    if d == r {
      var p := [r];
      assert IsChain(t, p) && p[0] in kids;
    }
    if Descendant(t, r, d) {
      var q :| IsChain(t, q) && |q| > 0 && q[0] in t.resets[r] && q[|q| - 1] == d;
      var p := [r] + q;
      assert IsChain(t, p) && p[0] in kids && p[|p| - 1] == d;
    }
    if Reaches(t, kids[1..], d) {
      var q :| IsChain(t, q) && |q| > 0 && q[0] in kids[1..] && q[|q| - 1] == d;
      assert q[0] in kids;
    }
  }

  /** Zeroes `kids` and all their descendants in `vals`, depth first as the
      original does: clear the child's own descendants, then set the child to
      0. `path` holds the counters whose clearing is in progress; meeting one
      of them again is a reset cycle. On success, exactly the counters
      reachable from `kids` are zero and nothing else changed, and none of
      them lies on the path. */
  function ClearChildren(t: Counters, vals: map<string, int>, kids: seq<string>, path: set<string>): (r: Result<map<string, int>>)
    requires path <= t.resets.Keys
    ensures r.Ok? ==> r.value.Keys == vals.Keys
    ensures r.Ok? ==> forall d | d in vals :: r.value[d] == (if Reaches(t, kids, d) then 0 else vals[d])
    ensures r.Ok? ==> forall d | Reaches(t, kids, d) :: d !in path && d in vals
    decreases t.resets.Keys - path, |kids|
  {
    if |kids| == 0 then
      ReachesNothingAll(t);
      Ok(vals)
    else
      var c := kids[0];
      if c in path then Err(ResetCycle(c))
      else if c !in t.resets then Err(NoSuchCounter(c))
      else
        assert t.resets.Keys - (path + {c}) < t.resets.Keys - path;
        match ClearChildren(t, vals, t.resets[c], path + {c})
        case Err(e) => Err(e)
        case Ok(inner) =>
          if c !in inner then Err(NoSuchCounter(c))
          else
            var r := ClearChildren(t, inner[c := 0], kids[1..], path);
            ReachesSplitAll(t, kids);
            r
  }

  lemma ReachesNothingAll(t: Counters)
    ensures forall d :: !Reaches(t, [], d)
  {
  }

  lemma ReachesSplitAll(t: Counters, kids: seq<string>)
    requires |kids| > 0
    ensures forall d :: Reaches(t, kids, d) <==>
              d == kids[0] || Descendant(t, kids[0], d) || Reaches(t, kids[1..], d)
  {
    forall d ensures Reaches(t, kids, d) <==>
                       d == kids[0] || Descendant(t, kids[0], d) || Reaches(t, kids[1..], d) {
      ReachesSplit(t, kids, d);
    }
  }

  /** The reset table admits a rank that strictly decreases along every reset
      edge, that is, it has no cycle. */
  ghost predicate Ranked(t: Counters, rank: map<string, nat>) {
    forall c, r | c in t.resets && r in t.resets[c] :: c in rank && r in rank && rank[r] < rank[c]
  }

  /** With an acyclic table, clearing never meets a cycle and never fails. */
  lemma {:induction false} ClearChildrenSucceeds(t: Counters, rank: map<string, nat>, vals: map<string, int>, kids: seq<string>, path: set<string>)
    requires Valid(t) && Ranked(t, rank)
    requires vals.Keys == t.values.Keys
    requires path <= t.resets.Keys && path <= rank.Keys
    requires forall k | k in kids :: k in t.values && k in rank
    requires forall k, q | k in kids && q in path :: rank[k] < rank[q]
    ensures ClearChildren(t, vals, kids, path).Ok?
    decreases t.resets.Keys - path, |kids|
  {
    if |kids| > 0 {
      var c := kids[0];
      assert c !in path;
      assert t.resets.Keys - (path + {c}) < t.resets.Keys - path;
      ClearChildrenSucceeds(t, rank, vals, t.resets[c], path + {c});
      var inner := ClearChildren(t, vals, t.resets[c], path + {c}).value;
      ClearChildrenSucceeds(t, rank, inner[c := 0], kids[1..], path);
    }
  }

  function Get(t: Counters, c: string): (r: Result<int>)
    ensures r.Ok? <==> c in t.values
    ensures r.Ok? ==> r.value == t.values[c]
    ensures r.Err? ==> r.error == NoSuchCounter(c)
  {
    if c in t.values then Ok(t.values[c]) else Err(NoSuchCounter(c))
  }

  function Set(t: Counters, c: string, v: int): (r: Result<Counters>)
    ensures r.Ok? <==> c in t.values
    ensures r.Ok? ==> r.value.values == t.values[c := v] && r.value.resets == t.resets
    ensures r.Err? ==> r.error == NoSuchCounter(c)
  {
    if c in t.values then Ok(t.(values := t.values[c := v])) else Err(NoSuchCounter(c))
  }

  /** `addToReset(c, parent)`: append c to the parent's reset list. */
  function AddToReset(t: Counters, c: string, parent: string): (r: Result<Counters>)
    requires t.values.Keys == t.resets.Keys
    ensures r.Ok? <==> parent in t.values && c in t.values
    ensures parent !in t.values ==> r == Err(NoSuchCounter(parent))
    ensures r.Ok? ==> r.value.values == t.values
    ensures r.Ok? ==> r.value.resets == t.resets[parent := t.resets[parent] + [c]]
  {
    if parent !in t.values then Err(NoSuchCounter(parent))
    else if c !in t.values then Err(NoSuchCounter(c))
    else Ok(t.(resets := t.resets[parent := t.resets[parent] + [c]]))
  }

  /** `newCounter(c, parent)`: a fresh counter at 0 with no children, hooked
      into the parent's reset list when a parent is named (an empty parent
      name is falsy in the original and counts as none). */
  function New(t: Counters, c: string, parent: Option<string>): (r: Result<Counters>)
    requires t.values.Keys == t.resets.Keys
    ensures c in t.values ==> r == Err(DuplicateCounter(c))
    ensures r.Ok? ==> c !in t.values
    ensures r.Ok? ==> r.value.values == t.values[c := 0]
    ensures r.Ok? && (parent.None? || parent.value == "") ==> r.value.resets == t.resets[c := []]
    ensures r.Ok? && parent.Some? && parent.value != "" ==>
              var p := parent.value;
              p in r.value.values && r.value.resets == t.resets[c := []][p := t.resets[c := []][p] + [c]]
    ensures parent.Some? && parent.value != "" && parent.value != c && parent.value !in t.values ==>
              r.Err?
  {
    if c in t.values then Err(DuplicateCounter(c))
    else
      var t1 := Counters(t.values[c := 0], t.resets[c := []]);
      if parent.Some? && parent.value != "" then AddToReset(t1, c, parent.value) else Ok(t1)
  }

  lemma NewPreservesValid(t: Counters, c: string, parent: Option<string>)
    requires Valid(t) && New(t, c, parent).Ok?
    ensures Valid(New(t, c, parent).value)
  {
  }

  /** `stepCounter(c)`: raise c by exactly one, then zero every transitive
      reset-descendant of c; every other counter keeps its value. */
  function Step(t: Counters, c: string): (r: Result<Counters>)
    ensures c !in t.values ==> r == Err(NoSuchCounter(c))
    ensures r.Ok? ==> c in t.values && c in t.resets && r.value.resets == t.resets
    ensures r.Ok? ==> r.value.values.Keys == t.values.Keys
    ensures r.Ok? ==> r.value.values[c] == t.values[c] + 1 && !Descendant(t, c, c)
    ensures r.Ok? ==> forall d | d in t.values && d != c ::
                        r.value.values[d] == (if Descendant(t, c, d) then 0 else t.values[d])
  {
    if c !in t.values then Err(NoSuchCounter(c))
    else if c !in t.resets then Err(NoSuchCounter(c))
    else
      var vals := ClearChildren(t, t.values[c := t.values[c] + 1], t.resets[c], {c});
      match vals
      case Err(e) => Err(e)
      case Ok(v) => Ok(t.(values := v))
  }

  /** On a valid table without cycles, stepping a known counter succeeds. */
  lemma StepSucceeds(t: Counters, rank: map<string, nat>, c: string)
    requires Valid(t) && Ranked(t, rank) && c in t.values && c in rank
    ensures Step(t, c).Ok?
  {
    ClearChildrenSucceeds(t, rank, t.values[c := t.values[c] + 1], t.resets[c], {c});
  }
}

=== FILE: echo.dfy ===
/** The echo package: macros that print their arguments back, mandatory
    ones between "+" signs and optional ones between "-" signs, an
    optional argument that was not given contributing nothing.

    An argument is its text; a missing optional argument is `None`. What a
    macro returns is the list it builds, with a missing argument kept as
    `None`; the interpreter drops those entries when it emits the list
    (`Shown`). */
module Echo {
  import opened Wrappers
  import opened Arguments

  /** The package's descriptors, each led by its mode tag. */
  const EchoArgs: map<string, seq<Spec>> := map[
    "gobbleO" := [Kind("H"), Kind("o?")],
    "echoO" := [Kind("H"), Kind("o?")],
    "echoOGO" := [Kind("H"), Kind("o?"), Kind("g"), Kind("o?")],
    "echoGOG" := [Kind("H"), Kind("g"), Kind("o?"), Kind("g")]
  ]

  /** The entries of a macro's result that the interpreter emits. */
  function Shown(xs: seq<Option<string>>): (r: seq<string>)
    ensures |r| <= |xs|
    ensures forall s :: s in r <==> Some(s) in xs
    decreases |xs|
  {
    if |xs| == 0 then []
    else
      var rest := Shown(xs[1..]);
      assert forall x | x in xs[1..] :: x in xs;
      assert forall x | x in xs :: x == xs[0] || x in xs[1..];
      match xs[0]
      case Some(s) => [s] + rest
      case None => rest
  }

  /** `x` between two `d` marks. */
  function Marked(d: string, x: string): (r: seq<Option<string>>) {
    [Some(d), Some(x), Some(d)]
  }

  /** `x` between two `d` marks when it was given, else nothing. */
  function MarkedIf(d: string, x: Option<string>): (r: seq<Option<string>>)
    ensures x.None? ==> r == []
    ensures x.Some? ==> r == Marked(d, x.value)
  {
    if x.Some? then Marked(d, x.value) else []
  }

  /** `gobbleO`: the optional argument is read and dropped, so nothing
      is emitted whatever it was. */
  function GobbleO(o: Option<string>): (r: seq<Option<string>>)
    ensures Shown(r) == []
  {
    []
  }

  /** `echoO`: the optional argument between "-" marks, the entry kept
      even when it was not given; without an argument the two marks still
      appear, next to each other. */
  function EchoO(o: Option<string>): (r: seq<Option<string>>)
    ensures o.Some? ==> Shown(r) == ["-", o.value, "-"]
    ensures o.None? ==> Shown(r) == ["-", "-"]
  {
    var r := [Some("-"), o, Some("-")];
    assert r[1..] == [o, Some("-")] && r[1..][1..] == [Some("-")];
    r
  }

  /** `echoOGO`: each optional argument that was given between "-" marks,
      around the mandatory one between "+" marks. An optional argument
      that was not given leaves no entry behind, so three entries are
      built per argument given. */
  function EchoOGO(o1: Option<string>, g: string, o2: Option<string>): (r: seq<Option<string>>)
    ensures forall i | 0 <= i < |r| :: r[i].Some?
    ensures |r| == 3 * (1 + (if o1.Some? then 1 else 0) + (if o2.Some? then 1 else 0))
  {
    var x1 := if o1.Some? then Marked("-", o1.value) else [];
    var x2 := x1 + Marked("+", g);
    if o2.Some? then x2 + Marked("-", o2.value) else x2
  }

  /** `echoGOG`: both mandatory arguments between "+" marks, the optional
      one between "-" marks in the middle when given; again no entry is
      missing. */
  function EchoGOG(g1: string, o: Option<string>, g2: string): (r: seq<Option<string>>)
    ensures forall i | 0 <= i < |r| :: r[i].Some?
    ensures |r| == 3 * (2 + (if o.Some? then 1 else 0))
  {
    var x1 := Marked("+", g1);
    var x2 := if o.Some? then x1 + Marked("-", o.value) else x1;
    x2 + Marked("+", g2)
  }

  /** A result without missing entries is emitted unchanged. */
  lemma {:induction false} ShownComplete(xs: seq<Option<string>>)
    requires forall i | 0 <= i < |xs| :: xs[i].Some?
    ensures |Shown(xs)| == |xs|
    ensures forall i | 0 <= i < |xs| :: Shown(xs)[i] == xs[i].value
    decreases |xs|
  {
    if |xs| > 0 {
      ShownComplete(xs[1..]);
    }
  }

  /** Emitting a concatenation emits each part. */
  lemma {:induction false} ShownAppend(xs: seq<Option<string>>, ys: seq<Option<string>>)
    ensures Shown(xs + ys) == Shown(xs) + Shown(ys)
    decreases |xs|
  {
    if |xs| > 0 {
      assert (xs + ys)[1..] == xs[1..] + ys && (xs + ys)[0] == xs[0];
      ShownAppend(xs[1..], ys);
      if xs[0].Some? {
        assert [xs[0].value] + (Shown(xs[1..]) + Shown(ys)) == ([xs[0].value] + Shown(xs[1..])) + Shown(ys);
      }
    } else {
      assert xs + ys == ys;
    }
  }

  /** `echoOGO` is its mandatory argument marked with "+", between its
      given optional arguments marked with "-". */
  lemma EchoOGOLayout(o1: Option<string>, g: string, o2: Option<string>)
    ensures EchoOGO(o1, g, o2) == MarkedIf("-", o1) + Marked("+", g) + MarkedIf("-", o2)
  {
  }

  /** A marked argument is emitted as the mark, the argument, the mark. */
  lemma ShownMarked(d: string, x: string)
    ensures Shown(Marked(d, x)) == [d, x, d]
  {
    ShownComplete(Marked(d, x));
  }

  /** What `echoOGO` emits: the given optional arguments between "-"
      marks around the mandatory one between "+" marks. */
  lemma EchoOGOShown(o1: Option<string>, g: string, o2: Option<string>)
    ensures Shown(EchoOGO(o1, g, o2)) ==
              (if o1.Some? then ["-", o1.value, "-"] else []) + ["+", g, "+"] + (if o2.Some? then ["-", o2.value, "-"] else [])
  {
    EchoOGOLayout(o1, g, o2);
    ShownAppend(MarkedIf("-", o1) + Marked("+", g), MarkedIf("-", o2));
    ShownAppend(MarkedIf("-", o1), Marked("+", g));
    ShownMarked("+", g);
    if o1.Some? {
      ShownMarked("-", o1.value);
    }
    if o2.Some? {
      ShownMarked("-", o2.value);
    }
  }

  /** `echoGOG` is `echoOGO` of its first mandatory argument and its
      optional one, followed by its second mandatory argument marked with
      "+". */
  lemma EchoGOGFromOGO(g1: string, o: Option<string>, g2: string)
    ensures EchoGOG(g1, o, g2) == EchoOGO(None, g1, o) + Marked("+", g2)
  {
    assert [] + Marked("+", g1) == Marked("+", g1);
  }
}

=== FILE: environments.dfy ===
/** Environments: `\begin{env}` .. `\end{env}`.

    Opening an environment starts a fresh group-balance counter, enters one
    group for the environment and pushes the argument frame of its macro.
    Closing it checks the name, runs `end<env>` when there is one, leaves the
    environment's group and insists that every group opened inside was
    closed again. */
module Environments {
  import opened Wrappers
  import opened Scopes
  import Sc = Scopes
  import opened Arguments
  import opened Registry
  import opened Generator
  import Macros
  import Classes

  /** `begin`: an environment needs a macro of its name. */
  function Begin(st: State, env: string): (r: Result<State>)
    requires |st.scopes.frames| > 0
    ensures r.Ok? <==> HasMacro(st.registry, env)
    ensures r.Err? ==> r.error == UnknownEnvironment(env)
    ensures r.Ok? ==> |r.value.scopes.frames| == |st.scopes.frames| + 1 && r.value.scopes.frames[..|st.scopes.frames|] == st.scopes.frames
    ensures r.Ok? ==> r.value.scopes.groups == st.scopes.groups + [1]
    ensures r.Ok? ==> |r.value.argStack| == |st.argStack| + 1 && r.value.argStack[..|st.argStack|] == st.argStack
    ensures r.Ok? && Descriptor(st.registry, env).Some? ==> r.value.argStack[|st.argStack|].name == Some(env)
    ensures r.Ok? ==> r.value == st.(scopes := r.value.scopes, argStack := r.value.argStack)
  {
    if !HasMacro(st.registry, env) then Err(UnknownEnvironment(env))
    else
      var s := EnterGroup(StartBalanced(st.scopes), false);
      Ok(st.(scopes := s, argStack := BeginArgs(st.argStack, env, Descriptor(st.registry, env))))
  }

  /** The environments built on a list whose end only closes the list
      level. */
  const ListEnvironments: set<string> := {"center", "flushleft", "flushright", "quote", "quotation", "verse", "description"}

  /** The body of `end<env>`, for the ends that change the state: the
      list-based environments close a list level, itemize and enumerate also
      go one level of their kind up, and a class's abstract closes a list
      level it never opened. Any other end only produces output. */
  function EndMacro(st: State, env: string): (r: Result<State>)
    ensures r.Ok? ==> r.value == st.(counters := r.value.counters) && r.value.counters.resets == st.counters.resets
    ensures env in ListEnvironments || env == "abstract" ==> r == EndList(st)
    ensures env !in ListEnvironments && env !in {"itemize", "enumerate", "abstract"} ==> r == Ok(st)
  {
    match env
    case "itemize" => Macros.CloseList(st, "@itemdepth")
    case "enumerate" => Macros.CloseList(st, "@enumdepth")
    case "abstract" => Classes.EndAbstract(st)
    case _ => if env in ListEnvironments then EndList(st) else Ok(st)
  }

  /** The state after `end<env>` has run, when it exists. */
  function AfterEndMacro(st: State, id: string): (r: Result<State>)
    ensures !HasMacro(st.registry, "end" + id) ==> r == Ok(st)
    ensures HasMacro(st.registry, "end" + id) ==> r == EndMacro(st, id)
  {
    if HasMacro(st.registry, "end" + id) then EndMacro(st, id) else Ok(st)
  }

  /** `end`: the name must match the open environment; after `end<env>`
      the environment's group is left, and the balance counter must then be
      back at 0 before it is dropped. */
  function End(st: State, id: string, endId: string): (r: Result<State>)
    ensures id != endId ==> r == Err(MismatchedEnd(id, endId))
    ensures r.Ok? <==> && id == endId && AfterEndMacro(st, id).Ok?
                       && |st.scopes.groups| > 0 && st.scopes.groups[|st.scopes.groups| - 1] == 1
    ensures id == endId && AfterEndMacro(st, id).Ok? && |st.scopes.groups| > 0 && st.scopes.groups[|st.scopes.groups| - 1] > 1 ==>
              r == Err(UnbalancedGroups(id))
    ensures r.Ok? ==> r.value.scopes.groups == st.scopes.groups[..|st.scopes.groups| - 1]
    ensures r.Ok? && |st.scopes.frames| > 0 ==> r.value.scopes.frames == st.scopes.frames[..|st.scopes.frames| - 1]
    ensures r.Ok? ==> r.value == AfterEndMacro(st, id).value.(scopes := r.value.scopes)
  {
    if id != endId then Err(MismatchedEnd(id, endId))
    else
      var st1 :- AfterEndMacro(st, id);
      var s :- ExitGroup(st1.scopes);
      if !IsBalanced(s) then Err(UnbalancedGroups(id))
      else
        assert s.groups[..|s.groups| - 1] == st.scopes.groups[..|st.scopes.groups| - 1];
        Ok(st1.(scopes := EndBalanced(s)))
  }

  /** Leaving an environment's group restores the balance counters and
      frames it was opened on, whatever its own frame was changed to. */
  lemma ScopesRoundTrip(s: Scopes, f: Frame)
    requires |s.frames| > 0
    ensures var e := ExitGroup(WithTop(EnterGroup(StartBalanced(s), false), f));
            e.Ok? && IsBalanced(e.value) && EndBalanced(e.value) == s
  {
    var inner := WithTop(EnterGroup(StartBalanced(s), false), f);
    var e := ExitGroup(inner).value;
    assert e.frames == s.frames by {
      assert inner.frames[..|inner.frames| - 1] == EnterGroup(StartBalanced(s), false).frames[..|s.frames|];
    }
    assert e.groups == s.groups + [0];
    assert (s.groups + [0])[..|s.groups|] == s.groups;
  }

  /** Closing an environment whose end body succeeds and leaves the
      scopes alone gives back the scopes it was opened on, and keeps
      everything else the end body did. */
  lemma EndClosesBegin(st: State, env: string, f: Frame, x: State)
    requires |st.scopes.frames| > 0 && HasMacro(st.registry, env)
    requires x.scopes == WithTop(Begin(st, env).value.scopes, f)
    requires AfterEndMacro(x, env).Ok?
    ensures End(x, env, env) == Ok(AfterEndMacro(x, env).value.(scopes := st.scopes))
  {
    ScopesRoundTrip(st.scopes, f);
  }

  /** An environment without an end body leaves the scopes exactly as it
      found them, whatever it set inside its group: only the argument frame
      `begin` pushed for the parser remains. */
  lemma BeginEndRoundTrip(st: State, env: string, f: Frame)
    requires |st.scopes.frames| > 0
    requires HasMacro(st.registry, env) && !HasMacro(st.registry, "end" + env)
    ensures var b := Begin(st, env).value;
            End(b.(scopes := WithTop(b.scopes, f)), env, env) == Ok(st.(argStack := b.argStack))
  {
    var b := Begin(st, env).value;
    EndClosesBegin(st, env, f, b.(scopes := WithTop(b.scopes, f)));
  }

  /** A group opened inside an environment and left open makes its end
      fail. */
  lemma EndUnbalanced(st: State, env: string)
    requires |st.scopes.frames| > 0
    requires HasMacro(st.registry, env) && !HasMacro(st.registry, "end" + env)
    ensures var b := Begin(st, env).value;
            End(b.(scopes := EnterGroup(b.scopes, false)), env, env) == Err(UnbalancedGroups(env))
  {
  }

  /** The depth counter of each list environment. */
  function DepthOf(env: string): (r: string)
    ensures r in {"@itemdepth", "@enumdepth"}
  {
    if env == "itemize" then "@itemdepth" else "@enumdepth"
  }

  /** The end body of itemize and enumerate undoes their opening call. */
  lemma ListEndUndoesOpen(b: State, env: string)
    requires env in {"itemize", "enumerate"}
    requires Macros.OpenList(b, DepthOf(env)).Ok?
    requires "@listdepth" in b.counters.resets && b.counters.resets["@listdepth"] == []
    requires DepthOf(env) in b.counters.resets && b.counters.resets[DepthOf(env)] == []
    ensures EndMacro(Macros.OpenList(b, DepthOf(env)).value, env) == Ok(b)
  {
    Macros.OpenCloseList(b, DepthOf(env));
  }

  /** An itemize or enumerate environment whose depth counters reset
      nothing leaves the counters and the scopes as they were. */
  lemma ListEnvironmentRoundTrip(st: State, env: string)
    requires |st.scopes.frames| > 0
    requires env in {"itemize", "enumerate"}
    requires HasMacro(st.registry, env) && HasMacro(st.registry, "end" + env)
    requires Macros.OpenList(Begin(st, env).value, DepthOf(env)).Ok?
    requires "@listdepth" in st.counters.resets && st.counters.resets["@listdepth"] == []
    requires DepthOf(env) in st.counters.resets && st.counters.resets[DepthOf(env)] == []
    ensures var b := Begin(st, env).value;
            End(Macros.OpenList(b, DepthOf(env)).value, env, env) == Ok(st.(argStack := b.argStack))
  {
    var b := Begin(st, env).value;
    var o := Macros.OpenList(b, DepthOf(env)).value;
    ListEndUndoesOpen(b, env);
    assert o.scopes == WithTop(b.scopes, Top(b.scopes));
    EndClosesBegin(st, env, Top(b.scopes), o);
  }

  /** The abstract environment leaves the scopes as they were but the list
      depth one lower than before, because its end closes a list level its
      beginning never opened. */
  lemma AbstractEnvironmentLowersListDepth(st: State)
    requires |st.scopes.frames| > 0 && "@listdepth" in st.counters.values
    requires HasMacro(st.registry, "abstract") && HasMacro(st.registry, "endabstract")
    ensures Begin(st, "abstract").Ok? && Classes.Abstract(Begin(st, "abstract").value).Ok?
    ensures var a := Classes.Abstract(Begin(st, "abstract").value).value;
            && End(a, "abstract", "abstract").Ok?
            && End(a, "abstract", "abstract").value.scopes == st.scopes
            && End(a, "abstract", "abstract").value.counters.values["@listdepth"] == st.counters.values["@listdepth"] - 1
  {
    var b := Begin(st, "abstract").value;
    var a := Classes.Abstract(b).value;
    var small := Top(a.scopes);
    assert a.scopes == WithTop(b.scopes, small);
    assert "end" + "abstract" == "endabstract";
    EndClosesBegin(st, "abstract", small, a);
  }
}

=== FILE: generator.dfy ===
/** The interpreter state and the services the macros call: counters with
    their `the<c>` formatting, the scope stack, the argument stack, labels
    and references, sectioning and list nesting. */
module Generator {
  import opened Wrappers
  import opened Lengths
  import opened Numerals
  import Counters
  import opened Scopes
  import Sc = Scopes
  import opened Arguments
  import Labels
  import opened Registry

  datatype ClassKind = Article | Report | Book

  /** The document-class side of the state: which class is loaded and the
      fields its macros switch (report and book only use the chapter fields,
      book alone uses `mainmatter`). A `chapterName` of `None` is the
      original's `undefined`. */
  datatype DocClass = DocClass(kind: ClassKind, chapterAlph: bool, chapterName: Option<seq<string>>, mainmatter: bool)

  datatype State = State(
    counters: Counters.Counters,
    scopes: Scopes,
    argStack: ArgStack,
    labels: Labels.Labels,
    registry: Registry,
    cls: Option<DocClass>,
    title: Option<string>,
    author: Option<string>,
    date: Option<string>,
    thanks: Option<string>,
    uid: nat)

  /** The invariant every operation keeps: counters and reset lists have
      the same names, the scope stack is valid and the root frame exists. */
  ghost predicate Valid(st: State) {
    && st.counters.values.Keys == st.counters.resets.Keys
    && Sc.Valid(st.scopes)
    && |st.scopes.frames| > 0
  }

  /** A section heading as `startsection` builds it: the number (with the
      chapter name for chapters) and the anchor id of the current label. */
  datatype Heading =
    | Numbered(sec: string, number: seq<string>, title: Option<string>, id: Option<string>)
    | ChapterHeading(name: seq<string>, number: seq<string>, title: Option<string>, id: Option<string>)
    | Unnumbered(sec: string, title: Option<string>)

  /** `nextId`: hand out the current id and advance. */
  function NextId(st: State): (r: (State, nat))
    ensures r.1 == st.uid && r.0 == st.(uid := st.uid + 1)
  {
    (st.(uid := st.uid + 1), st.uid)
  }

  function Counter(st: State, c: string): (r: Result<int>)
    ensures r.Ok? <==> c in st.counters.values
    ensures r.Ok? ==> r.value == st.counters.values[c]
    ensures r.Err? ==> r.error == NoSuchCounter(c)
  {
    Counters.Get(st.counters, c)
  }

  function SetCounter(st: State, c: string, v: int): (r: Result<State>)
    ensures r.Ok? <==> c in st.counters.values
    ensures r.Err? ==> r.error == NoSuchCounter(c)
    ensures r.Ok? ==> r.value == st.(counters := st.counters.(values := st.counters.values[c := v]))
  {
    var cs :- Counters.Set(st.counters, c, v);
    Ok(st.(counters := cs))
  }

  function StepCounter(st: State, c: string): (r: Result<State>)
    ensures c !in st.counters.values ==> r == Err(NoSuchCounter(c))
    ensures r.Ok? <==> Counters.Step(st.counters, c).Ok?
    ensures r.Ok? ==> r.value == st.(counters := Counters.Step(st.counters, c).value)
  {
    var cs :- Counters.Step(st.counters, c);
    Ok(st.(counters := cs))
  }

  /** `addToReset(c, parent)`: stepping `parent` will also zero `c`. */
  function AddToReset(st: State, c: string, parent: string): (r: Result<State>)
    requires st.counters.values.Keys == st.counters.resets.Keys
    ensures r.Ok? <==> parent in st.counters.values && c in st.counters.values
    ensures r.Ok? ==> r.value.counters.values == st.counters.values
    ensures r.Ok? ==> r.value.counters.resets == st.counters.resets[parent := st.counters.resets[parent] + [c]]
    ensures r.Ok? ==> r.value == st.(counters := r.value.counters)
  {
    var cs :- Counters.AddToReset(st.counters, c, parent);
    Ok(st.(counters := cs))
  }

  /** `newCounter`: create the counter (see Counters.New) and, when no
      `the<c>` macro exists yet, install the generic one that prints the
      counter in arabic. */
  function NewCounter(st: State, c: string, parent: Option<string>): (r: Result<State>)
    requires st.counters.values.Keys == st.counters.resets.Keys
    ensures r.Ok? <==> Counters.New(st.counters, c, parent).Ok?
    ensures c in st.counters.values ==> r == Err(DuplicateCounter(c))
    ensures r.Ok? ==> r.value.counters == Counters.New(st.counters, c, parent).value
    ensures r.Ok? ==> r.value.counters.values.Keys == r.value.counters.resets.Keys
    ensures r.Ok? ==> r.value.counters.values[c] == 0
    ensures r.Ok? ==> HasMacro(r.value.registry, "the" + c)
    ensures r.Ok? && HasMacro(st.registry, "the" + c) ==> r.value.registry == st.registry
    ensures r.Ok? && !HasMacro(st.registry, "the" + c) ==> HandlerOf(r.value.registry, "the" + c) == ArabicThe(c)
    ensures r.Ok? ==> r.value == st.(counters := r.value.counters, registry := r.value.registry)
  {
    var cs :- Counters.New(st.counters, c, parent);
    var name := "the" + c;
    assert name[0] == 't';
    var reg := if HasMacro(st.registry, name) then st.registry else Install(st.registry, name, ArabicThe(c));
    Ok(st.(counters := cs, registry := reg))
  }

  /** The position of a `the<c>` macro in the chain of class formatters that
      call one another; it bounds the recursion of `The`. */
  function ChainRank(c: string): nat {
    match c
    case "section" => 1
    case "figure" => 1
    case "table" => 1
    case "subsection" => 2
    case "subsubsection" => 3
    case "paragraph" => 4
    case "subparagraph" => 5
    case _ => 0
  }

  /** The value of a counter as a numeral of the given style. */
  function Numeral(st: State, c: string, upperAlph: bool): (r: Result<string>)
    ensures r.Ok? <==> c in st.counters.values
    ensures r.Ok? ==> r.value == (if upperAlph then UpperAlph(st.counters.values[c]) else Arabic(st.counters.values[c]))
  {
    var v :- Counters.Get(st.counters, c);
    Ok(if upperAlph then UpperAlph(v) else Arabic(v))
  }

  /** The output of the `the<c>` macro: an error when there is none, the
      generic arabic or Alph body when one was installed at run time, and
      otherwise the body the base macros or the loaded class define. */
  function The(st: State, c: string): (r: Result<seq<string>>)
    ensures !HasMacro(st.registry, "the" + c) ==> r == Err(UnknownMacro("the" + c))
    ensures HasMacro(st.registry, "the" + c) && !HandlerOf(st.registry, "the" + c).Defined? ==>
              var x := HandlerOf(st.registry, "the" + c).counter;
              && (r.Ok? <==> x in st.counters.values)
              && (r.Ok? && HandlerOf(st.registry, "the" + c).ArabicThe? ==> r.value == [Arabic(st.counters.values[x])])
              && (r.Ok? && HandlerOf(st.registry, "the" + c).AlphThe? ==> r.value == [UpperAlph(st.counters.values[x])])
    decreases ChainRank(c), 3
  {
    var name := "the" + c;
    if !HasMacro(st.registry, name) then Err(UnknownMacro(name))
    else
      match HandlerOf(st.registry, name)
      case ArabicThe(x) => var s :- Numeral(st, x, false); Ok([s])
      case AlphThe(x) => var s :- Numeral(st, x, true); Ok([s])
      case Defined => DefinedThe(st, c)
  }

  /** The `the<c>` bodies written out in the base macros (`theenumi` ..
      `theenumiv`) and in the document classes. */
  function DefinedThe(st: State, c: string): (r: Result<seq<string>>)
    decreases ChainRank(c), 2
  {
    match c
    case "enumi" => var v :- Counter(st, "enumi"); Ok([Arabic(v)])
    case "enumii" => var v :- Counter(st, "enumii"); Ok([Alph(v)])
    case "enumiii" => var v :- Counter(st, "enumiii"); Ok([LowerRomanOf(v)])
    case "enumiv" => var v :- Counter(st, "enumiv"); Ok([UpperAlph(v)])
    case _ => if st.cls.None? then Err(UnknownMacro("the" + c)) else ClassThe(st, c)
  }

  /** The `the<c>` bodies of the loaded class. A class formatter that
      builds on another one calls it through the registry, so a formatter
      replaced at run time (as `\appendix` does in article) is what its
      dependents see. */
  function ClassThe(st: State, c: string): (r: Result<seq<string>>)
    requires st.cls.Some?
    decreases ChainRank(c), 1
  {
    var cls := st.cls.value;
    var chapters := cls.kind != Article;
    match c
    case "part" => var v :- Counter(st, "part"); Ok([Roman(v)])
    case "chapter" =>
      if !chapters then Err(UnknownMacro("thechapter"))
      else var s :- Numeral(st, "chapter", cls.chapterAlph); Ok([s])
    case "section" =>
      if !chapters then var s :- Numeral(st, "section", false); Ok([s])
      else var p :- The(st, "chapter"); var s :- Numeral(st, "section", false); Ok(p + ["." + s])
    case "subsection" => Dotted(st, "section", "subsection")
    case "subsubsection" => Dotted(st, "subsection", "subsubsection")
    case "paragraph" => Dotted(st, "subsubsection", "paragraph")
    case "subparagraph" => Dotted(st, "paragraph", "subparagraph")
    case "figure" => if !chapters then Err(UnknownMacro("thefigure")) else ChapterPrefixed(st, "figure")
    case "table" => if !chapters then Err(UnknownMacro("thetable")) else ChapterPrefixed(st, "table")
    case _ => Err(UnknownMacro("the" + c))
  }

  /** A class formatter is reached through `DefinedThe`. */
  lemma ClassTheReached(st: State, c: string)
    requires st.cls.Some? && c !in {"enumi", "enumii", "enumiii", "enumiv"}
    ensures DefinedThe(st, c) == ClassThe(st, c)
  {
  }

  /** `thepart` prints the part in Roman. */
  lemma PartThe(st: State)
    requires st.cls.Some? && "part" in st.counters.values
    ensures ClassThe(st, "part") == Ok([Roman(st.counters.values["part"])])
  {
  }

  /** `thechapter` of report and book: arabic, or Alph after the appendix. */
  lemma ChapterThe(st: State)
    requires st.cls.Some? && st.cls.value.kind != Article && "chapter" in st.counters.values
    ensures var v := st.counters.values["chapter"];
            ClassThe(st, "chapter") == Ok([if st.cls.value.chapterAlph then UpperAlph(v) else Arabic(v)])
  {
  }

  /** `thesection`: arabic in article, after `thechapter` and "." otherwise. */
  lemma SectionThe(st: State)
    requires st.cls.Some? && "section" in st.counters.values
    ensures var v := st.counters.values["section"];
            && (st.cls.value.kind == Article ==> ClassThe(st, "section") == Ok([Arabic(v)]))
            && (st.cls.value.kind != Article && The(st, "chapter").Ok? ==>
                  ClassThe(st, "section") == Ok(The(st, "chapter").value + ["." + Arabic(v)]))
  {
  }

  /** `thesubsection` builds on `thesection`. */
  lemma SubsectionThe(st: State)
    requires st.cls.Some?
    ensures ClassThe(st, "subsection") == Dotted(st, "section", "subsection")
  {
  }

  /** `Dotted` once the parent's number is known. */
  lemma DottedValue(st: State, parent: string, c: string, p: seq<string>)
    requires ChainRank(parent) < ChainRank(c) && The(st, parent) == Ok(p) && c in st.counters.values
    ensures Dotted(st, parent, c) == Ok(p + ["." + Arabic(st.counters.values[c])])
  {
  }

  /** report's `thefigure` carries the chapter prefix. */
  lemma FigureThe(st: State)
    requires st.cls.Some? && st.cls.value.kind != Article
    ensures ClassThe(st, "figure") == ChapterPrefixed(st, "figure")
  {
  }

  /** `the<parent>` followed by "." and the arabic value of `c`. */
  function Dotted(st: State, parent: string, c: string): (r: Result<seq<string>>)
    requires ChainRank(parent) < ChainRank(c)
    decreases ChainRank(c), 0
  {
    var p :- The(st, parent);
    var s :- Numeral(st, c, false);
    Ok(p + ["." + s])
  }

  /** report's `thefigure`/`thetable`: the chapter number and "." only
      once a chapter has started. */
  function ChapterPrefixed(st: State, c: string): (r: Result<seq<string>>)
    requires ChainRank(c) == 1
    decreases ChainRank(c), 0
  {
    var ch :- Counter(st, "chapter");
    var prefix :- if ch > 0 then (var p :- The(st, "chapter"); Ok(p + ["."])) else Ok([]);
    var s :- Numeral(st, c, false);
    Ok(prefix + [s])
  }

  /** The `p@<c>` prefix a label gets in front of `the<c>`; only the nested
      enumerate counters have one. */
  function PrefixOf(st: State, c: string): (r: Result<seq<string>>)
    ensures !HasMacro(st.registry, "p@" + c) ==> r == Ok([])
  {
    var name := "p@" + c;
    if !HasMacro(st.registry, name) then Ok([])
    else
      match HandlerOf(st.registry, name)
      case ArabicThe(x) => var s :- Numeral(st, x, false); Ok([s])
      case AlphThe(x) => var s :- Numeral(st, x, true); Ok([s])
      case Defined =>
        match c
        case "enumii" => The(st, "enumi")
        case "enumiii" => PEnumiii(st)
        case "enumiv" => var p :- PEnumiii(st); var t :- The(st, "enumiii"); Ok(p + t)
        case _ => Err(UnknownMacro(name))
  }

  /** `p@enumiii`: `theenumi(theenumii)`. */
  function PEnumiii(st: State): (r: Result<seq<string>>) {
    var a :- The(st, "enumi");
    var b :- The(st, "enumii");
    Ok(a + ["("] + b + [")"])
  }

  /** `refCounter`: make `c` the current label of the innermost frame, with
      the given id or, without one, a fresh anchor id `c-<n>` (returned as
      the anchor to place). The label text is `p@<c>` followed by `the<c>`. */
  function RefCounter(st: State, c: string, id: Option<string>): (r: Result<(State, Option<string>)>)
    requires |st.scopes.frames| > 0
    ensures r.Ok? ==> |r.value.0.scopes.frames| == |st.scopes.frames| && r.value.0.scopes.groups == st.scopes.groups
    ensures r.Ok? ==> r.value.0.scopes.frames[..|st.scopes.frames| - 1] == st.scopes.frames[..|st.scopes.frames| - 1]
    ensures r.Ok? && (id.None? || id.value == "") ==>
              && r.value.1 == Some(c + "-" + Arabic(st.uid))
              && r.value.0.uid == st.uid + 1
              && Top(r.value.0.scopes).currentLabel.id == c + "-" + Arabic(st.uid)
    ensures r.Ok? && id.Some? && id.value != "" ==>
              && r.value.1 == None && r.value.0.uid == st.uid
              && Top(r.value.0.scopes).currentLabel.id == id.value
    ensures r.Ok? ==> PrefixOf(st, c).Ok? && The(st, c).Ok?
    ensures r.Ok? ==> Top(r.value.0.scopes).currentLabel.text == PrefixOf(st, c).value + The(st, c).value
    ensures r.Ok? ==> r.value.0 == st.(scopes := r.value.0.scopes, uid := r.value.0.uid)
    ensures The(st, c).Err? ==> r.Err?
  {
    var anon := id.None? || id.value == "";
    var theId := if anon then c + "-" + Arabic(st.uid) else id.value;
    var st1 := if anon then st.(uid := st.uid + 1) else st;
    var p :- PrefixOf(st, c);
    var t :- The(st, c);
    var cl := CurrentLabel(theId, p + t);
    Ok((st1.(scopes := SetCurrentLabel(st1.scopes, cl)), if anon then Some(theId) else None))
  }

  /** `setLabel`: bind the name to the innermost frame's current label. */
  function SetLabel(st: State, name: string): (r: Result<State>)
    requires |st.scopes.frames| > 0 && Labels.Valid(st.labels)
    ensures r.Ok? <==> name !in st.labels.bound
    ensures r.Ok? ==> r.value.labels.bound == st.labels.bound[name := Top(st.scopes).currentLabel]
    ensures r.Ok? ==> r.value == st.(labels := Labels.SetLabel(st.labels, name, Top(st.scopes).currentLabel).value)
  {
    var ls :- Labels.SetLabel(st.labels, name, Top(st.scopes).currentLabel);
    Ok(st.(labels := ls))
  }

  function Ref(st: State, name: string): (r: (State, nat))
    ensures r.0 == st.(labels := r.0.labels)
    ensures r.1 == |st.labels.links| && |r.0.labels.links| == r.1 + 1 && r.0.labels.links[..r.1] == st.labels.links
    ensures name in st.labels.bound ==> r.0.labels.links[r.1] == Labels.LinkTo(st.labels.bound[name])
    ensures name !in st.labels.bound ==> r.0.labels.links[r.1] == Labels.Placeholder && name in r.0.labels.pending && r.1 in r.0.labels.pending[name]
  {
    var (ls, i) := Labels.Ref(st.labels, name);
    (st.(labels := ls), i)
  }

  /** A label set after `refCounter` refers to the counter's anchor and
      carries its formatted number. */
  lemma LabelAfterRefCounter(st: State, c: string, name: string)
    requires |st.scopes.frames| > 0 && Labels.Valid(st.labels)
    requires RefCounter(st, c, None).Ok? && name !in st.labels.bound
    ensures var (st1, anchor) := RefCounter(st, c, None).value;
            var st2 := SetLabel(st1, name);
            && st2.Ok?
            && st2.value.labels.bound[name] == CurrentLabel(anchor.value, PrefixOf(st, c).value + The(st, c).value)
  {
  }

  /** `startlist`: one list level deeper; more than six levels is an error. */
  function StartList(st: State): (r: Result<State>)
    ensures "@listdepth" !in st.counters.values ==> r.Err?
    ensures r.Ok? ==>
              && "@listdepth" in st.counters.values
              && Counters.Step(st.counters, "@listdepth").Ok?
              && r.value == st.(counters := Counters.Step(st.counters, "@listdepth").value)
              && r.value.counters.values["@listdepth"] == st.counters.values["@listdepth"] + 1 <= 6
    ensures Counters.Step(st.counters, "@listdepth").Ok? && st.counters.values["@listdepth"] + 1 > 6 ==>
              r == Err(TooDeeplyNested)
  {
    match StepCounter(st, "@listdepth")
    case Err(e) => Err(e)
    case Ok(st1) => if st1.counters.values["@listdepth"] > 6 then Err(TooDeeplyNested) else Ok(st1)
  }

  /** `endlist`: one list level up. */
  function EndList(st: State): (r: Result<State>)
    ensures r.Ok? <==> "@listdepth" in st.counters.values
    ensures r.Ok? ==> r.value == st.(counters := st.counters.(values := st.counters.values["@listdepth" := st.counters.values["@listdepth"] - 1]))
  {
    var d :- Counter(st, "@listdepth");
    SetCounter(st, "@listdepth", d - 1)
  }

  /** With no counters hanging off `@listdepth`, closing a list undoes
      opening it. */
  lemma StartEndList(st: State)
    requires StartList(st).Ok?
    requires "@listdepth" in st.counters.resets && st.counters.resets["@listdepth"] == []
    ensures EndList(StartList(st).value) == Ok(st)
  {
    var s1 := StartList(st).value;
    Counters.ReachesNothingAll(st.counters);
    assert s1.counters.values == st.counters.values["@listdepth" := st.counters.values["@listdepth"] + 1];
    assert s1.counters.values["@listdepth" := s1.counters.values["@listdepth"] - 1] == st.counters.values;
  }

  /** `startsection`. Called without title and toc entry it is the
      numbering call (`SectionNumber`); called with either it builds the
      heading (`SectionHeading`). */
  function StartSection(st: State, sec: string, level: int, star: bool, toc: Option<string>, ttl: Option<string>): (r: Result<(State, Option<Heading>)>)
    requires |st.scopes.frames| > 0
    ensures !star && "secnumdepth" !in st.counters.values ==> r.Err?
    ensures toc.None? && ttl.None? ==> r.Ok? ==> r.value.1.None?
    ensures toc.Some? || ttl.Some? ==> r.Ok? ==> r.value.0 == st && r.value.1.Some?
  {
    if toc.None? && ttl.None? then
      var st1 :- SectionNumber(st, sec, level, star);
      Ok((st1, None))
    else
      var h :- SectionHeading(st, sec, level, star, ttl);
      Ok((st, Some(h)))
  }

  /** Whether a section of this level is numbered: it is not starred and
      `secnumdepth` reaches its level. A starred section never reads
      `secnumdepth`, so it is unnumbered even when that counter is missing. */
  function Numbers(st: State, level: int, star: bool): (r: Result<bool>)
    ensures star ==> r == Ok(false)
    ensures !star ==> (r.Ok? <==> "secnumdepth" in st.counters.values)
    ensures !star && r.Ok? ==> (r.value <==> st.counters.values["secnumdepth"] >= level)
  {
    if star then Ok(false)
    else
      var depth :- Counter(st, "secnumdepth");
      Ok(depth >= level)
  }

  /** The numbering call: a numbered section steps its counter and becomes
      the current label with id `sec-<n>`; an unnumbered one changes
      nothing. */
  function SectionNumber(st: State, sec: string, level: int, star: bool): (r: Result<State>)
    requires |st.scopes.frames| > 0
    ensures star ==> r == Ok(st)
    ensures !star && "secnumdepth" !in st.counters.values ==> r.Err?
    ensures r.Ok? && !star && st.counters.values["secnumdepth"] < level ==> r.value == st
    ensures r.Ok? && !star && st.counters.values["secnumdepth"] >= level ==>
              && Counters.Step(st.counters, sec).Ok?
              && r.value.counters == Counters.Step(st.counters, sec).value
              && |r.value.scopes.frames| == |st.scopes.frames|
              && Top(r.value.scopes).currentLabel.id == "sec-" + Arabic(st.uid)
              && r.value.uid == st.uid + 1
  {
    var numbered :- Numbers(st, level, star);
    if !numbered then
      assert star || st.counters.values["secnumdepth"] < level;
      Ok(st)
    else
      var st1 :- StepCounter(st, sec);
      var id := "sec-" + Arabic(st1.uid);
      assert id[0] == 's' && st1.uid == st.uid;
      var st2 := st1.(uid := st1.uid + 1);
      match RefCounter(st2, sec, Some(id))
      case Err(e) => Err(e)
      case Ok(res) =>
        assert Top(res.0.scopes).currentLabel.id == id;
        Ok(res.0)
  }

  /** The heading call: never steps. A numbered heading carries `the<sec>`
      (after the chapter name for chapters) and the current label's id when
      there is one; otherwise the heading is unnumbered. */
  function SectionHeading(st: State, sec: string, level: int, star: bool, ttl: Option<string>): (r: Result<Heading>)
    requires |st.scopes.frames| > 0
    ensures star ==> r == Ok(Unnumbered(sec, ttl))
    ensures !star && "secnumdepth" !in st.counters.values ==> r.Err?
    ensures r.Ok? && !star && st.counters.values["secnumdepth"] < level ==> r.value == Unnumbered(sec, ttl)
    ensures r.Ok? && !star && st.counters.values["secnumdepth"] >= level ==>
              && The(st, sec).Ok?
              && !r.value.Unnumbered?
              && r.value.number == The(st, sec).value
              && r.value.title == ttl
              && (r.value.ChapterHeading? <==> sec == "chapter")
              && (r.value.id.Some? <==> Top(st.scopes).currentLabel.id != "")
              && (r.value.id.Some? ==> r.value.id.value == Top(st.scopes).currentLabel.id)
  {
    var numbered :- Numbers(st, level, star);
    if !numbered then Ok(Unnumbered(sec, ttl))
    else
      var ref := Top(st.scopes).currentLabel.id;
      var id := if ref != "" then Some(ref) else None;
      if sec == "chapter" then
        var name :- ChapterName(st);
        var num :- The(st, sec);
        Ok(ChapterHeading(name, num, ttl, id))
      else
        var num :- The(st, sec);
        Ok(Numbered(sec, num, ttl, id))
  }

  /** `chaptername`: a report or book macro. Its value heads a chapter
      through `concat`, which an undefined name does not have. */
  function ChapterName(st: State): (r: Result<seq<string>>)
    ensures st.cls.None? || st.cls.value.kind == Article ==> r == Err(UnknownMacro("chaptername"))
    ensures st.cls.Some? && st.cls.value.kind != Article ==>
              (r.Ok? <==> st.cls.value.chapterName.Some?)
              && (r.Err? ==> r.error == ConcatOnUndefined("chaptername"))
    ensures r.Ok? ==> r.value == st.cls.value.chapterName.value
  {
    if st.cls.Some? && st.cls.value.kind != Article then
      match st.cls.value.chapterName
      case Some(name) => Ok(name)
      case None => Err(ConcatOnUndefined("chaptername"))
    else Err(UnknownMacro("chaptername"))
  }

  /** `newLength`, `setLength`, `getLength` on the innermost frame. */
  function NewLength(st: State, l: string): (r: Result<State>)
    requires |st.scopes.frames| > 0
    ensures r.Ok? <==> l !in Top(st.scopes).lengths
    ensures r.Ok? ==> |r.value.scopes.frames| == |st.scopes.frames| && r.value.scopes.groups == st.scopes.groups
    ensures r.Ok? ==> Top(r.value.scopes).lengths == Top(st.scopes).lengths[l := Zero]
    ensures r.Ok? ==> r.value == st.(scopes := r.value.scopes)
  {
    var s :- Sc.NewLength(st.scopes, l);
    Ok(st.(scopes := s))
  }

  function SetLength(st: State, l: string, v: Length): (r: Result<State>)
    requires |st.scopes.frames| > 0
    ensures r.Ok? <==> l in Top(st.scopes).lengths
    ensures r.Ok? ==> |r.value.scopes.frames| == |st.scopes.frames| && r.value.scopes.groups == st.scopes.groups
    ensures r.Ok? ==> Top(r.value.scopes) == Top(st.scopes).(lengths := Top(st.scopes).lengths[l := v])
    ensures r.Ok? ==> r.value.scopes.frames[..|st.scopes.frames| - 1] == st.scopes.frames[..|st.scopes.frames| - 1]
    ensures r.Ok? ==> r.value == st.(scopes := r.value.scopes)
  {
    var s :- Sc.SetLength(st.scopes, l, v);
    Ok(st.(scopes := s))
  }

  function GetLength(st: State, l: string): (r: Result<Length>)
    requires |st.scopes.frames| > 0
    ensures r.Ok? <==> l in Top(st.scopes).lengths
    ensures r.Ok? ==> r.value == Top(st.scopes).lengths[l]
    ensures r.Err? ==> r.error == NoSuchLength(l)
  {
    Sc.GetLength(st.scopes, l)
  }

  /** Create counters one after another, none with a parent. */
  function NewCounters(st: State, cs: seq<string>): (r: Result<State>)
    requires st.counters.values.Keys == st.counters.resets.Keys
    ensures r.Ok? ==> r.value.counters.values.Keys == r.value.counters.resets.Keys
    ensures r.Ok? ==> r.value.scopes == st.scopes
    decreases |cs|
  {
    if |cs| == 0 then Ok(st)
    else
      var st1 :- NewCounter(st, cs[0], None);
      NewCounters(st1, cs[1..])
  }

  /** Fresh, distinct names all succeed: each starts at 0 with no reset
      list, and nothing else in the counter table changes. */
  lemma {:induction false} NewCountersFresh(st: State, cs: seq<string>)
    requires st.counters.values.Keys == st.counters.resets.Keys
    requires forall i | 0 <= i < |cs| :: cs[i] !in st.counters.values
    requires forall i, j | 0 <= i < j < |cs| :: cs[i] != cs[j]
    ensures NewCounters(st, cs).Ok?
    ensures var t := NewCounters(st, cs).value.counters;
            forall i | 0 <= i < |cs| :: cs[i] in t.values && t.values[cs[i]] == 0 && t.resets[cs[i]] == []
    ensures var t := NewCounters(st, cs).value.counters;
            forall c | c in st.counters.values :: c in t.values && t.values[c] == st.counters.values[c] && t.resets[c] == st.counters.resets[c]
    decreases |cs|
  {
    if |cs| > 0 {
      var st1 := NewCounter(st, cs[0], None).value;
      assert st1.counters.values == st.counters.values[cs[0] := 0];
      assert st1.counters.resets == st.counters.resets[cs[0] := []];
      var rest := cs[1..];
      assert forall i | 0 <= i < |rest| :: rest[i] == cs[i + 1];
      NewCountersFresh(st1, rest);
      assert NewCounters(st, cs) == NewCounters(st1, rest);
    }
  }

  /** Create length registers one after another in the innermost frame. */
  function NewLengths(st: State, ls: seq<string>): (r: Result<State>)
    requires |st.scopes.frames| > 0
    ensures r.Ok? ==> |r.value.scopes.frames| == |st.scopes.frames| && r.value.scopes.groups == st.scopes.groups
    ensures r.Ok? ==> forall i | 0 <= i < |ls| :: ls[i] in Top(r.value.scopes).lengths && Top(r.value.scopes).lengths[ls[i]] == Zero
    ensures r.Ok? ==> forall l | l in Top(st.scopes).lengths :: l in Top(r.value.scopes).lengths && Top(r.value.scopes).lengths[l] == Top(st.scopes).lengths[l]
    ensures r.Ok? ==> r.value.counters == st.counters
    decreases |ls|
  {
    if |ls| == 0 then Ok(st)
    else
      var st1 :- NewLength(st, ls[0]);
      NewLengths(st1, ls[1..])
  }

  lemma {:induction false} NewLengthsFresh(st: State, ls: seq<string>)
    requires |st.scopes.frames| > 0
    requires forall i | 0 <= i < |ls| :: ls[i] !in Top(st.scopes).lengths
    requires forall i, j | 0 <= i < j < |ls| :: ls[i] != ls[j]
    ensures NewLengths(st, ls).Ok?
    ensures var t := Top(NewLengths(st, ls).value.scopes).lengths;
            && (forall l | l in ls :: l in t && t[l] == Zero)
            && (forall l | l in Top(st.scopes).lengths :: l in t && t[l] == Top(st.scopes).lengths[l])
    decreases |ls|
  {
    if |ls| > 0 {
      var st1 := NewLength(st, ls[0]).value;
      NewLengthsFresh(st1, ls[1..]);
      assert forall l | l in ls :: l == ls[0] || l in ls[1..];
    }
  }

  /** The state before `reset`: nothing defined, one root frame. */
  const Blank: State := State(Counters.Empty, Sc.Initial, [], Labels.NoLabels, Builtin, None, None, None, None, None, 1)

  const EnumCounters: seq<string> := ["enumi", "enumii", "enumiii", "enumiv"]

  const BaseCounters: seq<string> := ["secnumdepth", "tocdepth", "footnote", "mpfootnote", "@listdepth", "@itemdepth", "@enumdepth"]

  /** The length registers `initCounters` declares after `@@size`,
      `unitlength` and `@wholewidth`. */
  const PlainLengths: seq<string> := [
    "paperheight", "paperwidth", "oddsidemargin", "evensidemargin", "textheight", "textwidth",
    "marginparwidth", "marginparsep", "marginparpush", "columnwidth", "columnsep", "columnseprule",
    "linewidth", "leftmargin", "rightmargin", "listparindent", "itemindent", "labelwidth", "labelsep",
    "leftmargini", "leftmarginii", "leftmarginiii", "leftmarginiv", "leftmarginv", "leftmarginvi",
    "fboxrule", "fboxsep", "tabbingsep", "arraycolsep", "tabcolsep", "arrayrulewidth", "doublerulesep",
    "footnotesep", "topmargin", "headheight", "headsep", "footskip", "topsep", "partopsep", "itemsep",
    "parsep", "floatsep", "textfloatsep", "intextsep", "dblfloatsep", "dbltextfloatsep"]

  /** `initCounters` of the base macros: the base counters, then the
      length registers. */
  function InitCounters(st: State): (r: Result<State>)
    requires st.counters.values.Keys == st.counters.resets.Keys && |st.scopes.frames| > 0
    ensures r.Ok? ==> forall i | 0 <= i < |BaseCounters| :: BaseCounters[i] in r.value.counters.values && r.value.counters.values[BaseCounters[i]] == 0
    ensures r.Ok? ==> forall c | c in st.counters.values :: c in r.value.counters.values && r.value.counters.values[c] == st.counters.values[c]
    ensures r.Ok? ==> |r.value.scopes.frames| == |st.scopes.frames|
    ensures r.Ok? ==>
              var ls := Top(r.value.scopes).lengths;
              && "unitlength" in ls && ls["unitlength"] == MakeLength(1.0, "pt")
              && "@wholewidth" in ls && ls["@wholewidth"] == MakeLength(0.4, "pt")
              && forall i | 0 <= i < |PlainLengths| :: PlainLengths[i] in ls
  {
    var st1 :- NewCounters(st, BaseCounters);
    NewCountersSet(st, BaseCounters);
    InitLengths(st1)
  }

  /** Whenever creating several counters succeeds, each new one holds 0
      and the counters that existed before keep their values. */
  lemma {:induction false} NewCountersSet(st: State, cs: seq<string>)
    requires st.counters.values.Keys == st.counters.resets.Keys
    requires NewCounters(st, cs).Ok?
    ensures var v := NewCounters(st, cs).value.counters.values;
            && (forall c | c in st.counters.values :: c in v && v[c] == st.counters.values[c])
            && (forall i | 0 <= i < |cs| :: cs[i] in v && v[cs[i]] == 0)
    decreases |cs|
  {
    if |cs| > 0 {
      var st1 := NewCounter(st, cs[0], None).value;
      NewCountersSet(st1, cs[1..]);
      assert forall i | 1 <= i < |cs| :: cs[i] == cs[1..][i - 1];
    }
  }

  /** The length half of `initCounters`: `@@size`, `unitlength` set to
      1pt, `@wholewidth` set to 0.4pt, then the plain registers at zero. */
  function InitLengths(st: State): (r: Result<State>)
    requires |st.scopes.frames| > 0
    ensures r.Ok? ==> r.value.counters == st.counters
    ensures r.Ok? ==> r.value.scopes.groups == st.scopes.groups && |r.value.scopes.frames| == |st.scopes.frames|
    ensures r.Ok? ==>
              var ls := Top(r.value.scopes).lengths;
              && "@@size" in ls
              && "unitlength" in ls && ls["unitlength"] == MakeLength(1.0, "pt")
              && "@wholewidth" in ls && ls["@wholewidth"] == MakeLength(0.4, "pt")
              && forall i | 0 <= i < |PlainLengths| :: PlainLengths[i] in ls
  {
    var st2 :- NewLength(st, "@@size");
    var st3 :- NewLength(st2, "unitlength");
    var st4 := SetLength(st3, "unitlength", MakeLength(1.0, "pt")).value;
    var st5 :- NewLength(st4, "@wholewidth");
    var st6 := SetLength(st5, "@wholewidth", MakeLength(0.4, "pt")).value;
    assert "@@size" in Top(st4.scopes).lengths;
    assert "@@size" in Top(st6.scopes).lengths;
    NewLengths(st6, PlainLengths)
  }

  /** `reset` from a state with no counters and the initial scope stack:
      the four enumerate counters, then the base counters and lengths. */
  function ResetFrom(st: State): (r: Result<State>)
    requires st.counters == Counters.Empty && st.scopes == Sc.Initial
  {
    var st1 :- NewCounters(st, EnumCounters);
    InitCounters(st1)
  }

  /** `reset`: start from the blank state; when it completes, every
      counter and length register the base macros declare is in place. */
  function Reset(): (r: Result<State>)
    ensures r.Ok? ==> Initialized(r.value)
  {
    ResetFromInitializes(Blank);
    ResetFrom(Blank)
  }

  /** What `reset` leaves behind: every base counter at 0, every base
      length register declared, `unitlength` at 1pt and `@wholewidth` at
      0.4pt, in the one root frame. */
  ghost predicate Initialized(st: State) {
    && Valid(st)
    && |st.scopes.frames| == 1
    && (forall i | 0 <= i < |EnumCounters| :: EnumCounters[i] in st.counters.values && st.counters.values[EnumCounters[i]] == 0)
    && (forall i | 0 <= i < |BaseCounters| :: BaseCounters[i] in st.counters.values && st.counters.values[BaseCounters[i]] == 0)
    && (forall i | 0 <= i < |PlainLengths| :: PlainLengths[i] in Top(st.scopes).lengths)
    && "@@size" in Top(st.scopes).lengths
    && "unitlength" in Top(st.scopes).lengths && Top(st.scopes).lengths["unitlength"] == MakeLength(1.0, "pt")
    && "@wholewidth" in Top(st.scopes).lengths && Top(st.scopes).lengths["@wholewidth"] == MakeLength(0.4, "pt")
  }

  lemma EnumCountersCreated(st: State)
    requires st.counters == Counters.Empty && st.scopes == Sc.Initial
    ensures NewCounters(st, EnumCounters).Ok?
    ensures var t := NewCounters(st, EnumCounters).value;
            && t.counters.values == map["enumi" := 0, "enumii" := 0, "enumiii" := 0, "enumiv" := 0]
            && t.counters.values.Keys == t.counters.resets.Keys
            && t.scopes == Sc.Initial
  {
    NewCountersFresh(st, EnumCounters);
  }

  lemma BaseCountersCreated(st: State)
    requires st.counters.values == map["enumi" := 0, "enumii" := 0, "enumiii" := 0, "enumiv" := 0]
    requires st.counters.values.Keys == st.counters.resets.Keys
    ensures NewCounters(st, BaseCounters).Ok?
    ensures var t := NewCounters(st, BaseCounters).value;
            && (forall i | 0 <= i < |EnumCounters| :: EnumCounters[i] in t.counters.values && t.counters.values[EnumCounters[i]] == 0)
            && (forall i | 0 <= i < |BaseCounters| :: BaseCounters[i] in t.counters.values && t.counters.values[BaseCounters[i]] == 0)
            && t.scopes == st.scopes
  {
    NewCountersFresh(st, BaseCounters);
  }

  lemma ResetFromInitializes(st: State)
    requires st.counters == Counters.Empty && st.scopes == Sc.Initial
    ensures ResetFrom(st).Ok? ==> Initialized(ResetFrom(st).value)
  {
    EnumCountersCreated(st);
    var st1 := NewCounters(st, EnumCounters).value;
    BaseCountersCreated(st1);
    Sc.InitialValid();
  }

}

=== FILE: labels.dfy ===
/** Labels and cross references.

    A label binds a name to the current label (anchor id and rendered
    number) of the innermost frame. A reference to a bound name is a link to
    that anchor; a reference to a name not yet bound is a placeholder link
    "??" to "#", remembered as pending and patched when the label arrives. */
module Labels {
  import opened Wrappers
  import opened Scopes

  /** A rendered link: its href and its content. */
  datatype Link = Link(href: string, content: seq<string>)

  /** `links` stands for the link elements created so far; pending entries
      refer to them by position. */
  datatype Labels = Labels(bound: map<string, CurrentLabel>, pending: map<string, seq<nat>>, links: seq<Link>)

  const NoLabels: Labels := Labels(map[], map[], [])

  const Placeholder: Link := Link("#", ["??"])

  /** The link a bound label renders as. */
  function LinkTo(cl: CurrentLabel): Link {
    Link("#" + cl.id, cl.text)
  }

  /** Pending references point at existing links and only for names not
      yet bound. */
  ghost predicate Valid(l: Labels) {
    && (forall n, i | n in l.pending && i in l.pending[n] :: i < |l.links|)
    && (forall n | n in l.pending :: n !in l.bound)
  }

  /** `setLabel`: bind the name (once only) to the current label and patch
      every pending reference to it, which stops being pending. */
  function SetLabel(l: Labels, name: string, cur: CurrentLabel): (r: Result<Labels>)
    requires Valid(l)
    ensures r.Ok? <==> name !in l.bound
    ensures r.Err? ==> r.error == DuplicateLabel(name)
    ensures r.Ok? ==> r.value.bound == l.bound[name := cur]
    ensures r.Ok? ==> r.value.pending == l.pending - {name} && name !in r.value.pending
    ensures r.Ok? ==> |r.value.links| == |l.links|
    ensures r.Ok? ==> forall i | 0 <= i < |l.links| ::
                        r.value.links[i] == (if name in l.pending && i in l.pending[name] then LinkTo(cur) else l.links[i])
  {
    if name in l.bound then Err(DuplicateLabel(name))
    else
      var links := seq(|l.links|, i requires 0 <= i < |l.links| =>
                       if name in l.pending && i in l.pending[name] then LinkTo(cur) else l.links[i]);
      Ok(Labels(l.bound[name := cur], l.pending - {name}, links))
  }

  /** `ref`: a new link, to the bound anchor, or a pending placeholder.
      The second component is the position of the new link. */
  function Ref(l: Labels, name: string): (r: (Labels, nat))
    ensures r.1 == |l.links| && |r.0.links| == r.1 + 1 && r.0.links[..r.1] == l.links
    ensures r.0.bound == l.bound
    ensures name in l.bound ==> r.0.links[r.1] == LinkTo(l.bound[name]) && r.0.pending == l.pending
    ensures name !in l.bound ==> r.0.links[r.1] == Placeholder
    ensures name !in l.bound ==>
              r.0.pending == l.pending[name := (if name in l.pending then l.pending[name] else []) + [r.1]]
  {
    var i := |l.links|;
    if name in l.bound then (l.(links := l.links + [LinkTo(l.bound[name])]), i)
    else
      var earlier := if name in l.pending then l.pending[name] else [];
      (l.(links := l.links + [Placeholder], pending := l.pending[name := earlier + [i]]), i)
  }

  lemma SetLabelValid(l: Labels, name: string, cur: CurrentLabel)
    requires Valid(l) && SetLabel(l, name, cur).Ok?
    ensures Valid(SetLabel(l, name, cur).value)
  {
  }

  lemma RefValid(l: Labels, name: string)
    requires Valid(l)
    ensures Valid(Ref(l, name).0)
  {
  }

  /** A reference made before its label ends up exactly like one made after
      it: the same href and the same content. */
  lemma ForwardRefResolves(l: Labels, name: string, cur: CurrentLabel)
    requires Valid(l) && name !in l.bound
    ensures var (l1, i) := Ref(l, name);
            Valid(l1) &&
            var l2 := SetLabel(l1, name, cur);
            l2.Ok? && l2.value.links[i] == LinkTo(cur) &&
            var (l3, j) := Ref(SetLabel(l, name, cur).value, name);
            l3.links[j] == l2.value.links[i]
  {
    RefValid(l, name);
  }

  /** Binding a name patches only that name's placeholders: links pending
      on other names and already resolved links are untouched. */
  lemma SetLabelLocal(l: Labels, name: string, cur: CurrentLabel, other: string, i: nat)
    requires Valid(l) && name !in l.bound && other != name
    requires other in l.pending && i in l.pending[other]
    requires name !in l.pending || i !in l.pending[name]
    ensures SetLabel(l, name, cur).value.links[i] == l.links[i]
    ensures other in SetLabel(l, name, cur).value.pending
  {
  }
}

=== FILE: lengths.dfy ===
/** Typographic lengths and two-dimensional vectors of lengths.

    A length is an immutable (magnitude, unit) pair. Absolute units are
    converted to scaled points ("sp") when a length is constructed; any other
    unit (em, ex, a percentage, ...) stays symbolic. Binary operations insist on
    identical unit tags. Magnitudes are exact reals: the original computes in
    IEEE doubles, whose rounding is not modelled. */
module Lengths {
  import opened Wrappers

  /** The canonical unit tag. */
  const SP: string := "sp"

  datatype Length = Length(value: real, unit: string)

  datatype Vector = Vector(x: Length, y: Length)

  /** Scaled points per unit, for every absolute unit the constructor knows. */
  function UnitFactor(unit: string): (f: Option<real>)
    ensures f.Some? ==> f.value > 0.0
    ensures f.Some? <==> unit in {"sp", "pt", "bp", "pc", "dd", "cc", "in", "px", "mm", "cm"}
  {
    match unit
    case "sp" => Some(1.0)
    case "pt" => Some(65536.0)
    case "bp" => Some(65536.0 * 72.27 / 72.0)
    case "pc" => Some(65536.0 * 12.0)
    case "dd" => Some(65536.0 * 1238.0 / 1157.0)
    case "cc" => Some(65536.0 * 1238.0 / 1157.0 * 12.0)
    case "in" => Some(65536.0 * 72.27)
    case "px" => Some(65536.0 * 72.27 / 96.0)
    case "mm" => Some(65536.0 * 7227.0 / 2540.0)
    case "cm" => Some(65536.0 * 7227.0 / 254.0)
    case _ => None
  }

  /** A length as the constructor leaves it: in scaled points, or in a unit
      the constructor does not convert. */
  predicate Canonical(l: Length) {
    l.unit == SP || UnitFactor(l.unit).None?
  }

  /** The magnitude of a canonical length expressed in `unit` (the inverse
      of the conversion the constructor applies). */
  function InUnit(l: Length, unit: string): real
    requires UnitFactor(unit).Some?
  {
    l.value / UnitFactor(unit).value
  }

  /** The Length constructor. */
  function MakeLength(value: real, unit: string): (l: Length)
    ensures Canonical(l)
    ensures UnitFactor(unit).None? ==> l == Length(value, unit)
    ensures UnitFactor(unit).Some? ==> l.unit == SP && InUnit(l, unit) == value
  {
    match UnitFactor(unit)
    case Some(f) => Length(value * f, SP)
    case None => Length(value, unit)
  }

  /** Constructing a length from a canonical one gives it back unchanged. */
  lemma MakeLengthOfCanonical(l: Length)
    requires Canonical(l)
    ensures MakeLength(l.value, l.unit) == l
  {
  }

  const Zero: Length := Length(0.0, SP)

  /** Three-way comparison; fails on differing units. */
  function Cmp(a: Length, b: Length): (r: Result<int>)
    ensures r.Ok? <==> a.unit == b.unit
    ensures r.Err? ==> r.error == UnitMismatch(a.unit, b.unit)
    ensures r.Ok? ==> (r.value == -1 <==> a.value < b.value)
    ensures r.Ok? ==> (r.value == 0 <==> a.value == b.value)
    ensures r.Ok? ==> (r.value == 1 <==> a.value > b.value)
  {
    if a.unit != b.unit then Err(UnitMismatch(a.unit, b.unit))
    else if a.value < b.value then Ok(-1)
    else if a.value == b.value then Ok(0)
    else Ok(1)
  }

  /** Cmp is antisymmetric: swapping the operands negates the answer. */
  lemma CmpAntisymmetric(a: Length, b: Length)
    requires a.unit == b.unit
    ensures Cmp(b, a).value == -Cmp(a, b).value
  {
  }

  /** Cmp orders lengths of one unit transitively. */
  lemma CmpTransitive(a: Length, b: Length, c: Length)
    requires a.unit == b.unit == c.unit
    requires Cmp(a, b).value <= 0 && Cmp(b, c).value <= 0
    ensures Cmp(a, c).value <= 0
    ensures Cmp(a, b).value < 0 || Cmp(b, c).value < 0 ==> Cmp(a, c).value < 0
  {
  }

  function Add(a: Length, b: Length): (r: Result<Length>)
    ensures r.Ok? <==> a.unit == b.unit
    ensures r.Err? ==> r.error == UnitMismatch(a.unit, b.unit)
    ensures r.Ok? && Canonical(a) ==> r.value == Length(a.value + b.value, a.unit)
  {
    if a.unit != b.unit then Err(UnitMismatch(a.unit, b.unit))
    else Ok(MakeLength(a.value + b.value, a.unit))
  }

  function Sub(a: Length, b: Length): (r: Result<Length>)
    ensures r.Ok? <==> a.unit == b.unit
    ensures r.Err? ==> r.error == UnitMismatch(a.unit, b.unit)
    ensures r.Ok? && Canonical(a) ==> r.value == Length(a.value - b.value, a.unit)
  {
    if a.unit != b.unit then Err(UnitMismatch(a.unit, b.unit))
    else Ok(MakeLength(a.value - b.value, a.unit))
  }

  /** Adding then subtracting the same length restores the original. */
  lemma AddSubRoundTrip(a: Length, b: Length)
    requires Canonical(a) && a.unit == b.unit
    ensures Add(a, b).Ok? && Sub(Add(a, b).value, b) == Ok(a)
  {
  }

  /** Scaling by a dimensionless factor never fails. */
  function Mul(a: Length, s: real): (r: Length)
    ensures Canonical(a) ==> r == Length(a.value * s, a.unit)
  {
    MakeLength(a.value * s, a.unit)
  }

  /** Division by a dimensionless factor; dividing by zero (an infinite or
      NaN magnitude in the original) is reported as NonFinite. */
  function Div(a: Length, s: real): (r: Result<Length>)
    ensures r.Ok? <==> s != 0.0
    ensures r.Ok? && Canonical(a) ==> r.value.unit == a.unit && r.value.value * s == a.value
  {
    if s == 0.0 then Err(NonFinite) else Ok(MakeLength(a.value / s, a.unit))
  }

  function Abs(a: Length): (r: Length)
    ensures Canonical(a) ==> r.unit == a.unit && r.value >= 0.0
    ensures Canonical(a) ==> r.value == a.value || r.value == -a.value
  {
    MakeLength(if a.value < 0.0 then -a.value else a.value, a.unit)
  }

  /** The dimensionless ratio of two lengths of one unit. */
  function Ratio(a: Length, b: Length): (r: Result<real>)
    ensures r.Ok? <==> a.unit == b.unit && b.value != 0.0
    ensures a.unit != b.unit ==> r == Err(UnitMismatch(a.unit, b.unit))
    ensures r.Ok? ==> r.value * b.value == a.value
  {
    if a.unit != b.unit then Err(UnitMismatch(a.unit, b.unit))
    else if b.value == 0.0 then Err(NonFinite)
    else Ok(a.value / b.value)
  }

  /** Scaled points per pixel (1 px is 1/96 in). */
  const PxFactor: real := 65536.0 * 72.27 / 96.0

  /** The magnitude in pixels, defined for absolute lengths only (display
      rounding is not modelled). */
  function Px(l: Length): (r: Result<real>)
    ensures r.Ok? <==> l.unit == SP
    ensures r.Err? ==> r.error == RelativeLength
    ensures r.Ok? ==> r.value * PxFactor == l.value
  {
    if l.unit == SP then Ok(l.value / PxFactor) else Err(RelativeLength)
  }

  predicate SameUnit(ls: seq<Length>)
    requires |ls| > 0
  {
    forall i | 0 <= i < |ls| :: ls[i].unit == ls[0].unit
  }

  /** Length.min: a left fold with Cmp over a non-empty argument list. Ties
      go to the later argument; with one unit and one magnitude the two
      candidates are the same value, so the tie rule is invisible here. */
  function MinOf(ls: seq<Length>): (r: Result<Length>)
    requires |ls| > 0
    ensures r.Ok? <==> SameUnit(ls)
    ensures r.Ok? ==> r.value in ls
    ensures r.Ok? ==> forall i | 0 <= i < |ls| :: r.value.value <= ls[i].value
  {
    if |ls| == 1 then Ok(ls[0])
    else
      var init := ls[..|ls| - 1];
      var last := ls[|ls| - 1];
      match MinOf(init)
      case Err(e) =>
        assert !SameUnit(init);
        var i :| 0 <= i < |init| && init[i].unit != init[0].unit;
        assert ls[i].unit != ls[0].unit;
        Err(e)
      case Ok(acc) =>
        match Cmp(acc, last)
        case Err(e) =>
          assert acc.unit == ls[0].unit;
          Err(e)
        case Ok(c) =>
          Ok(if c < 0 then acc else last)
  }

  /** Length.max: the mirror image of MinOf. */
  function MaxOf(ls: seq<Length>): (r: Result<Length>)
    requires |ls| > 0
    ensures r.Ok? <==> SameUnit(ls)
    ensures r.Ok? ==> r.value in ls
    ensures r.Ok? ==> forall i | 0 <= i < |ls| :: r.value.value >= ls[i].value
  {
    if |ls| == 1 then Ok(ls[0])
    else
      var init := ls[..|ls| - 1];
      var last := ls[|ls| - 1];
      match MaxOf(init)
      case Err(e) =>
        assert !SameUnit(init);
        var i :| 0 <= i < |init| && init[i].unit != init[0].unit;
        assert ls[i].unit != ls[0].unit;
        Err(e)
      case Ok(acc) =>
        match Cmp(acc, last)
        case Err(e) =>
          assert acc.unit == ls[0].unit;
          Err(e)
        case Ok(c) =>
          Ok(if c > 0 then acc else last)
  }

  /** Binary forms used by the picture macros. */
  function Min2(a: Length, b: Length): (r: Result<Length>)
    ensures r.Ok? <==> a.unit == b.unit
    ensures r.Ok? ==> r.value.value <= a.value && r.value.value <= b.value
    ensures r.Ok? ==> r.value == a || r.value == b
  {
    var ls := [a, b];
    assert ls[0] == a && ls[1] == b;
    assert SameUnit(ls) <==> a.unit == b.unit;
    MinOf(ls)
  }

  function Max2(a: Length, b: Length): (r: Result<Length>)
    ensures r.Ok? <==> a.unit == b.unit
    ensures r.Ok? ==> r.value.value >= a.value && r.value.value >= b.value
    ensures r.Ok? ==> r.value == a || r.value == b
  {
    var ls := [a, b];
    assert ls[0] == a && ls[1] == b;
    assert SameUnit(ls) <==> a.unit == b.unit;
    MaxOf(ls)
  }

  /** Componentwise vector sum, inheriting Add's unit checks. */
  function VAdd(v: Vector, w: Vector): (r: Result<Vector>)
    ensures r.Ok? <==> v.x.unit == w.x.unit && v.y.unit == w.y.unit
    ensures r.Ok? ==> Add(v.x, w.x) == Ok(r.value.x) && Add(v.y, w.y) == Ok(r.value.y)
  {
    var x :- Add(v.x, w.x);
    var y :- Add(v.y, w.y);
    Ok(Vector(x, y))
  }

  function VSub(v: Vector, w: Vector): (r: Result<Vector>)
    ensures r.Ok? <==> v.x.unit == w.x.unit && v.y.unit == w.y.unit
    ensures r.Ok? ==> Sub(v.x, w.x) == Ok(r.value.x) && Sub(v.y, w.y) == Ok(r.value.y)
  {
    var x :- Sub(v.x, w.x);
    var y :- Sub(v.y, w.y);
    Ok(Vector(x, y))
  }

  function VMul(v: Vector, s: real): (r: Vector)
    ensures Canonical(v.x) && Canonical(v.y) ==>
              r == Vector(Length(v.x.value * s, v.x.unit), Length(v.y.value * s, v.y.unit))
  {
    Vector(Mul(v.x, s), Mul(v.y, s))
  }

  /** Vector addition is undone by subtraction. */
  lemma VAddSubRoundTrip(v: Vector, w: Vector)
    requires Canonical(v.x) && Canonical(v.y)
    requires v.x.unit == w.x.unit && v.y.unit == w.y.unit
    ensures VAdd(v, w).Ok? && VSub(VAdd(v, w).value, w) == Ok(v)
  {
    AddSubRoundTrip(v.x, w.x);
    AddSubRoundTrip(v.y, w.y);
  }
}

=== FILE: macros.dfy ===
/** The macro bodies of the base macro package whose logic is more than
    building output: font attributes and their groups, list environments
    and their depth counters, the enumerate label formats, box positions,
    line thickness, and the counter and length macros. Output elements are
    modelled as fragments (`seq<string>`) or class strings. */
module Macros {
  import opened Wrappers
  import opened Lengths
  import opened Numerals
  import Counters
  import opened Scopes
  import Sc = Scopes
  import opened Registry
  import opened Generator

  /* ---------------------------------------------------------------- */
  /* Groups and font attributes                                        */
  /* ---------------------------------------------------------------- */

  function Enter(st: State): (r: State)
    requires |st.scopes.frames| > 0
    ensures r == st.(scopes := Sc.EnterGroup(st.scopes, false))
  {
    st.(scopes := Sc.EnterGroup(st.scopes, false))
  }

  function Exit(st: State): (r: Result<State>)
    ensures r.Ok? <==> Sc.ExitGroup(st.scopes).Ok?
    ensures r.Ok? ==> r.value == st.(scopes := Sc.ExitGroup(st.scopes).value)
  {
    var s :- Sc.ExitGroup(st.scopes);
    Ok(st.(scopes := s))
  }

  /** The attribute a text-font macro sets, and its value. */
  datatype FontSetting = FontSetting(attr: Attr, value: string)

  /** The `\text..` macros and `\emph`. */
  function TextFont(name: string): (r: Option<FontSetting>)
    ensures r.Some? ==> r.value.attr in {FontFamily, FontWeight, FontShape}
  {
    match name
    case "textrm" => Some(FontSetting(FontFamily, "rm"))
    case "textsf" => Some(FontSetting(FontFamily, "sf"))
    case "texttt" => Some(FontSetting(FontFamily, "tt"))
    case "textmd" => Some(FontSetting(FontWeight, "md"))
    case "textbf" => Some(FontSetting(FontWeight, "bf"))
    case "textup" => Some(FontSetting(FontShape, "up"))
    case "textit" => Some(FontSetting(FontShape, "it"))
    case "textsl" => Some(FontSetting(FontShape, "sl"))
    case "textsc" => Some(FontSetting(FontShape, "sc"))
    case "emph" => Some(FontSetting(FontShape, "em"))
    case _ => None
  }

  /** Write one font attribute of the innermost frame; a shape goes through
      `setFontShape`, so "em" toggles. */
  function SetFont(s: Scopes, f: FontSetting): (r: Scopes)
    requires |s.frames| > 0
    ensures |r.frames| == |s.frames| && r.groups == s.groups
    ensures r.frames[..|s.frames| - 1] == s.frames[..|s.frames| - 1]
    ensures f.attr != FontShape || f.value != "em" ==> GetAttr(Top(r).attrs, f.attr) == Some(f.value)
    ensures forall j | j != f.attr :: GetAttr(Top(r).attrs, j) == GetAttr(Top(s).attrs, j)
    ensures Top(r).lengths == Top(s).lengths && Top(r).currentLabel == Top(s).currentLabel
  {
    if f.attr == FontShape then
      var actual := if f.value == "em" then (if ActiveAttribute(s.frames, FontShape) == Some("it") then "up" else "it") else f.value;
      assert SetFontShape(s, f.value) == SetAttr(s, FontShape, actual);
      SetFontShape(s, f.value)
    else SetAttr(s, f.attr, f.value)
  }

  /** `createFontAttribute`: the parser calls a text-font macro twice.
      Without its argument the call opens a group and sets the attribute;
      with the argument it closes that group and returns the argument. */
  function FontAttribute(st: State, arg: Option<seq<string>>, f: FontSetting): (r: Result<(State, seq<string>)>)
    requires |st.scopes.frames| > 0
    ensures arg.None? ==> r.Ok? && r.value.1 == []
    ensures arg.None? ==>
              && |r.value.0.scopes.frames| == |st.scopes.frames| + 1
              && r.value.0.scopes.frames[..|st.scopes.frames|] == st.scopes.frames
              && (f.attr != FontShape || f.value != "em" ==> GetAttr(Top(r.value.0.scopes).attrs, f.attr) == Some(f.value))
    ensures arg.Some? ==> (r.Ok? <==> Sc.ExitGroup(st.scopes).Ok?)
    ensures arg.Some? && r.Ok? ==> r.value == (st.(scopes := Sc.ExitGroup(st.scopes).value), arg.value)
  {
    match arg
    case None =>
      var e := Enter(st);
      Ok((e.(scopes := SetFont(e.scopes, f)), []))
    case Some(a) =>
      var st1 :- Exit(st);
      Ok((st1, a))
  }

  /** The two calls of a text-font macro leave the scopes exactly as they
      were: the attribute lived in the group's own frame, and the balance
      counter is back where it started. */
  lemma FontAttributePair(st: State, f: FontSetting, a: seq<string>)
    requires |st.scopes.frames| > 0 && |st.scopes.groups| > 0 && st.scopes.groups[|st.scopes.groups| - 1] >= 0
    ensures var (st1, _) := FontAttribute(st, None, f).value;
            FontAttribute(st1, Some(a), f) == Ok((st, a))
  {
    var e := Enter(st);
    Sc.EnterExitRoundTrip(st.scopes, false, Top(SetFont(e.scopes, f)));
    assert SetFont(e.scopes, f) == WithTop(e.scopes, Top(SetFont(e.scopes, f)));
  }

  /** `textnormal`: like a text-font macro, with family rm, weight md and
      shape up all set in the opened group. */
  function TextNormal(st: State, arg: Option<seq<string>>): (r: Result<(State, seq<string>)>)
    requires |st.scopes.frames| > 0
    ensures arg.None? ==> r.Ok? && |r.value.0.scopes.frames| == |st.scopes.frames| + 1
    ensures arg.None? ==>
              var a := Top(r.value.0.scopes).attrs;
              a.fontFamily == Some("rm") && a.fontWeight == Some("md") && a.fontShape == Some("up")
    ensures arg.Some? ==> (r.Ok? <==> Sc.ExitGroup(st.scopes).Ok?)
  {
    match arg
    case None =>
      var e := Enter(st);
      var s := SetFont(SetFont(SetFont(e.scopes, FontSetting(FontFamily, "rm")), FontSetting(FontWeight, "md")), FontSetting(FontShape, "up"));
      Ok((e.(scopes := s), []))
    case Some(a) =>
      var st1 :- Exit(st);
      Ok((st1, a))
  }

  /** The declaration forms (`\bfseries`, `\small`, `\centering`, ...)
      that set one attribute of the innermost frame without a group. */
  function Declaration(name: string): (r: Option<FontSetting>)
    ensures r.Some? && r.value.attr == FontFamily ==> name == r.value.value + "family"
    ensures r.Some? && r.value.attr == FontWeight ==> name == r.value.value + "series"
    ensures r.Some? && r.value.attr == FontShape ==> name == r.value.value + "shape" || name == r.value.value == "em"
    ensures r.Some? && r.value.attr == FontSize ==> name == r.value.value
    ensures r.Some? ==> r.value.attr != TextDecoration
  {
    match name
    case "rmfamily" => Some(FontSetting(FontFamily, "rm"))
    case "sffamily" => Some(FontSetting(FontFamily, "sf"))
    case "ttfamily" => Some(FontSetting(FontFamily, "tt"))
    case "mdseries" => Some(FontSetting(FontWeight, "md"))
    case "bfseries" => Some(FontSetting(FontWeight, "bf"))
    case "upshape" => Some(FontSetting(FontShape, "up"))
    case "itshape" => Some(FontSetting(FontShape, "it"))
    case "slshape" => Some(FontSetting(FontShape, "sl"))
    case "scshape" => Some(FontSetting(FontShape, "sc"))
    case "em" => Some(FontSetting(FontShape, "em"))
    case "tiny" => Some(FontSetting(FontSize, "tiny"))
    case "scriptsize" => Some(FontSetting(FontSize, "scriptsize"))
    case "footnotesize" => Some(FontSetting(FontSize, "footnotesize"))
    case "small" => Some(FontSetting(FontSize, "small"))
    case "normalsize" => Some(FontSetting(FontSize, "normalsize"))
    case "large" => Some(FontSetting(FontSize, "large"))
    case "Large" => Some(FontSetting(FontSize, "Large"))
    case "LARGE" => Some(FontSetting(FontSize, "LARGE"))
    case "huge" => Some(FontSetting(FontSize, "huge"))
    case "Huge" => Some(FontSetting(FontSize, "Huge"))
    case _ => None
  }

  /** A declaration takes effect in the innermost frame, so it is undone
      by leaving the group it was made in. */
  lemma DeclarationScoped(st: State, name: string)
    requires Declaration(name).Some?
    requires |st.scopes.frames| > 0 && |st.scopes.groups| > 0 && st.scopes.groups[|st.scopes.groups| - 1] >= 0
    ensures var e := Enter(st);
            Exit(e.(scopes := SetFont(e.scopes, Declaration(name).value))) == Ok(st)
  {
    var e := Enter(st);
    var s := SetFont(e.scopes, Declaration(name).value);
    Sc.EnterExitRoundTrip(st.scopes, false, Top(s));
    assert s == WithTop(e.scopes, Top(s));
  }

  /** `centering`, `raggedright` and `raggedleft` set the innermost
      frame's alignment to their own name; other macros are not alignment
      declarations. */
  function Alignment(st: State, name: string): (r: Option<State>)
    requires |st.scopes.frames| > 0
    ensures r.Some? <==> name in {"centering", "raggedright", "raggedleft"}
    ensures r.Some? ==> |r.value.scopes.frames| == |st.scopes.frames| && Top(r.value.scopes).align == Some(name)
    ensures r.Some? ==> Top(r.value.scopes) == Top(st.scopes).(align := Some(name))
    ensures r.Some? ==> r.value == st.(scopes := r.value.scopes) && r.value.scopes.groups == st.scopes.groups
  {
    if name in {"centering", "raggedright", "raggedleft"} then Some(st.(scopes := SetAlignment(st.scopes, Some(name))))
    else None
  }

  /** An alignment made inside a group ends with the group. */
  lemma AlignmentScoped(st: State, name: string)
    requires name in {"centering", "raggedright", "raggedleft"}
    requires |st.scopes.frames| > 0 && |st.scopes.groups| > 0 && st.scopes.groups[|st.scopes.groups| - 1] >= 0
    ensures Exit(Alignment(Enter(st), name).value) == Ok(st)
  {
    var e := Enter(st);
    var a := Alignment(e, name).value;
    Sc.EnterExitRoundTrip(st.scopes, false, Top(a.scopes));
    assert a.scopes == WithTop(e.scopes, Top(a.scopes));
  }

  /* ---------------------------------------------------------------- */
  /* Lists                                                             */
  /* ---------------------------------------------------------------- */

  /** The opening call of `itemize` (kind "@itemdepth") or `enumerate`
      (kind "@enumdepth"): one list level deeper, then one level of that
      kind deeper; more than four levels of a kind is an error. */
  function OpenList(st: State, depth: string): (r: Result<State>)
    ensures r.Ok? ==> StartList(st).Ok?
    ensures r.Ok? ==>
              var s1 := StartList(st).value;
              && depth in s1.counters.values
              && Counters.Step(s1.counters, depth).Ok?
              && r.value == s1.(counters := Counters.Step(s1.counters, depth).value)
              && r.value.counters.values[depth] == s1.counters.values[depth] + 1 <= 4
    ensures StartList(st).Err? ==> r == StartList(st)
  {
    var s1 :- StartList(st);
    match StepCounter(s1, depth)
    case Err(e) => Err(e)
    case Ok(s2) => if s2.counters.values[depth] > 4 then Err(TooDeeplyNested) else Ok(s2)
  }

  /** `itemize` opens one list level and one itemize level: it fails
      whenever the list nesting fails, and never leaves more than four
      itemize levels open. */
  function Itemize(st: State): (r: Result<State>)
    ensures StartList(st).Err? ==> r.Err?
    ensures r.Ok? ==> "@listdepth" in st.counters.values && "@itemdepth" in r.value.counters.values
    ensures r.Ok? ==> r.value.counters.values["@itemdepth"] <= 4
  {
    OpenList(st, "@itemdepth")
  }

  /** `enumerate` likewise, on the enumerate depth. */
  function Enumerate(st: State): (r: Result<State>)
    ensures StartList(st).Err? ==> r.Err?
    ensures r.Ok? ==> "@listdepth" in st.counters.values && "@enumdepth" in r.value.counters.values
    ensures r.Ok? ==> r.value.counters.values["@enumdepth"] <= 4
  {
    OpenList(st, "@enumdepth")
  }

  /** `enditemize`/`endenumerate`: close the list level, then one level of
      the kind up. */
  function CloseList(st: State, depth: string): (r: Result<State>)
    ensures r.Ok? <==> "@listdepth" in st.counters.values && depth in st.counters.values
    ensures r.Ok? ==>
              var s1 := EndList(st).value;
              r.value == s1.(counters := s1.counters.(values := s1.counters.values[depth := s1.counters.values[depth] - 1]))
  {
    var s1 :- EndList(st);
    var d :- Counter(s1, depth);
    SetCounter(s1, depth, d - 1)
  }

  /** With no counters hanging off the two depth counters, closing a list
      undoes opening it. */
  lemma OpenCloseList(st: State, depth: string)
    requires OpenList(st, depth).Ok?
    requires "@listdepth" in st.counters.resets && st.counters.resets["@listdepth"] == []
    requires depth in st.counters.resets && st.counters.resets[depth] == []
    requires depth != "@listdepth"
    ensures CloseList(OpenList(st, depth).value, depth) == Ok(st)
  {
    Counters.ReachesNothingAll(st.counters);
    var s1 := StartList(st).value;
    var s2 := OpenList(st, depth).value;
    assert s1.counters.resets == st.counters.resets;
    Counters.ReachesNothingAll(s1.counters);
    var v := st.counters.values;
    assert s1.counters.values == v["@listdepth" := v["@listdepth"] + 1];
    assert s2.counters.values == v["@listdepth" := v["@listdepth"] + 1][depth := v[depth] + 1];
    var e := EndList(s2).value;
    assert e.counters.values == v[depth := v[depth] + 1];
    assert e.counters.values[depth := v[depth]] == v;
  }

  /** The list body of `enumerate`: the item counter of the current depth,
      `enum` followed by the depth in lower-case roman, restarts at 0. At
      depth 0 that names the counter "enum", which does not exist. */
  function EnumerateItems(st: State): (r: Result<(State, string)>)
    ensures "@enumdepth" !in st.counters.values ==> r.Err?
    ensures r.Ok? ==>
              && r.value.1 == "enum" + LowerRomanOf(st.counters.values["@enumdepth"])
              && r.value.1 in st.counters.values
              && r.value.0 == st.(counters := st.counters.(values := st.counters.values[r.value.1 := 0]))
  {
    var d :- Counter(st, "@enumdepth");
    var c := "enum" + LowerRomanOf(d);
    var st1 :- SetCounter(st, c, 0);
    Ok((st1, c))
  }

  /** At the depths an open enumerate allows, the item counter is one of
      the four enumerate counters. */
  lemma EnumerateItemCounter(d: int)
    requires 1 <= d <= 4
    ensures "enum" + LowerRomanOf(d) == EnumCounters[d - 1]
  {
    if d == 1 {
      assert "enum" + "i" == "enumi";
    } else if d == 2 {
      assert "enum" + "ii" == "enumii";
    } else if d == 3 {
      assert "enum" + "iii" == "enumiii";
    } else {
      assert "enum" + "iv" == "enumiv";
    }
  }

  /** The name of the item-label macro for the current itemize depth. */
  function ItemLabelMacro(st: State): (r: Result<string>)
    ensures r.Ok? <==> "@itemdepth" in st.counters.values
    ensures r.Ok? ==> r.value == "labelitem" + LowerRomanOf(st.counters.values["@itemdepth"])
  {
    var d :- Counter(st, "@itemdepth");
    Ok("labelitem" + LowerRomanOf(d))
  }

  /** `labelenumi` .. `labelenumiv`: the counter's `the` form with a
      trailing ".", except the second level, which is parenthesised. */
  function LabelEnum(st: State, level: nat): (r: Result<seq<string>>)
    requires 1 <= level <= 4
    ensures r.Ok? <==> The(st, EnumCounters[level - 1]).Ok?
    ensures r.Ok? && level == 2 ==> r.value == ["("] + The(st, "enumii").value + [")"]
    ensures r.Ok? && level != 2 ==> r.value == The(st, EnumCounters[level - 1]).value + ["."]
  {
    var t :- The(st, EnumCounters[level - 1]);
    if level == 2 then Ok(["("] + t + [")"]) else Ok(t + ["."])
  }

  /** The enumerate formats as the base macros define them, for any values
      of the four counters, while no run-time definition overrides them. */
  lemma EnumFormats(st: State)
    requires "enumi" in st.counters.values && "enumii" in st.counters.values
    requires "enumiii" in st.counters.values && "enumiv" in st.counters.values
    requires forall n | n in ["theenumi", "theenumii", "theenumiii", "theenumiv"] ::
               HasMacro(st.registry, n) && HandlerOf(st.registry, n) == Defined
    ensures var v := st.counters.values;
            && The(st, "enumi") == Ok([Arabic(v["enumi"])])
            && The(st, "enumii") == Ok([Alph(v["enumii"])])
            && The(st, "enumiii") == Ok([LowerRomanOf(v["enumiii"])])
            && The(st, "enumiv") == Ok([UpperAlph(v["enumiv"])])
  {
    assert "the" + "enumi" == "theenumi" && "the" + "enumii" == "theenumii";
    assert "the" + "enumiii" == "theenumiii" && "the" + "enumiv" == "theenumiv";
  }

  /** The label prefixes of the nested enumerate levels: each level's label
      is preceded by the full labels of the levels around it. */
  lemma EnumPrefixes(st: State)
    requires "enumi" in st.counters.values && "enumii" in st.counters.values
    requires "enumiii" in st.counters.values && "enumiv" in st.counters.values
    requires forall n | n in ["theenumi", "theenumii", "theenumiii", "theenumiv", "p@enumii", "p@enumiii", "p@enumiv"] ::
               HasMacro(st.registry, n) && HandlerOf(st.registry, n) == Defined
    ensures var v := st.counters.values;
            && PrefixOf(st, "enumii") == Ok([Arabic(v["enumi"])])
            && PrefixOf(st, "enumiii") == Ok([Arabic(v["enumi"])] + ["("] + [Alph(v["enumii"])] + [")"])
            && PrefixOf(st, "enumiv") == Ok([Arabic(v["enumi"])] + ["("] + [Alph(v["enumii"])] + [")"] + [LowerRomanOf(v["enumiii"])])
  {
    EnumFormats(st);
    var v := st.counters.values;
    var a, b := [Arabic(v["enumi"])], [Alph(v["enumii"])];
    assert PrefixOf(st, "enumii") == Ok(a) by {
      assert "p@" + "enumii" == "p@enumii";
    }
    assert PEnumiii(st) == Ok(a + ["("] + b + [")"]);
    assert PrefixOf(st, "enumiii") == Ok(a + ["("] + b + [")"]) by {
      assert "p@" + "enumiii" == "p@enumiii";
    }
    assert PrefixOf(st, "enumiv") == Ok(a + ["("] + b + [")"] + [LowerRomanOf(v["enumiii"])]) by {
      assert "p@" + "enumiv" == "p@enumiv";
    }
  }

  /* ---------------------------------------------------------------- */
  /* Boxes                                                             */
  /* ---------------------------------------------------------------- */

  /** An empty optional argument is absent. */
  function OrDefault(o: Option<string>, d: string): (r: string)
    ensures o.Some? && o.value != "" ==> r == o.value
    ensures o.None? || o.value == "" ==> r == d
  {
    if o.Some? && o.value != "" then o.value else d
  }

  /** The class `_box` adds for a horizontal position. */
  function BoxPosClass(pos: string): (r: Option<string>)
    ensures r.Some? <==> pos in {"s", "c", "l", "r"}
  {
    match pos
    case "s" => Some(" stretch")
    case "c" => Some(" clap")
    case "l" => Some(" rlap")
    case "r" => Some(" llap")
    case _ => None
  }

  /** `_box`: without a width the position is ignored; with one, a missing
      position means centred, and the position picks the class appended to
      `classes`. Any other position is an error. */
  function BoxClasses(width: Option<Length>, pos: Option<string>, classes: string): (r: Result<string>)
    ensures width.None? ==> r == Ok(classes)
    ensures width.Some? ==> (r.Ok? <==> OrDefault(pos, "c") in {"s", "c", "l", "r"})
    ensures width.Some? && r.Err? ==> r.error == UnknownPosition(OrDefault(pos, "c"))
    ensures r.Ok? ==> |r.value| >= |classes| && r.value[..|classes|] == classes
  {
    if width.None? then Ok(classes)
    else
      var p := OrDefault(pos, "c");
      match BoxPosClass(p)
      case None => Err(UnknownPosition(p))
      case Some(c) => Ok(classes + c)
  }

  /** The box classes tell the position apart: two boxes with a width get
      the same classes only for the same (defaulted) position. */
  lemma BoxClassesInjective(w: Length, p1: Option<string>, p2: Option<string>, classes: string)
    requires BoxClasses(Some(w), p1, classes).Ok? && BoxClasses(Some(w), p2, classes).Ok?
    requires BoxClasses(Some(w), p1, classes) == BoxClasses(Some(w), p2, classes)
    ensures OrDefault(p1, "c") == OrDefault(p2, "c")
  {
    var a := OrDefault(p1, "c");
    var b := OrDefault(p2, "c");
    var ca := BoxPosClass(a).value;
    var cb := BoxPosClass(b).value;
    assert classes + ca == classes + cb;
    assert ca == (classes + ca)[|classes|..];
    assert cb == (classes + cb)[|classes|..];
  }

  /** `makebox`/`mbox` (classes "hbox") and `framebox` (classes
      "hbox frame"). The picture form `(w,h)` takes at most one optional
      argument and returns the text unboxed (None). */
  function MakeBox(vec: bool, width: Option<Length>, pos: Option<string>, classes: string): (r: Result<Option<string>>)
    ensures vec ==> (r.Ok? <==> !(width.Some? && pos.Some? && pos.value != ""))
    ensures vec && r.Ok? ==> r.value.None?
    ensures !vec ==> (r.Ok? <==> BoxClasses(width, pos, classes).Ok?)
    ensures !vec && r.Ok? ==> r.value == Some(BoxClasses(width, pos, classes).value)
  {
    if vec then
      if width.Some? && pos.Some? && pos.value != "" then Err(TwoOptionalArguments) else Ok(None)
    else
      var c :- BoxClasses(width, pos, classes);
      Ok(Some(c))
  }

  /** The class `parbox` adds for the outer position. */
  function ParPosClass(pos: string): (r: Option<string>)
    ensures r.Some? <==> pos in {"c", "t", "b"}
  {
    match pos
    case "c" => Some(" p-c")
    case "t" => Some(" p-t")
    case "b" => Some(" p-b")
    case _ => None
  }

  /** The class `parbox` adds for the inner position. */
  function ParInnerClass(pos: string): (r: Option<string>)
    ensures r.Some? <==> pos in {"s", "c", "t", "b"}
  {
    match pos
    case "s" => Some(" stretch")
    case "c" => Some(" p-cc")
    case "t" => Some(" p-ct")
    case "b" => Some(" p-cb")
    case _ => None
  }

  /** `parbox`: the position defaults to centred and the inner position to
      the position; "pbh" marks an explicit height. An unknown position is
      reported before an unknown inner position. */
  function ParboxClasses(pos: Option<string>, height: Option<Length>, innerPos: Option<string>): (r: Result<string>)
    ensures var p := OrDefault(pos, "c");
            var ip := OrDefault(innerPos, p);
            && (r.Ok? <==> p in {"c", "t", "b"} && ip in {"s", "c", "t", "b"})
            && (p !in {"c", "t", "b"} ==> r == Err(UnknownPosition(p)))
            && (p in {"c", "t", "b"} && ip !in {"s", "c", "t", "b"} ==> r == Err(UnknownInnerPosition(ip)))
    ensures r.Ok? ==> |r.value| >= 6 && r.value[..6] == "parbox"
    ensures r.Ok? ==> (height.Some? <==> |r.value| >= 10 && r.value[6..10] == " pbh")
  {
    var p := OrDefault(pos, "c");
    var ip := OrDefault(innerPos, p);
    var head := if height.Some? then "parbox pbh" else "parbox";
    match ParPosClass(p)
    case None => Err(UnknownPosition(p))
    case Some(pc) =>
      match ParInnerClass(ip)
      case None => Err(UnknownInnerPosition(ip))
      case Some(ic) => Ok(head + pc + ic)
  }

  /** With every argument left out a parbox is centred inside and out. */
  lemma ParboxDefaults(height: Option<Length>)
    ensures ParboxClasses(None, height, None) == Ok(if height.Some? then "parbox pbh p-c p-cc" else "parbox p-c p-cc")
  {
    assert "parbox pbh" + " p-c" + " p-cc" == "parbox pbh p-c p-cc";
    assert "parbox" + " p-c" + " p-cc" == "parbox p-c p-cc";
  }

  /** The inner position follows the outer one when left out. */
  lemma ParboxInnerFollowsOuter(pos: string, height: Option<Length>)
    requires pos in {"c", "t", "b"}
    ensures ParboxClasses(Some(pos), height, None) == ParboxClasses(Some(pos), height, Some(pos))
  {
  }

  /* ---------------------------------------------------------------- */
  /* Picture line settings                                             */
  /* ---------------------------------------------------------------- */

  /** `thinlines` and `thicklines` set the picture line width to 0.4pt
      and 0.8pt. */
  function Thinlines(st: State): (r: Result<State>)
    requires |st.scopes.frames| > 0
    ensures r.Ok? <==> "@wholewidth" in Top(st.scopes).lengths
    ensures r.Ok? ==> |r.value.scopes.frames| == |st.scopes.frames| && Generator.GetLength(r.value, "@wholewidth") == Ok(MakeLength(0.4, "pt"))
  {
    Generator.SetLength(st, "@wholewidth", MakeLength(0.4, "pt"))
  }

  function Thicklines(st: State): (r: Result<State>)
    requires |st.scopes.frames| > 0
    ensures r.Ok? <==> "@wholewidth" in Top(st.scopes).lengths
    ensures r.Ok? ==> |r.value.scopes.frames| == |st.scopes.frames| && Generator.GetLength(r.value, "@wholewidth") == Ok(MakeLength(0.8, "pt"))
  {
    Generator.SetLength(st, "@wholewidth", MakeLength(0.8, "pt"))
  }

  /** `linethickness`: only an absolute length is accepted. */
  function Linethickness(st: State, l: Length): (r: Result<State>)
    requires |st.scopes.frames| > 0
    ensures l.unit != SP ==> r == Err(RelativeLineThickness)
    ensures l.unit == SP ==> (r.Ok? <==> "@wholewidth" in Top(st.scopes).lengths)
    ensures r.Ok? ==> |r.value.scopes.frames| == |st.scopes.frames| && Generator.GetLength(r.value, "@wholewidth") == Ok(l)
  {
    if l.unit != SP then Err(RelativeLineThickness)
    else Generator.SetLength(st, "@wholewidth", l)
  }

  /** `arrowlength` writes the register "@arrowlength". */
  function Arrowlength(st: State, l: Length): (r: Result<State>)
    requires |st.scopes.frames| > 0
    ensures r.Ok? <==> "@arrowlength" in Top(st.scopes).lengths
    ensures r.Ok? ==> |r.value.scopes.frames| == |st.scopes.frames| && Generator.GetLength(r.value, "@arrowlength") == Ok(l)
  {
    Generator.SetLength(st, "@arrowlength", l)
  }

  /* ---------------------------------------------------------------- */
  /* Counter and length macros                                         */
  /* ---------------------------------------------------------------- */

  /** `addtolength`: read, add with the unit check, write back. */
  function Addtolength(st: State, id: string, l: Length): (r: Result<State>)
    requires |st.scopes.frames| > 0
    ensures id !in Top(st.scopes).lengths ==> r == Err(NoSuchLength(id))
    ensures id in Top(st.scopes).lengths ==> (r.Ok? <==> Top(st.scopes).lengths[id].unit == l.unit)
    ensures r.Ok? ==> |r.value.scopes.frames| == |st.scopes.frames| && Generator.GetLength(r.value, id) == Add(Top(st.scopes).lengths[id], l)
    ensures r.Ok? ==> r.value == st.(scopes := r.value.scopes) && |r.value.scopes.frames| == |st.scopes.frames|
  {
    var cur :- Generator.GetLength(st, id);
    var sum :- Add(cur, l);
    Generator.SetLength(st, id, sum)
  }

  /** Adding a length and then its negation restores a register that holds
      an absolute length. */
  lemma AddtolengthRoundTrip(st: State, id: string, l: Length)
    requires |st.scopes.frames| > 0
    requires id in Top(st.scopes).lengths && Top(st.scopes).lengths[id].unit == SP && l.unit == SP
    ensures var once := Addtolength(st, id, l);
            once.Ok? &&
            var twice := Addtolength(once.value, id, Length(-l.value, SP));
            twice.Ok? && Generator.GetLength(twice.value, id) == Generator.GetLength(st, id)
  {
  }

  /** `addtocounter`. */
  function Addtocounter(st: State, c: string, n: int): (r: Result<State>)
    ensures r.Ok? <==> c in st.counters.values
    ensures r.Ok? ==> r.value.counters.values == st.counters.values[c := st.counters.values[c] + n]
    ensures r.Ok? ==> r.value == st.(counters := r.value.counters) && r.value.counters.resets == st.counters.resets
  {
    var v :- Counter(st, c);
    SetCounter(st, c, v + n)
  }

  lemma AddtocounterRoundTrip(st: State, c: string, n: int)
    requires c in st.counters.values
    ensures Addtocounter(st, c, n).Ok? && Addtocounter(Addtocounter(st, c, n).value, c, -n) == Ok(st)
  {
    var v := st.counters.values;
    assert v[c := v[c] + n][c := v[c] + n - n] == v;
  }

  /** `refstepcounter`: step, then make the counter the current label with
      a fresh anchor. */
  function Refstepcounter(st: State, c: string): (r: Result<(State, Option<string>)>)
    requires |st.scopes.frames| > 0
    ensures c !in st.counters.values ==> r.Err?
    ensures r.Ok? ==> StepCounter(st, c).Ok? && r.value.0.counters == StepCounter(st, c).value.counters
    ensures r.Ok? ==> r.value.1 == Some(c + "-" + Arabic(st.uid)) && r.value.0.uid == st.uid + 1
    ensures r.Ok? ==>
              && |r.value.0.scopes.frames| == |st.scopes.frames|
              && Top(r.value.0.scopes).currentLabel.id == c + "-" + Arabic(st.uid)
    ensures r.Ok? ==>
              var stepped := StepCounter(st, c).value;
              && PrefixOf(stepped, c).Ok? && The(stepped, c).Ok?
              && |r.value.0.scopes.frames| == |st.scopes.frames|
              && Top(r.value.0.scopes).currentLabel.text == PrefixOf(stepped, c).value + The(stepped, c).value
  {
    match StepCounter(st, c)
    case Err(e) => Err(e)
    case Ok(st1) => RefCounter(st1, c, None)
  }

  /** The numeral macros `\alph{c}` .. `\fnsymbol{c}`. */
  datatype NumeralStyle = LowerAlpha | UpperAlpha | ArabicStyle | LowerRoman | UpperRoman | FootnoteSymbol

  function NumeralMacro(st: State, c: string, style: NumeralStyle): (r: Result<seq<string>>)
    ensures c !in st.counters.values ==> r == Err(NoSuchCounter(c))
    ensures r.Ok? && style != FootnoteSymbol ==> |r.value| == 1
    ensures r.Ok? && style == ArabicStyle ==> ParseArabic(r.value[0]) == st.counters.values[c]
    ensures r.Ok? && style == LowerRoman ==> r.value[0] == RomanReference(st.counters.values[c])
    ensures r.Ok? && style == UpperRoman ==> r.value[0] == Upper(LowerRomanOf(st.counters.values[c]))
    ensures r.Ok? && style == LowerAlpha ==>
              && |r.value[0]| == 1
              && (1 <= st.counters.values[c] <= 26 ==>
                    'a' <= r.value[0][0] <= 'z' && LetterIndex(r.value[0][0]) == st.counters.values[c])
    ensures r.Ok? && style == UpperAlpha ==>
              && |r.value[0]| == 1
              && (1 <= st.counters.values[c] <= 26 ==>
                    'A' <= r.value[0][0] <= 'Z' && LetterIndex(r.value[0][0]) == st.counters.values[c])
    ensures style == FootnoteSymbol && c in st.counters.values ==>
              (r.Ok? <==> 1 <= st.counters.values[c] <= 9)
  {
    var v :- Counter(st, c);
    match style
    case LowerAlpha => Ok([Alph(v)])
    case UpperAlpha => Ok([UpperAlph(v)])
    case ArabicStyle => Ok([Arabic(v)])
    case LowerRoman => Ok([LowerRomanOf(v)])
    case UpperRoman => Ok([Roman(v)])
    case FootnoteSymbol => Fnsymbol(v)
  }
}

=== FILE: numerals.dfy ===
/** The generator's numeral formatters: arabic, roman/Roman (greedy walk over
    13 symbol/value pairs), alph/Alph (character-code offset) and fnsymbol. */
module Numerals {
  import opened Wrappers

  type Lookup = seq<(string, int)>

  const LowerRoman: Lookup :=
    [("m", 1000), ("cm", 900), ("d", 500), ("cd", 400), ("c", 100), ("xc", 90),
     ("l", 50), ("xl", 40), ("x", 10), ("ix", 9), ("v", 5), ("iv", 4), ("i", 1)]

  const UpperRoman: Lookup :=
    [("M", 1000), ("CM", 900), ("D", 500), ("CD", 400), ("C", 100), ("XC", 90),
     ("L", 50), ("XL", 40), ("X", 10), ("IX", 9), ("V", 5), ("IV", 4), ("I", 1)]

  predicate PositiveValues(lookup: Lookup) {
    forall i | 0 <= i < |lookup| :: lookup[i].1 > 0
  }

  /** `_roman`: from entry `i` on, append an entry's symbol and subtract its
      value while the remaining number is at least that value, then move on
      to the next entry. */
  function RomanFrom(num: int, lookup: Lookup, i: nat): string
    requires PositiveValues(lookup)
    decreases |lookup| - i, num
  {
    if i >= |lookup| then ""
    else if num >= lookup[i].1 then lookup[i].0 + RomanFrom(num - lookup[i].1, lookup, i)
    else RomanFrom(num, lookup, i + 1)
  }

  /** `Roman`: the greedy walk over the upper-case table, which spells
      every number as `roman` does, in upper case. */
  function Roman(num: int): (r: string)
    ensures r == Upper(LowerRomanOf(num))
  {
    UpperTable();
    RomanFromUpper(num, LowerRoman, UpperRoman, 0);
    RomanFrom(num, UpperRoman, 0)
  }

  /** `roman`: the greedy walk over the lower-case table, which spells
      every number exactly as the digit-by-digit reference does, so it is
      the standard Roman numeral of n (and empty below 1). */
  function LowerRomanOf(num: int): (r: string)
    ensures r == RomanReference(num)
  {
    LowerRomanReference(num);
    RomanFrom(num, LowerRoman, 0)
  }

  function Repeat(s: string, n: nat): string {
    if n == 0 then "" else s + Repeat(s, n - 1)
  }

  /** The textbook definition of a Roman numeral, digit by digit: thousands
      as repeated "m", then the hundreds, tens and units digit from fixed
      spelling tables; nothing for numbers below 1. */
  function RomanReference(num: int): string {
    if num <= 0 then ""
    else
      var hundreds := ["", "c", "cc", "ccc", "cd", "d", "dc", "dcc", "dccc", "cm"];
      var tens := ["", "x", "xx", "xxx", "xl", "l", "lx", "lxx", "lxxx", "xc"];
      var units := ["", "i", "ii", "iii", "iv", "v", "vi", "vii", "viii", "ix"];
      Repeat("m", num / 1000) + hundreds[(num % 1000) / 100] + tens[(num % 100) / 10] + units[num % 10]
  }

  /** How one decade is spelled from its nine/five/four/one symbols. */
  function DigitSpelling(d: nat, nine: string, five: string, four: string, one: string): string
    requires d <= 9
  {
    if d == 9 then nine
    else if d >= 5 then five + Repeat(one, d - 5)
    else if d == 4 then four
    else Repeat(one, d)
  }

  /** Below the next entry's value, an entry contributes nothing. */
  lemma {:induction false} SkipEntries(num: int, lookup: Lookup, i: nat, j: nat)
    requires PositiveValues(lookup)
    requires i <= j <= |lookup|
    requires forall k | i <= k < j :: num < lookup[k].1
    ensures RomanFrom(num, lookup, i) == RomanFrom(num, lookup, j)
    decreases j - i
  {
    if i < j {
      SkipEntries(num, lookup, i + 1, j);
    }
  }

  /** An entry of value x consumes k copies of its symbol from k*x + rest. */
  lemma {:induction false} Ones(k: nat, x: int, rest: int, lookup: Lookup, j: nat)
    requires PositiveValues(lookup)
    requires j < |lookup| && lookup[j].1 == x
    requires 0 <= rest < x
    ensures RomanFrom(k * x + rest, lookup, j) == Repeat(lookup[j].0, k) + RomanFrom(rest, lookup, j + 1)
  {
    if k == 0 {
    } else {
      assert k * x + rest == (k - 1) * x + rest + x;
      assert (k - 1) * x >= 0;
      Ones(k - 1, x, rest, lookup, j);
    }
  }

  /** The shape of one decade of a lookup table: entries 9x, 5x, 4x, x. */
  predicate DecadeAt(lookup: Lookup, i: nat, x: int) {
    && i + 3 < |lookup|
    && lookup[i].1 == 9 * x && lookup[i + 1].1 == 5 * x
    && lookup[i + 2].1 == 4 * x && lookup[i + 3].1 == x
  }

  lemma DecadeHigh(d: nat, rest: int, x: int, lookup: Lookup, i: nat)
    requires PositiveValues(lookup) && DecadeAt(lookup, i, x)
    requires 5 <= d <= 8 && 0 <= rest < x
    ensures RomanFrom(d * x + rest, lookup, i)
         == lookup[i + 1].0 + Repeat(lookup[i + 3].0, d - 5) + RomanFrom(rest, lookup, i + 4)
  {
    var k: nat := d - 5;
    var low := k * x + rest;
    assert d * x + rest == low + 5 * x;
    assert low < 4 * x by {
      assert k * x <= 3 * x;
    }
    calc {
      RomanFrom(d * x + rest, lookup, i);
      { SkipEntries(d * x + rest, lookup, i, i + 1); }
      RomanFrom(low + 5 * x, lookup, i + 1);
      lookup[i + 1].0 + RomanFrom(low, lookup, i + 1);
      { SkipEntries(low, lookup, i + 1, i + 3); }
      lookup[i + 1].0 + RomanFrom(low, lookup, i + 3);
      { Ones(k, x, rest, lookup, i + 3); }
      lookup[i + 1].0 + (Repeat(lookup[i + 3].0, k) + RomanFrom(rest, lookup, i + 4));
    }
  }

  lemma DecadeLow(d: nat, rest: int, x: int, lookup: Lookup, i: nat)
    requires PositiveValues(lookup) && DecadeAt(lookup, i, x)
    requires d <= 3 && 0 <= rest < x
    ensures RomanFrom(d * x + rest, lookup, i) == Repeat(lookup[i + 3].0, d) + RomanFrom(rest, lookup, i + 4)
  {
    assert d * x + rest < 4 * x by {
      assert d * x <= 3 * x;
    }
    SkipEntries(d * x + rest, lookup, i, i + 3);
    Ones(d, x, rest, lookup, i + 3);
  }

  /** One decade of the greedy walk: entries 9x, 5x, 4x and x spell the digit
      of a number below 10x and leave its remainder modulo x. */
  lemma Decade(d: nat, rest: int, x: int, lookup: Lookup, i: nat)
    requires PositiveValues(lookup) && DecadeAt(lookup, i, x)
    requires d <= 9 && 0 <= rest < x
    ensures RomanFrom(d * x + rest, lookup, i)
         == DigitSpelling(d, lookup[i].0, lookup[i + 1].0, lookup[i + 2].0, lookup[i + 3].0)
            + RomanFrom(rest, lookup, i + 4)
  {
    if d == 9 {
      assert RomanFrom(9 * x + rest, lookup, i) == lookup[i].0 + RomanFrom(rest, lookup, i);
      SkipEntries(rest, lookup, i, i + 4);
    } else if d >= 5 {
      DecadeHigh(d, rest, x, lookup, i);
    } else if d == 4 {
      SkipEntries(4 * x + rest, lookup, i, i + 2);
      assert RomanFrom(4 * x + rest, lookup, i + 2) == lookup[i + 2].0 + RomanFrom(rest, lookup, i + 2);
      SkipEntries(rest, lookup, i + 2, i + 4);
    } else {
      DecadeLow(d, rest, x, lookup, i);
    }
  }

  lemma {:induction false} Thousands(num: int)
    requires num >= 0
    ensures RomanFrom(num, LowerRoman, 0) == Repeat("m", num / 1000) + RomanFrom(num % 1000, LowerRoman, 1)
  {
    Ones(num / 1000, 1000, num % 1000, LowerRoman, 0);
  }

  lemma RepeatSmall(s: string)
    ensures Repeat(s, 1) == s
    ensures Repeat(s, 2) == s + s
    ensures Repeat(s, 3) == s + s + s
  {
    assert Repeat(s, 1) == s + Repeat(s, 0);
    assert Repeat(s, 2) == s + Repeat(s, 1);
    assert Repeat(s, 3) == s + Repeat(s, 2);
  }

  /** A decade spelled from its one, five and ten symbols follows the
      textbook table: up to three ones, one before five, five followed by up
      to three ones, one before ten. */
  lemma DigitSpellingTable(d: nat, one: char, five: char, ten: char)
    requires d <= 9
    ensures DigitSpelling(d, [one, ten], [five], [one, five], [one])
         == ["", [one], [one, one], [one, one, one], [one, five], [five], [five, one], [five, one, one], [five, one, one, one], [one, ten]][d]
  {
    RepeatSmall([one]);
  }

  /** The hundreds entries of the walk spell the hundreds digit. */
  lemma HundredsStep(h: int)
    requires 0 <= h < 1000
    ensures RomanFrom(h, LowerRoman, 1) == DigitSpelling(h / 100, "cm", "d", "cd", "c") + RomanFrom(h % 100, LowerRoman, 5)
  {
    assert DecadeAt(LowerRoman, 1, 100);
    ThreeDigits(h);
    Decade(h / 100, h % 100, 100, LowerRoman, 1);
  }

  /** The tens entries of the walk spell the tens digit. */
  lemma TensStep(b: int)
    requires 0 <= b < 100
    ensures RomanFrom(b, LowerRoman, 5) == DigitSpelling(b / 10, "xc", "l", "xl", "x") + RomanFrom(b % 10, LowerRoman, 9)
  {
    assert DecadeAt(LowerRoman, 5, 10);
    Decade(b / 10, b % 10, 10, LowerRoman, 5);
  }

  /** The units entries of the walk spell the units digit and end it. */
  lemma UnitsStep(u: int)
    requires 0 <= u < 10
    ensures RomanFrom(u, LowerRoman, 9) == DigitSpelling(u, "ix", "v", "iv", "i")
  {
    assert DecadeAt(LowerRoman, 9, 1);
    Decade(u, 0, 1, LowerRoman, 9);
    assert u * 1 + 0 == u;
    assert RomanFrom(0, LowerRoman, 13) == "";
  }

  /** The walk over the last twelve entries, for a number below 1000. */
  lemma BelowThousand(h: int)
    requires 0 <= h < 1000
    ensures RomanFrom(h, LowerRoman, 1)
         == DigitSpelling(h / 100, "cm", "d", "cd", "c")
          + DigitSpelling((h % 100) / 10, "xc", "l", "xl", "x")
          + DigitSpelling(h % 10, "ix", "v", "iv", "i")
  {
    ThreeDigits(h);
    var b := h % 100;
    assert b % 10 == h % 10;
    HundredsStep(h);
    TensStep(b);
    UnitsStep(b % 10);
  }

  /** The last two digits of a number are those of its last three. */
  lemma LowDigits(num: int)
    requires num > 0
    ensures (num % 1000) % 100 == num % 100 && (num % 1000) % 10 == num % 10
  {
    var q := num / 1000;
    var h := num % 1000;
    var a, b := h / 100, h % 100;
    var c, d := h / 10, h % 10;
    assert h == a * 100 + b && 0 <= b < 100;
    assert h == c * 10 + d && 0 <= d < 10;
    ModUnique(num, 100, q * 10 + a, b);
    ModUnique(num, 10, q * 100 + c, d);
  }

  /** A remainder by 10 or 100 is determined by any division with a
      remainder in range. */
  lemma ModUnique(n: int, m: int, a: int, r: int)
    requires m == 10 || m == 100
    requires 0 <= r < m && n == a * m + r
    ensures n % m == r
  {
    if m == 10 {
      assert n == a * 10 + r;
    } else {
      assert n == a * 100 + r;
    }
  }

  /** The decimal digits of a number below 1000. */
  lemma ThreeDigits(h: int)
    requires 0 <= h < 1000
    ensures 0 <= h / 100 <= 9 && 0 <= h % 100 < 100 && (h / 100) * 100 + h % 100 == h
    ensures 0 <= (h % 100) / 10 <= 9 && 0 <= h % 10 < 10 && ((h % 100) / 10) * 10 + h % 10 == h % 100
  {
    var b := h % 100;
    assert h == (h / 100) * 100 + b;
    assert h == (h / 10) * 10 + h % 10;
    assert b == (b / 10) * 10 + b % 10;
    assert h / 10 == (h / 100) * 10 + b / 10;
  }

  /** The greedy encoder spells every number exactly as the digit-by-digit
      reference does. */
  lemma LowerRomanReference(num: int)
    ensures RomanFrom(num, LowerRoman, 0) == RomanReference(num)
  {
    if num <= 0 {
      SkipEntries(num, LowerRoman, 0, 13);
    } else {
      var h := num % 1000;
      Thousands(num);
      BelowThousand(h);
      LowDigits(num);
      ThreeDigits(h);
      DigitSpellingTable(h / 100, 'c', 'd', 'm');
      DigitSpellingTable((h % 100) / 10, 'x', 'l', 'c');
      DigitSpellingTable(h % 10, 'i', 'v', 'x');
    }
  }

  function UpperChar(c: char): char {
    if 'a' <= c <= 'z' then (c as int - 32) as char else c
  }

  function Upper(s: string): (r: string)
    ensures |r| == |s|
    ensures forall k | 0 <= k < |s| :: r[k] == UpperChar(s[k])
  {
    seq(|s|, k requires 0 <= k < |s| => UpperChar(s[k]))
  }

  /** Two tables with the same values whose symbols differ only in case
      produce numerals that differ only in case. */
  lemma {:induction false} RomanFromUpper(num: int, lower: Lookup, upper: Lookup, i: nat)
    requires PositiveValues(lower) && |lower| == |upper|
    requires forall k | 0 <= k < |lower| :: upper[k].1 == lower[k].1 && upper[k].0 == Upper(lower[k].0)
    ensures PositiveValues(upper)
    ensures RomanFrom(num, upper, i) == Upper(RomanFrom(num, lower, i))
    decreases |lower| - i, num
  {
    assert PositiveValues(upper) by {
      forall k | 0 <= k < |upper| ensures upper[k].1 > 0 {
        assert upper[k].1 == lower[k].1;
      }
    }
    if i >= |lower| {
    } else if num >= lower[i].1 {
      RomanFromUpper(num - lower[i].1, lower, upper, i);
      assert Upper(lower[i].0 + RomanFrom(num - lower[i].1, lower, i))
          == Upper(lower[i].0) + Upper(RomanFrom(num - lower[i].1, lower, i));
    } else {
      RomanFromUpper(num, lower, upper, i + 1);
    }
  }

  /** The upper-case table is the lower-case one with its symbols
      upper-cased. */
  lemma UpperTable()
    ensures |UpperRoman| == |LowerRoman| && PositiveValues(LowerRoman)
    ensures forall k | 0 <= k < |UpperRoman| :: UpperRoman[k].1 == LowerRoman[k].1 && UpperRoman[k].0 == Upper(LowerRoman[k].0)
  {
    forall k | 0 <= k < 13
      ensures UpperRoman[k].1 == LowerRoman[k].1 && UpperRoman[k].0 == Upper(LowerRoman[k].0)
    {
    }
  }

  /** String.fromCharCode: the code is taken modulo 2^16. Dafny characters
      are Unicode scalar values, so a lone surrogate code becomes U+FFFD. */
  function FromCharCode(code: int): (c: char)
    ensures 0 <= code < 0xD800 ==> c as int == code
  {
    var u := code % 0x1_0000;
    if 0xD800 <= u < 0xE000 then 0xFFFD as char else u as char
  }

  /** `alph`: 1..26 are the letters a..z, each giving its number back as
      its place in the alphabet. */
  function Alph(num: int): (r: string)
    ensures |r| == 1
    ensures 1 <= num <= 26 ==> 'a' <= r[0] <= 'z' && LetterIndex(r[0]) == num
  {
    [FromCharCode(96 + num)]
  }

  /** `Alph`: 1..26 are the letters A..Z, the upper case of `alph`. */
  function UpperAlph(num: int): (r: string)
    ensures |r| == 1
    ensures 1 <= num <= 26 ==> 'A' <= r[0] <= 'Z' && LetterIndex(r[0]) == num && r == Upper(Alph(num))
  {
    [FromCharCode(64 + num)]
  }

  /** Position of a letter in the alphabet, the inverse of alph/Alph. */
  function LetterIndex(c: char): int {
    if 'a' <= c <= 'z' then c as int - 'a' as int + 1
    else if 'A' <= c <= 'Z' then c as int - 'A' as int + 1
    else 0
  }

  /** Every letter is the `alph` or `Alph` of its place in the alphabet. */
  lemma LetterRoundTrip(c: char)
    ensures 'a' <= c <= 'z' ==> Alph(LetterIndex(c)) == [c]
    ensures 'A' <= c <= 'Z' ==> UpperAlph(LetterIndex(c)) == [c]
  {
  }

  function DigitChar(d: nat): char
    requires d < 10
  {
    ('0' as int + d) as char
  }

  function NatToDecimal(n: nat): (s: string)
    ensures |s| > 0
    decreases n
  {
    if n < 10 then [DigitChar(n)] else NatToDecimal(n / 10) + [DigitChar(n % 10)]
  }

  /** `arabic`: String(num) for an integer counter value. Reading it back
      gives the number, so distinct numbers are spelled differently. */
  function Arabic(num: int): (s: string)
    ensures |s| > 0
    ensures ParseArabic(s) == num
  {
    if num < 0 then
      NatDecimalRoundTrip(-num);
      var s := "-" + NatToDecimal(-num);
      assert s[1..] == NatToDecimal(-num);
      s
    else
      NatDecimalRoundTrip(num);
      NatToDecimal(num)
  }

  function DecimalValue(s: string): int
    decreases |s|
  {
    if |s| == 0 then 0 else DecimalValue(s[..|s| - 1]) * 10 + (s[|s| - 1] as int - '0' as int)
  }

  /** Reading a decimal numeral back, the inverse of `arabic`. */
  function ParseArabic(s: string): int {
    if |s| > 0 && s[0] == '-' then -DecimalValue(s[1..]) else DecimalValue(s)
  }

  lemma {:induction false} NatDecimalRoundTrip(n: nat)
    ensures DecimalValue(NatToDecimal(n)) == n
    ensures forall k | 0 <= k < |NatToDecimal(n)| :: '0' <= NatToDecimal(n)[k] <= '9'
    decreases n
  {
    if n >= 10 {
      NatDecimalRoundTrip(n / 10);
      var s := NatToDecimal(n);
      assert s[..|s| - 1] == NatToDecimal(n / 10);
    }
  }

  /** A non-negative number is spelled with digits only, a negative one
      with a minus sign and then digits. */
  lemma ArabicDigits(num: int)
    ensures num >= 0 ==> forall k | 0 <= k < |Arabic(num)| :: '0' <= Arabic(num)[k] <= '9'
    ensures num < 0 ==> Arabic(num)[0] == '-' && forall k | 1 <= k < |Arabic(num)| :: '0' <= Arabic(num)[k] <= '9'
  {
    if num < 0 {
      NatDecimalRoundTrip(-num);
      assert Arabic(num)[1..] == NatToDecimal(-num);
    } else {
      NatDecimalRoundTrip(num);
    }
  }

  /** `fnsymbol`: the names of the footnote glyphs for 1..9 (the glyph table
      itself lives in the symbol table, which is not part of this model). */
  function Fnsymbol(num: int): (r: Result<seq<string>>)
    ensures r.Ok? <==> 1 <= num <= 9
    ensures r.Err? ==> r.error == FnsymbolRange(num)
    ensures r.Ok? && num <= 6 ==> |r.value| == 1
    ensures r.Ok? && num >= 7 ==>
              |r.value| == 2 && r.value[0] == r.value[1] && Fnsymbol(num - 6) == Ok([r.value[0]])
  {
    match num
    case 1 => Ok(["textasteriskcentered"])
    case 2 => Ok(["textdagger"])
    case 3 => Ok(["textdaggerdbl"])
    case 4 => Ok(["textsection"])
    case 5 => Ok(["textparagraph"])
    case 6 => Ok(["textbardbl"])
    case 7 => Ok(["textasteriskcentered", "textasteriskcentered"])
    case 8 => Ok(["textdagger", "textdagger"])
    case 9 => Ok(["textdaggerdbl", "textdaggerdbl"])
    case _ => Err(FnsymbolRange(num))
  }

  /** The nine footnote marks are pairwise different. */
  lemma FnsymbolDistinct()
    ensures forall i, j | 1 <= i <= 9 && 1 <= j <= 9 && i != j :: Fnsymbol(i) != Fnsymbol(j)
  {
  }
}

=== FILE: picture.dfy ===
/** The picture-environment helpers that compute with lengths: the end
    point of a sloped `\line`/`\vector`, the radius of an `\oval`, and the
    intersection of two clip rectangles. */
module Picture {
  import opened Wrappers
  import opened Lengths

  /** The HTML backend's default display precision, three decimals:
      `round` keeps `Math.round(x * 1000) / 1000`. */
  const PrecisionFactor: real := 1000.0

  /** Half of the smallest displayed pixel step, in scaled points. */
  const HalfStep: real := 0.5 * PxFactor / PrecisionFactor

  /** `l.px === 0` for an absolute length: the pixel count rounds to zero
      at the display precision, that is -0.5 <= px * 1000 < 0.5
      (JavaScript rounds halves up, so -0.5 rounds to -0). */
  predicate PxRoundsToZero(l: Length)
    requires l.unit == SP
  {
    -HalfStep <= l.value < HalfStep
  }

  function AbsReal(x: real): (r: real)
    ensures r >= 0.0 && (r == x || r == -x)
  {
    if x < 0.0 then -x else x
  }

  /** `x` with its sign flipped when `neg`. */
  function Signed(x: real, neg: bool): (r: real)
    ensures neg ==> r + x == 0.0
    ensures !neg ==> r == x
  {
    if neg then -x else x
  }

  /** `l.mul(-1)` when `neg`, else `l`. */
  function FlipIf(l: Length, neg: bool): (r: Length)
    requires Canonical(l)
    ensures r == Length(Signed(l.value, neg), l.unit)
  {
    if neg then Mul(l, -1.0) else l
  }

  /** `_slopeLengthToCoords`: the segment from the origin in direction
      `v` whose horizontal extent is `l` (or, for a slope whose x rounds to
      zero pixels, whose vertical extent is `l`). A slope in relative units
      is refused, and so, through the comparison of the slope with a zero of
      `l`'s unit, is a relative `l`. `l` is canonical, as every length the
      original holds went through its constructor. */
  function SlopeLengthToCoords(v: Vector, l: Length): (r: Result<(Vector, Vector)>)
    requires Canonical(l)
    ensures v.x.unit != SP || v.y.unit != SP ==> r == Err(RelativeSlope)
    ensures v.x.unit == SP && v.y.unit == SP ==> (r.Ok? <==> l.unit == SP)
    ensures r.Ok? ==> r.value.0 == Vector(Zero, Zero) && r.value.1.x.unit == SP && r.value.1.y.unit == SP
    ensures r.Ok? && PxRoundsToZero(v.x) ==>
              r.value.1.x.value == Signed(0.0, v.x.value < 0.0) && r.value.1.y.value == Signed(l.value, v.y.value < 0.0)
    ensures r.Ok? && !PxRoundsToZero(v.x) ==>
              && v.x.value != 0.0
              && r.value.1.x.value == Signed(l.value, v.x.value < 0.0)
              && r.value.1.y.value == Signed(l.value * AbsReal(v.y.value / v.x.value), v.y.value < 0.0)
  {
    if v.x.unit != v.y.unit || v.x.unit != SP then Err(RelativeSlope)
    else
      var zero := MakeLength(0.0, l.unit);
      if zero.unit != SP then Err(UnitMismatch(SP, zero.unit))
      else
        assert zero == Zero;
        assert HalfStep > 0.0;
        var (x, y) := if PxRoundsToZero(v.x) then (zero, l)
                      else (l, Mul(l, AbsReal(Ratio(v.y, v.x).value)));
        Ok((Vector(zero, zero), Vector(FlipIf(x, Cmp(v.x, zero).value < 0), FlipIf(y, Cmp(v.y, zero).value < 0))))
  }

  /** The end point `e` lies on the line through the origin with the
      slope's direction, on the slope's side of both axes. */
  lemma SlopeOnLine(v: Vector, l: Length, e: Vector)
    requires Canonical(l) && l.value > 0.0
    requires SlopeLengthToCoords(v, l).Ok? && !PxRoundsToZero(v.x) && SlopeLengthToCoords(v, l).value.1 == e
    ensures OnRay(e.x.value, e.y.value, v.x.value, v.y.value)
  {
    SlopeEnd(v, l);
    OnLine(l.value, v.x.value, v.y.value, e.x.value, e.y.value);
  }

  /** The end point of a non-vertical segment, coordinate by coordinate. */
  lemma SlopeEnd(v: Vector, l: Length)
    requires Canonical(l)
    requires SlopeLengthToCoords(v, l).Ok? && !PxRoundsToZero(v.x)
    ensures var e := SlopeLengthToCoords(v, l).value.1;
            && v.x.value != 0.0
            && e.x.value == Signed(l.value, v.x.value < 0.0)
            && e.y.value == Signed(l.value * AbsReal(v.y.value / v.x.value), v.y.value < 0.0)
  {
  }

  /** (x, y) lies on the line through the origin and (vx, vy), on the same
      side of the vertical axis and not on the other side of the horizontal
      one. */
  predicate OnRay(x: real, y: real, vx: real, vy: real) {
    x * vy == y * vx && x * vx > 0.0 && y * vy >= 0.0
  }

  /** The point `l` across in the direction of `vx`, and as far up or down
      as the slope `vy / vx` takes it, lies on the line through the origin
      and (vx, vy), in the same quadrant. */
  lemma OnLine(lv: real, vx: real, vy: real, ex: real, ey: real)
    requires lv > 0.0 && vx != 0.0
    requires ex == Signed(lv, vx < 0.0) && ey == Signed(lv * AbsReal(vy / vx), vy < 0.0)
    ensures OnRay(ex, ey, vx, vy)
  {
    var q := vy / vx;
    assert q * vx == vy;
    if vx < 0.0 {
      if vy < 0.0 {
        assert q > 0.0 && AbsReal(q) == q;
        assert ey * vx == -(lv * q) * vx == -lv * vy;
      } else {
        assert q <= 0.0 && AbsReal(q) == -q;
        assert ey * vx == lv * -q * vx == -lv * vy;
      }
    } else {
      if vy < 0.0 {
        assert q < 0.0 && AbsReal(q) == -q;
        assert ey * vx == -(lv * -q) * vx == lv * vy;
      } else {
        assert q >= 0.0 && AbsReal(q) == q;
        assert ey * vx == lv * q * vx == lv * vy;
      }
    }
  }

  /** The horizontal extent of a non-vertical segment is `l`. */
  lemma SlopeExtent(v: Vector, l: Length)
    requires Canonical(l) && l.value >= 0.0
    requires SlopeLengthToCoords(v, l).Ok? && !PxRoundsToZero(v.x)
    ensures AbsReal(SlopeLengthToCoords(v, l).value.1.x.value) == l.value
  {
  }

  /** `oval`: half the smaller side, capped at `maxrad` (20px when not
      given). Both comparisons insist on one unit. */
  function OvalRadius(maxrad: Option<Length>, size: Vector): (r: Result<Length>)
    ensures size.x.unit != size.y.unit ==> r.Err?
    ensures r.Ok? && Canonical(size.x) && Canonical(size.y) ==>
              var m := maxrad.GetOr(MakeLength(20.0, "px"));
              && r.value.unit == size.x.unit && m.unit == size.x.unit
              && r.value.value <= m.value
              && 2.0 * r.value.value <= size.x.value && 2.0 * r.value.value <= size.y.value
              && (r.value == m || 2.0 * r.value.value == size.x.value || 2.0 * r.value.value == size.y.value)
  {
    var m := maxrad.GetOr(MakeLength(20.0, "px"));
    var c :- Cmp(size.x, size.y);
    var rad := if c < 0 then Div(size.x, 2.0).value else Div(size.y, 2.0).value;
    var c2 :- Cmp(m, rad);
    Ok(if c2 < 0 then m else rad)
  }

  /** A radius below the cap is exactly half the smaller side. */
  lemma OvalUncapped(maxrad: Length, size: Vector)
    requires Canonical(size.x) && Canonical(size.y) && size.x.unit == size.y.unit == maxrad.unit
    requires 2.0 * maxrad.value >= size.x.value && 2.0 * maxrad.value >= size.y.value
    ensures OvalRadius(Some(maxrad), size).Ok?
    ensures 2.0 * OvalRadius(Some(maxrad), size).value.value ==
              (if size.x.value < size.y.value then size.x.value else size.y.value)
  {
  }

  datatype Rect = Rect(x: Length, y: Length, w: Length, h: Length)

  /** The overlap of [a, a + aw] and [b, b + bw]: its start and its
      non-negative width. */
  function Overlap(a: Length, aw: Length, b: Length, bw: Length): (r: Result<(Length, Length)>)
    ensures r.Ok? <==> a.unit == aw.unit == b.unit == bw.unit == SP
    ensures r.Ok? && Canonical(a) && Canonical(b) ==>
              && r.value.0.value == (if a.value < b.value then b.value else a.value)
              && r.value.1.value >= 0.0
              && var endA := a.value + aw.value;
                 var endB := b.value + bw.value;
                 var end := if endA < endB then endA else endB;
                 r.value.1.value == (if end - r.value.0.value > 0.0 then end - r.value.0.value else 0.0)
  {
    var start :- Max2(a, b);
    var ea :- Add(a, aw);
    var eb :- Add(b, bw);
    var end :- Min2(ea, eb);
    var span :- Sub(end, start);
    var width :- Max2(Zero, span);
    Ok((start, width))
  }

  /** `_intersect`: the clip rectangle common to two rectangles. The zero
      it compares with is in scaled points, so only absolute rectangles can
      be intersected. */
  function Intersect(r1: Rect, r2: Rect): (r: Result<Rect>)
    ensures r.Ok? <==> (&& r1.x.unit == r1.w.unit == r2.x.unit == r2.w.unit == SP
                        && r1.y.unit == r1.h.unit == r2.y.unit == r2.h.unit == SP)
    ensures r.Ok? ==> Overlap(r1.x, r1.w, r2.x, r2.w) == Ok((r.value.x, r.value.w))
    ensures r.Ok? ==> Overlap(r1.y, r1.h, r2.y, r2.h) == Ok((r.value.y, r.value.h))
    ensures r.Ok? ==> r.value.w.value >= 0.0 && r.value.h.value >= 0.0
  {
    var (x, w) :- Overlap(r1.x, r1.w, r2.x, r2.w);
    var (y, h) :- Overlap(r1.y, r1.h, r2.y, r2.h);
    Ok(Rect(x, y, w, h))
  }

  /** A non-empty intersection lies inside both rectangles. */
  lemma IntersectInside(r1: Rect, r2: Rect)
    requires Intersect(r1, r2).Ok?
    ensures var i := Intersect(r1, r2).value;
            && i.x.value >= r1.x.value && i.x.value >= r2.x.value
            && i.y.value >= r1.y.value && i.y.value >= r2.y.value
            && (i.w.value > 0.0 ==> i.x.value + i.w.value <= r1.x.value + r1.w.value && i.x.value + i.w.value <= r2.x.value + r2.w.value)
            && (i.h.value > 0.0 ==> i.y.value + i.h.value <= r1.y.value + r1.h.value && i.y.value + i.h.value <= r2.y.value + r2.h.value)
  {
  }

  /** Intersecting is symmetric in its two rectangles. */
  lemma IntersectSymmetric(r1: Rect, r2: Rect)
    requires Intersect(r1, r2).Ok?
    ensures Intersect(r2, r1) == Intersect(r1, r2)
  {
    OverlapSymmetric(r1.x, r1.w, r2.x, r2.w);
    OverlapSymmetric(r1.y, r1.h, r2.y, r2.h);
  }

  /** Overlapping is symmetric in its two intervals. */
  lemma OverlapSymmetric(a: Length, aw: Length, b: Length, bw: Length)
    requires Overlap(a, aw, b, bw).Ok?
    ensures Overlap(b, bw, a, aw) == Overlap(a, aw, b, bw)
  {
  }
}

=== FILE: registry.dfy ===
/** The macro registry: the argument descriptor table, the mode
    classification read off a descriptor's tag, and the set of names that
    have a macro body.

    The built-in descriptor table and the built-in macro names are those of
    the LaTeX base macros. A document class or package adds its own
    descriptors and bodies on top; `newCounter` adds a generic `the<c>`
    body when none exists yet. */
module Registry {
  import opened Wrappers
  import opened Arguments

  /** How a macro body is given. `Defined` is a body written out in the base
      macros, a document class or a package; the other two are bodies the
      interpreter installs at run time. */
  datatype Handler =
    | Defined
    | ArabicThe(counter: string)
    | AlphThe(counter: string)

  /** The descriptor table and the names that have a macro body. */
  datatype Registry = Registry(args: map<string, seq<Spec>>, handlers: map<string, Handler>)

  /** The base macros' descriptor table, split by mode tag. The sets include
      the entries generated for the font commands (`text..`, `..family`,
      `..series`, `..shape`, `normalfont`, `em`) and the size declarations. */
  const HMacros: set<string> := {
      "marginpar", "and", "emph", "picture", "hspace", "ref",
      "llap", "rlap", "clap", "mash", "hphantom", "vphantom",
      "phantom", "underline", "mbox", "makebox", "fbox", "framebox",
      "parbox", "dashbox", "frame", "put", "multiput", "qbezier",
      "cbezier", "circle", "line", "vector", "Line", "Vector",
      "oval", "refstepcounter", "alph", "Alph", "arabic", "roman",
      "Roman", "fnsymbol", "textrm", "textsf", "texttt", "textmd",
      "textbf", "textup", "textit", "textsl", "textsc", "textnormal"
    }

  const VMacros: set<string> := {
      "par", "item", "onecolumn", "twocolumn", "smallbreak", "medbreak",
      "bigbreak", "addvspace", "center", "flushleft", "flushright", "titlepage",
      "quote", "quotation", "verse", "itemize", "enumerate", "description",
      "input", "include"
    }

  const HVMacros: set<string> := {
      "empty", "title", "author", "date", "thanks", "centering",
      "raggedright", "raggedleft", "label", "thicklines", "thinlines", "linethickness",
      "arrowlength", "newlength", "setlength", "addtolength", "newcounter", "stepcounter",
      "addtocounter", "setcounter", "pagestyle", "linebreak", "nolinebreak", "fussy",
      "sloppy", "pagebreak", "nopagebreak", "samepage", "enlargethispage", "newpage",
      "clearpage", "cleardoublepage", "vfill", "thispagestyle", "rmfamily", "sffamily",
      "ttfamily", "mdseries", "bfseries", "upshape", "itshape", "slshape",
      "scshape", "normalfont", "em", "tiny", "scriptsize", "footnotesize",
      "small", "normalsize", "large", "Large", "LARGE", "huge",
      "Huge"
    }

  const PMacros: set<string> := {
      "documentclass", "usepackage", "includeonly", "makeatletter", "makeatother"
    }

  /** The argument kinds after the mode tag; an entry not listed takes no
      arguments. */
  function LatexKinds(name: string): seq<Spec> {
    match name
    case "twocolumn" => [Kind("o?")]
    case "addvspace" => [Kind("l")]
    case "marginpar" => [Kind("g")]
    case "title" => [Kind("g")]
    case "author" => [Kind("g")]
    case "date" => [Kind("g")]
    case "thanks" => [Kind("g")]
    case "emph" => [Kind("X"), Kind("g")]
    case "itemize" => [Kind("X"), Kind("items")]
    case "enumerate" => [Kind("X"), Kind("enumitems")]
    case "description" => [Kind("X"), Kind("items")]
    case "picture" => [Kind("v"), Kind("v?"), Kind("h")]
    case "hspace" => [Kind("s"), Kind("l")]
    case "label" => [Kind("g")]
    case "ref" => [Kind("g")]
    case "llap" => [Kind("hg")]
    case "rlap" => [Kind("hg")]
    case "clap" => [Kind("hg")]
    case "mash" => [Kind("hg")]
    case "hphantom" => [Kind("hg")]
    case "vphantom" => [Kind("hg")]
    case "phantom" => [Kind("hg")]
    case "underline" => [Kind("hg")]
    case "mbox" => [Kind("hg")]
    case "makebox" => [Kind("v?"), Kind("l?"), Kind("i?"), Kind("hg")]
    case "fbox" => [Kind("hg")]
    case "framebox" => [Kind("v?"), Kind("l?"), Kind("i?"), Kind("hg")]
    case "parbox" => [Kind("i?"), Kind("l?"), Kind("i?"), Kind("l"), Kind("g")]
    case "linethickness" => [Kind("l")]
    case "arrowlength" => [Kind("l")]
    case "dashbox" => [Kind("cl"), Kind("v"), Kind("i?"), Kind("g")]
    case "frame" => [Kind("hg")]
    case "put" => [Kind("v"), Kind("g"), Kind("is")]
    case "multiput" => [Kind("v"), Kind("v"), Kind("n"), Kind("g")]
    case "qbezier" => [Kind("n?"), Kind("v"), Kind("v"), Kind("v")]
    case "cbezier" => [Kind("n?"), Kind("v"), Kind("v"), Kind("v"), Kind("v")]
    case "circle" => [Kind("s"), Kind("cl")]
    case "line" => [Kind("v"), Kind("cl")]
    case "vector" => [Kind("v"), Kind("cl")]
    case "Line" => [Kind("v"), Kind("v")]
    case "Vector" => [Kind("v"), Kind("v")]
    case "oval" => [Kind("cl?"), Kind("v"), Kind("i?")]
    case "newlength" => [Kind("m")]
    case "setlength" => [Kind("m"), Kind("l")]
    case "addtolength" => [Kind("m"), Kind("l")]
    case "newcounter" => [Kind("i"), Kind("i?")]
    case "stepcounter" => [Kind("i")]
    case "addtocounter" => [Kind("i"), Kind("n")]
    case "setcounter" => [Kind("i"), Kind("n")]
    case "refstepcounter" => [Kind("i")]
    case "alph" => [Kind("i")]
    case "Alph" => [Kind("i")]
    case "arabic" => [Kind("i")]
    case "roman" => [Kind("i")]
    case "Roman" => [Kind("i")]
    case "fnsymbol" => [Kind("i")]
    case "input" => [Kind("g")]
    case "include" => [Kind("g")]
    case "documentclass" => [Kind("kv?"), Kind("k"), Kind("k?")]
    case "usepackage" => [Kind("kv?"), Kind("csv"), Kind("k?")]
    case "includeonly" => [Kind("csv")]
    case "pagestyle" => [Kind("i")]
    case "linebreak" => [Kind("n?")]
    case "nolinebreak" => [Kind("n?")]
    case "pagebreak" => [Kind("n?")]
    case "nopagebreak" => [Kind("n?")]
    case "enlargethispage" => [Kind("s"), Kind("l")]
    case "thispagestyle" => [Kind("i")]
    case "textrm" => [Kind("X"), Kind("g")]
    case "textsf" => [Kind("X"), Kind("g")]
    case "texttt" => [Kind("X"), Kind("g")]
    case "textmd" => [Kind("X"), Kind("g")]
    case "textbf" => [Kind("X"), Kind("g")]
    case "textup" => [Kind("X"), Kind("g")]
    case "textit" => [Kind("X"), Kind("g")]
    case "textsl" => [Kind("X"), Kind("g")]
    case "textsc" => [Kind("X"), Kind("g")]
    case "textnormal" => [Kind("X"), Kind("g")]
    case _ => []
  }

  function LatexMode(name: string): (r: Option<string>)
    ensures r.Some? <==> name in ModeMacros
    ensures r.Some? ==> r.value == "H" || r.value == "V" || r.value == "HV" || r.value == "P"
  {
    if name in HMacros then Some("H")
    else if name in VMacros then Some("V")
    else if name in HVMacros then Some("HV")
    else if name in PMacros then Some("P")
    else None
  }

  /** A built-in descriptor: the mode tag followed by the argument kinds. */
  function LatexArgs(name: string): (r: Option<seq<Spec>>)
    ensures r.Some? <==> LatexMode(name).Some?
    ensures r.Some? ==> |r.value| > 0 && r.value[0] == Kind(LatexMode(name).value)
  {
    match LatexMode(name)
    case None => None
    case Some(tag) => Some([Kind(tag)] + LatexKinds(name))
  }

  /** Names with a body in the base macros, split by the prefixes the
      interpreter builds names with (`the<c>`, `end<env>`, `p@<c>`). */
  const TheMethods: set<string> := {
      "theenumi", "theenumii", "theenumiii", "theenumiv"
    }
  const EndMethods: set<string> := {
      "endcenter", "endflushleft", "endflushright", "endquote", "endquotation", "endverse",
      "enditemize", "endenumerate", "enddescription"
    }
  const PMethods: set<string> := {
      "p@enumii", "p@enumiii", "p@enumiv"
    }
  const OtherMethods: set<string> := {
      "initArgs", "initCounters", "empty", "TeX", "LaTeX", "today",
      "newline", "negthinspace", "onecolumn", "twocolumn", "smallbreak", "medbreak",
      "bigbreak", "addvspace", "marginpar", "abstractname", "title", "author",
      "date", "and", "thanks", "createFontAttribute", "textrm", "textsf",
      "texttt", "textmd", "textbf", "textup", "textit", "textsl",
      "textsc", "textnormal", "emph", "rmfamily", "sffamily", "ttfamily",
      "mdseries", "bfseries", "upshape", "itshape", "slshape", "scshape",
      "em", "normalfont", "tiny", "scriptsize", "footnotesize", "small",
      "normalsize", "large", "Large", "LARGE", "huge", "Huge",
      "labelenumi", "labelenumii", "labelenumiii", "labelenumiv", "labelitemi", "labelitemii",
      "labelitemiii", "labelitemiv", "centering", "raggedright", "raggedleft", "center",
      "flushleft", "flushright", "titlepage", "quote", "quotation", "verse",
      "itemize", "enumerate", "description", "picture", "hspace", "label",
      "ref", "llap", "rlap", "clap", "smash", "hphantom",
      "vphantom", "phantom", "underline", "mbox", "makebox", "fbox",
      "framebox", "_box", "parbox", "thinlines", "thicklines", "linethickness",
      "arrowlength", "maxovalrad", "qbeziermax", "frame", "put", "multiput",
      "qbezier", "cbezier", "_path", "circle", "line", "vector",
      "Line", "Vector", "_slopeLengthToCoords", "_line", "_vector", "oval",
      "_intersect", "newlength", "setlength", "addtolength", "newcounter", "stepcounter",
      "addtocounter", "setcounter", "refstepcounter", "alph", "Alph", "arabic",
      "roman", "Roman", "fnsymbol", "input", "include", "documentclass",
      "usepackage", "includeonly", "makeatletter", "makeatother", "pagestyle", "linebreak",
      "nolinebreak", "fussy", "sloppy", "pagebreak", "nopagebreak", "samepage",
      "enlargethispage", "newpage", "clearpage", "cleardoublepage", "vfill", "thispagestyle"
    }

  const BaseMethods: set<string> := TheMethods + EndMethods + PMethods + OtherMethods

  const ModeMacros: set<string> := HMacros + VMacros + HVMacros + PMacros

  /** The registry the interpreter starts with: the base macros'
      descriptors and bodies. */
  const Builtin: Registry :=
    Registry(map n | n in ModeMacros :: [Kind(LatexMode(n).value)] + LatexKinds(n),
             map n | n in BaseMethods :: Defined)

  /** The descriptor of a macro, if it has one. */
  function Descriptor(reg: Registry, name: string): (r: Option<seq<Spec>>)
    ensures r.Some? <==> name in reg.args
    ensures r.Some? ==> r.value == reg.args[name]
  {
    if name in reg.args then Some(reg.args[name]) else None
  }

  /** `hasMacro`: the name has a body; "constructor" never counts. */
  predicate HasMacro(reg: Registry, name: string) {
    name != "constructor" && name in reg.handlers
  }

  /** The body a name resolves to. */
  function HandlerOf(reg: Registry, name: string): (h: Handler)
    requires HasMacro(reg, name)
  {
    reg.handlers[name]
  }

  /** A mode tag is missing when the descriptor is absent or empty, or when
      its first entry is the empty kind. */
  predicate NoTag(d: Option<seq<Spec>>) {
    d.None? || |d.value| == 0 || d.value[0] == Kind("")
  }

  predicate TagIs(d: Option<seq<Spec>>, tag: string) {
    d.Some? && |d.value| > 0 && d.value[0] == Kind(tag)
  }

  /** `isHmode`: horizontal mode is the default for untagged macros. */
  predicate IsHmode(reg: Registry, name: string) {
    NoTag(Descriptor(reg, name)) || TagIs(Descriptor(reg, name), "H")
  }

  predicate IsVmode(reg: Registry, name: string) {
    TagIs(Descriptor(reg, name), "V")
  }

  predicate IsHVmode(reg: Registry, name: string) {
    TagIs(Descriptor(reg, name), "HV")
  }

  predicate IsPreamble(reg: Registry, name: string) {
    TagIs(Descriptor(reg, name), "P")
  }

  /** The four mode classes never overlap, and a macro with no descriptor
      is horizontal. */
  lemma ModesExclusive(reg: Registry, name: string)
    ensures !(IsHmode(reg, name) && IsVmode(reg, name))
    ensures !(IsHmode(reg, name) && IsHVmode(reg, name))
    ensures !(IsHmode(reg, name) && IsPreamble(reg, name))
    ensures !(IsVmode(reg, name) && IsHVmode(reg, name))
    ensures !(IsVmode(reg, name) && IsPreamble(reg, name))
    ensures !(IsHVmode(reg, name) && IsPreamble(reg, name))
    ensures Descriptor(reg, name).None? ==> IsHmode(reg, name)
  {
  }

  /** Every built-in descriptor carries one of the four tags, so every
      built-in macro falls in exactly one mode class. */
  lemma BuiltinTagged(name: string)
    requires LatexArgs(name).Some?
    ensures Descriptor(Builtin, name) == LatexArgs(name)
    ensures IsHmode(Builtin, name) || IsVmode(Builtin, name) || IsHVmode(Builtin, name) || IsPreamble(Builtin, name)
  {
    var d := [Kind(LatexMode(name).value)] + LatexKinds(name);
    assert Builtin.args[name] == d;
    assert d[0] == Kind(LatexMode(name).value);
  }

  /** The base macros define the enumerate formats and prefixes and the
      list environments, with their end macros. */
  lemma BuiltinBodies()
    ensures HasMacro(Builtin, "theenumi") && HandlerOf(Builtin, "theenumi") == Defined
    ensures HasMacro(Builtin, "p@enumiii") && HasMacro(Builtin, "enditemize") && HasMacro(Builtin, "itemize")
  {
    assert "theenumi" in TheMethods && "p@enumiii" in PMethods && "enditemize" in EndMethods && "itemize" in OtherMethods;
  }

  /** Loading a document class or package: its descriptors and bodies are
      added, replacing earlier entries of the same name. */
  function Load(reg: Registry, descriptors: map<string, seq<Spec>>, bodies: set<string>): (r: Registry)
    ensures forall n | n in descriptors :: Descriptor(r, n) == Some(descriptors[n])
    ensures forall n | n !in descriptors :: Descriptor(r, n) == Descriptor(reg, n)
    ensures forall n | n in bodies && n != "constructor" :: HasMacro(r, n) && HandlerOf(r, n) == Defined
    ensures forall n | n !in bodies :: HasMacro(r, n) == HasMacro(reg, n)
    ensures forall n | n !in bodies && HasMacro(reg, n) :: HandlerOf(r, n) == HandlerOf(reg, n)
  {
    Registry(reg.args + descriptors, reg.handlers + map n | n in bodies :: Defined)
  }

  /** After loading, a name has a macro exactly when it is not
      "constructor" and either the load brought its body or it had one
      before; "constructor" is never a macro. */
  lemma HasMacroLoaded(reg: Registry, descriptors: map<string, seq<Spec>>, bodies: set<string>, name: string)
    ensures HasMacro(Load(reg, descriptors, bodies), name) <==> name != "constructor" && (name in bodies || HasMacro(reg, name))
    ensures !HasMacro(reg, "constructor")
  {
  }

  /** Installing a run-time body for one name. */
  function Install(reg: Registry, name: string, h: Handler): (r: Registry)
    requires name != "constructor"
    ensures HasMacro(r, name) && HandlerOf(r, name) == h
    ensures forall n | n != name :: HasMacro(r, n) == HasMacro(reg, n)
    ensures forall n | n != name && HasMacro(reg, n) :: HandlerOf(r, n) == HandlerOf(reg, n)
    ensures forall n :: Descriptor(r, n) == Descriptor(reg, n)
  {
    reg.(handlers := reg.handlers[name := h])
  }
}

=== FILE: scopes.dfy ===
/** The scope stack: one frame per open group, each holding the font
    attributes, the alignment, the current label and the length registers,
    plus the parallel group-balance stack that brackets environments. */
module Scopes {
  import opened Wrappers
  import opened Lengths

  /** The five inline attributes; an unset attribute is None. */
  datatype Attrs = Attrs(
    fontFamily: Option<string>,
    fontWeight: Option<string>,
    fontShape: Option<string>,
    fontSize: Option<string>,
    textDecoration: Option<string>)

  datatype Attr = FontFamily | FontWeight | FontShape | FontSize | TextDecoration

  const NoAttrs: Attrs := Attrs(None, None, None, None, None)

  function GetAttr(a: Attrs, k: Attr): Option<string> {
    match k
    case FontFamily => a.fontFamily
    case FontWeight => a.fontWeight
    case FontShape => a.fontShape
    case FontSize => a.fontSize
    case TextDecoration => a.textDecoration
  }

  /** Writes one attribute; the other four are untouched. */
  function WithAttr(a: Attrs, k: Attr, v: string): (r: Attrs)
    ensures GetAttr(r, k) == Some(v)
    ensures forall j | j != k :: GetAttr(r, j) == GetAttr(a, j)
  {
    match k
    case FontFamily => a.(fontFamily := Some(v))
    case FontWeight => a.(fontWeight := Some(v))
    case FontShape => a.(fontShape := Some(v))
    case FontSize => a.(fontSize := Some(v))
    case TextDecoration => a.(textDecoration := Some(v))
  }

  /** The target a `\label` binds to: an anchor id and the rendered number. */
  datatype CurrentLabel = CurrentLabel(id: string, text: seq<string>)

  const NoLabel: CurrentLabel := CurrentLabel("", [])

  datatype Frame = Frame(attrs: Attrs, align: Option<string>, currentLabel: CurrentLabel, lengths: map<string, Length>)

  datatype Scopes = Scopes(frames: seq<Frame>, groups: seq<int>)

  /** The state `reset` leaves: one root frame and one balance counter at 0. */
  const Initial: Scopes := Scopes([Frame(NoAttrs, None, NoLabel, map[])], [0])

  function Sum(xs: seq<int>): int {
    if |xs| == 0 then 0 else Sum(xs[..|xs| - 1]) + xs[|xs| - 1]
  }

  /** Every balance counter is non-negative and the frames above the root
      are at least the groups the counters account for. */
  ghost predicate Valid(s: Scopes) {
    && (forall i | 0 <= i < |s.groups| :: s.groups[i] >= 0)
    && |s.frames| >= 1 + Sum(s.groups)
  }

  lemma InitialValid()
    ensures Valid(Initial)
  {
    assert Sum(Initial.groups) == Sum([]) + 0;
  }

  function Top(s: Scopes): Frame
    requires |s.frames| > 0
  {
    s.frames[|s.frames| - 1]
  }

  function WithTop(s: Scopes, f: Frame): (r: Scopes)
    requires |s.frames| > 0
    ensures |r.frames| == |s.frames| && r.groups == s.groups && Top(r) == f
    ensures r.frames[..|r.frames| - 1] == s.frames[..|s.frames| - 1]
  {
    s.(frames := s.frames[|s.frames| - 1 := f])
  }

  /** `enterGroup`: push a frame with empty attributes (or a copy of the
      top's when `copyAttrs`), no alignment, and copies of the top frame's
      current label and lengths; the innermost balance counter goes up by
      one. With no balance counter at all the increment lands nowhere. */
  function EnterGroup(s: Scopes, copyAttrs: bool): (r: Scopes)
    requires |s.frames| > 0
    ensures |r.frames| == |s.frames| + 1 && r.frames[..|s.frames|] == s.frames
    ensures Top(r) == Frame(if copyAttrs then Top(s).attrs else NoAttrs, None, Top(s).currentLabel, Top(s).lengths)
    ensures |s.groups| > 0 ==> r.groups == s.groups[|s.groups| - 1 := s.groups[|s.groups| - 1] + 1]
    ensures |s.groups| == 0 ==> r.groups == s.groups
  {
    var t := Top(s);
    var f := Frame(if copyAttrs then t.attrs else NoAttrs, None, t.currentLabel, t.lengths);
    var g := if |s.groups| > 0 then s.groups[|s.groups| - 1 := s.groups[|s.groups| - 1] + 1] else s.groups;
    Scopes(s.frames + [f], g)
  }

  /** `exitGroup`: the innermost balance counter goes down by one, and when
      it was already 0 (or missing) there is no group to end. Otherwise the
      top frame is popped. */
  function ExitGroup(s: Scopes): (r: Result<Scopes>)
    ensures r.Ok? <==> |s.groups| > 0 && s.groups[|s.groups| - 1] >= 1
    ensures r.Err? ==> r.error == NoOpenGroup
    ensures r.Ok? ==> r.value.groups == s.groups[|s.groups| - 1 := s.groups[|s.groups| - 1] - 1]
    ensures r.Ok? && |s.frames| > 0 ==> r.value.frames == s.frames[..|s.frames| - 1]
  {
    if |s.groups| == 0 || s.groups[|s.groups| - 1] - 1 < 0 then Err(NoOpenGroup)
    else
      var g := s.groups[|s.groups| - 1 := s.groups[|s.groups| - 1] - 1];
      Ok(Scopes(if |s.frames| > 0 then s.frames[..|s.frames| - 1] else s.frames, g))
  }

  /** `startBalanced`: a fresh balance counter for an environment. */
  function StartBalanced(s: Scopes): (r: Scopes)
    ensures r.frames == s.frames && r.groups == s.groups + [0]
  {
    s.(groups := s.groups + [0])
  }

  /** `endBalanced`: drop the innermost balance counter. */
  function EndBalanced(s: Scopes): (r: Scopes)
    ensures r.frames == s.frames
    ensures |s.groups| > 0 ==> r.groups + [s.groups[|s.groups| - 1]] == s.groups
  {
    if |s.groups| > 0 then s.(groups := s.groups[..|s.groups| - 1]) else s
  }

  /** `isBalanced`: the innermost counter is 0. */
  predicate IsBalanced(s: Scopes) {
    |s.groups| > 0 && s.groups[|s.groups| - 1] == 0
  }

  lemma SumAppend(xs: seq<int>, x: int)
    ensures Sum(xs + [x]) == Sum(xs) + x
  {
    assert (xs + [x])[..|xs|] == xs;
  }

  lemma SumBump(xs: seq<int>, d: int)
    requires |xs| > 0
    ensures Sum(xs[|xs| - 1 := xs[|xs| - 1] + d]) == Sum(xs) + d
  {
    var ys := xs[|xs| - 1 := xs[|xs| - 1] + d];
    assert ys[..|ys| - 1] == xs[..|xs| - 1];
  }

  lemma EnterGroupValid(s: Scopes, copyAttrs: bool)
    requires Valid(s) && |s.frames| > 0
    ensures Valid(EnterGroup(s, copyAttrs))
  {
    if |s.groups| > 0 {
      SumBump(s.groups, 1);
    }
  }

  lemma ExitGroupValid(s: Scopes)
    requires Valid(s) && ExitGroup(s).Ok?
    ensures Valid(ExitGroup(s).value)
  {
    SumBump(s.groups, -1);
  }

  lemma StartBalancedValid(s: Scopes)
    requires Valid(s)
    ensures Valid(StartBalanced(s))
  {
    SumAppend(s.groups, 0);
  }

  lemma EndBalancedValid(s: Scopes)
    requires Valid(s)
    ensures Valid(EndBalanced(s))
  {
    if |s.groups| > 0 {
      SumAppend(s.groups[..|s.groups| - 1], s.groups[|s.groups| - 1]);
      assert s.groups[..|s.groups| - 1] + [s.groups[|s.groups| - 1]] == s.groups;
    }
  }

  /** In a valid state the root frame can never be popped. */
  lemma ValidHasFrame(s: Scopes)
    requires Valid(s)
    ensures |s.frames| > 0
  {
    SumNonNegative(s.groups);
  }

  lemma {:induction false} SumNonNegative(xs: seq<int>)
    requires forall i | 0 <= i < |xs| :: xs[i] >= 0
    ensures Sum(xs) >= 0
  {
    if |xs| > 0 {
      SumNonNegative(xs[..|xs| - 1]);
    }
  }

  /** Leaving a group restores the scopes as they were when it was entered,
      whatever the group's own frame was changed to meanwhile. */
  lemma EnterExitRoundTrip(s: Scopes, copyAttrs: bool, f: Frame)
    requires |s.frames| > 0 && |s.groups| > 0 && s.groups[|s.groups| - 1] >= 0
    ensures ExitGroup(WithTop(EnterGroup(s, copyAttrs), f)) == Ok(s)
  {
    var e := WithTop(EnterGroup(s, copyAttrs), f);
    assert e.frames[..|e.frames| - 1] == s.frames;
    var n := |s.groups| - 1;
    assert |e.groups| == |s.groups| && e.groups[n] == s.groups[n] + 1;
    assert e.groups[n := e.groups[n] - 1] == s.groups;
  }

  /** `_activeAttributeValue`: the innermost frame whose attribute is set to
      a non-empty string decides; an unset or empty value is skipped. */
  function ActiveAttribute(frames: seq<Frame>, k: Attr): (r: Option<string>)
    ensures r.Some? ==> r.value != ""
    ensures r.Some? ==>
              exists i | 0 <= i < |frames| ::
                && GetAttr(frames[i].attrs, k) == r
                && forall j | i < j < |frames| :: GetAttr(frames[j].attrs, k) in {None, Some("")}
    ensures r.None? ==> forall j | 0 <= j < |frames| :: GetAttr(frames[j].attrs, k) in {None, Some("")}
  {
    if |frames| == 0 then None
    else
      var v := GetAttr(frames[|frames| - 1].attrs, k);
      if v.Some? && v.value != "" then v
      else
        var inner := ActiveAttribute(frames[..|frames| - 1], k);
        assert forall j | 0 <= j < |frames| - 1 :: frames[..|frames| - 1][j] == frames[j];
        inner
  }

  /** The `set<Attr>` family: write one attribute of the top frame. */
  function SetAttr(s: Scopes, k: Attr, v: string): (r: Scopes)
    requires |s.frames| > 0
    ensures |r.frames| == |s.frames| && r.groups == s.groups
    ensures r.frames[..|s.frames| - 1] == s.frames[..|s.frames| - 1]
    ensures GetAttr(Top(r).attrs, k) == Some(v)
    ensures forall j | j != k :: GetAttr(Top(r).attrs, j) == GetAttr(Top(s).attrs, j)
    ensures Top(r).align == Top(s).align && Top(r).currentLabel == Top(s).currentLabel
    ensures Top(r).lengths == Top(s).lengths
  {
    WithTop(s, Top(s).(attrs := WithAttr(Top(s).attrs, k, v)))
  }

  /** `setFontShape`: the shape "em" toggles, becoming "up" when the
      active shape is "it" and "it" otherwise. */
  function SetFontShape(s: Scopes, shape: string): (r: Scopes)
    requires |s.frames| > 0
    ensures |r.frames| == |s.frames| && r.groups == s.groups
    ensures shape != "em" ==> GetAttr(Top(r).attrs, FontShape) == Some(shape)
    ensures shape == "em" ==>
              GetAttr(Top(r).attrs, FontShape) == (if ActiveAttribute(s.frames, FontShape) == Some("it") then Some("up") else Some("it"))
  {
    var actual := if shape == "em" then (if ActiveAttribute(s.frames, FontShape) == Some("it") then "up" else "it") else shape;
    SetAttr(s, FontShape, actual)
  }

  /** Emphasis twice in nested groups returns to the upright shape. */
  lemma EmToggles(s: Scopes)
    requires |s.frames| > 0 && |s.groups| > 0
    requires ActiveAttribute(s.frames, FontShape) != Some("it")
    ensures var once := SetFontShape(EnterGroup(s, false), "em");
            ActiveAttribute(once.frames, FontShape) == Some("it") &&
            var twice := SetFontShape(EnterGroup(once, false), "em");
            ActiveAttribute(twice.frames, FontShape) == Some("up")
  {
  }

  function SetAlignment(s: Scopes, align: Option<string>): (r: Scopes)
    requires |s.frames| > 0
    ensures |r.frames| == |s.frames| && r.groups == s.groups
    ensures Top(r) == Top(s).(align := align)
  {
    WithTop(s, Top(s).(align := align))
  }

  function SetCurrentLabel(s: Scopes, cl: CurrentLabel): (r: Scopes)
    requires |s.frames| > 0
    ensures |r.frames| == |s.frames| && r.groups == s.groups
    ensures Top(r) == Top(s).(currentLabel := cl)
  {
    WithTop(s, Top(s).(currentLabel := cl))
  }

  predicate HasLength(s: Scopes, l: string)
    requires |s.frames| > 0
  {
    l in Top(s).lengths
  }

  /** `newLength`: a new register in the top frame, initialised to 0sp. */
  function NewLength(s: Scopes, l: string): (r: Result<Scopes>)
    requires |s.frames| > 0
    ensures r.Ok? <==> l !in Top(s).lengths
    ensures r.Err? ==> r.error == DuplicateLength(l)
    ensures r.Ok? ==> |r.value.frames| == |s.frames| && r.value.groups == s.groups
    ensures r.Ok? ==> Top(r.value).lengths == Top(s).lengths[l := Zero]
  {
    if l in Top(s).lengths then Err(DuplicateLength(l))
    else Ok(WithTop(s, Top(s).(lengths := Top(s).lengths[l := Zero])))
  }

  /** `setLength`: overwrite a register the top frame knows. */
  function SetLength(s: Scopes, id: string, v: Length): (r: Result<Scopes>)
    requires |s.frames| > 0
    ensures r.Ok? <==> id in Top(s).lengths
    ensures r.Err? ==> r.error == NoSuchLength(id)
    ensures r.Ok? ==> |r.value.frames| == |s.frames| && r.value.groups == s.groups
    ensures r.Ok? ==> r.value.frames[..|s.frames| - 1] == s.frames[..|s.frames| - 1]
    ensures r.Ok? ==> Top(r.value) == Top(s).(lengths := Top(s).lengths[id := v])
  {
    if id !in Top(s).lengths then Err(NoSuchLength(id))
    else Ok(WithTop(s, Top(s).(lengths := Top(s).lengths[id := v])))
  }

  /** `getLength`: read a register of the top frame. */
  function GetLength(s: Scopes, id: string): (r: Result<Length>)
    requires |s.frames| > 0
    ensures r.Ok? <==> id in Top(s).lengths
    ensures r.Ok? ==> r.value == Top(s).lengths[id]
    ensures r.Err? ==> r.error == NoSuchLength(id)
  {
    if id in Top(s).lengths then Ok(Top(s).lengths[id]) else Err(NoSuchLength(id))
  }

  /** A length set inside a group reads back inside it and is invisible
      once the group is left: the outer value comes back. */
  lemma SetLengthScoped(s: Scopes, id: string, v: Length, copyAttrs: bool)
    requires |s.frames| > 0 && |s.groups| > 0 && s.groups[|s.groups| - 1] >= 0
    requires id in Top(s).lengths
    ensures var inner := SetLength(EnterGroup(s, copyAttrs), id, v);
            inner.Ok? && GetLength(inner.value, id) == Ok(v) &&
            ExitGroup(inner.value) == Ok(s) && GetLength(s, id) == Ok(Top(s).lengths[id])
  {
    var e := EnterGroup(s, copyAttrs);
    var inner := SetLength(e, id, v).value;
    assert inner == WithTop(e, Top(e).(lengths := Top(e).lengths[id := v]));
    EnterExitRoundTrip(s, copyAttrs, Top(e).(lengths := Top(e).lengths[id := v]));
  }

  /** An attribute set inside a group is invisible once the group is left. */
  lemma SetAttrScoped(s: Scopes, k: Attr, v: string, copyAttrs: bool)
    requires |s.frames| > 0 && |s.groups| > 0 && s.groups[|s.groups| - 1] >= 0
    ensures ExitGroup(SetAttr(EnterGroup(s, copyAttrs), k, v)) == Ok(s)
  {
    var e := EnterGroup(s, copyAttrs);
    EnterExitRoundTrip(s, copyAttrs, Top(e).(attrs := WithAttr(Top(e).attrs, k, v)));
  }
}

=== FILE: wrappers.dfy ===
/** Failure-compatible result types and the interpreter's error conditions.
    Every `this.error(...)` of the generator, and every JavaScript exception
    that the original code runs into, becomes an `Err` here. */
module Wrappers {

  datatype Option<+T> = None | Some(value: T) {
    predicate IsFailure() { None? }

    function PropagateFailure<U>(): Option<U>
      requires None?
    {
      None
    }

    function Extract(): T
      requires Some?
    {
      value
    }

    function GetOr(default: T): T {
      match this
      case Some(v) => v
      case None => default
    }
  }

  /** The error conditions raised by the macro interpreter. */
  datatype Error =
    | UnitMismatch(left: string, right: string)
    | RelativeLength
    | NonFinite
    | NoSuchCounter(counter: string)
    | DuplicateCounter(counter: string)
    | ResetCycle(counter: string)
    | NoSuchLength(length: string)
    | DuplicateLength(length: string)
    | NoOpenGroup
    | UnbalancedGroups(env: string)
    | UnknownEnvironment(env: string)
    | MismatchedEnd(env: string, found: string)
    | NoArgFrame
    | UnconsumedArguments
    | DuplicateLabel(labelName: string)
    | TooDeeplyNested
    | FnsymbolRange(n: int)
    | UnknownPosition(pos: string)
    | UnknownInnerPosition(pos: string)
    | TwoOptionalArguments
    | RelativeSlope
    | RelativeLineThickness
    | UnknownColorType
    | ColorSpecMismatch
    | MissingTitle
    | UnknownMacro(name: string)
    | DuplicateDocumentClass
    | WriteToUndefined(field: string)
    | CallOfUndefined(name: string)
    | ConcatOnUndefined(name: string)

  datatype Result<+T> = Ok(value: T) | Err(error: Error) {
    predicate IsFailure() { Err? }

    function PropagateFailure<U>(): Result<U>
      requires Err?
    {
      Err(error)
    }

    function Extract(): T
      requires Ok?
    {
      value
    }
  }
}

=== FILE: xcolor.dfy ===
/** The xcolor package: its argument descriptors, the colour table, and
    `definecolor`/`definecolorset`, which check the colour type and that
    every model has a specification before storing a colour.

    A colour is a map from model name to specification; specifications are
    kept as the parser hands them over and never interpreted here. */
module XColor {
  import opened Wrappers
  import opened Arguments
  import opened Registry

  /** `color` and `textcolor` start with a branch: an optional model list
      followed by a specification list, or a plain colour name. */
  const ColorBranch: Spec := Branch([[Kind("c-ml?"), Kind("c-spl")], [Kind("c")]])

  /** The package's descriptors, each led by its mode tag. */
  const ColorArgs: map<string, seq<Spec>> := map[
    "definecolorset" := [Kind("P"), Kind("i?"), Kind("c-ml"), Kind("ie"), Kind("ie"), Kind("c-ssp")],
    "definecolor" := [Kind("P"), Kind("i?"), Kind("i"), Kind("c-ml"), Kind("c-spl")],
    "color" := [Kind("HV"), ColorBranch],
    "textcolor" := [Kind("HV"), ColorBranch, Kind("g")],
    "colorbox" := [Kind("H"), Kind("i?"), Kind("c"), Kind("g")],
    "fcolorbox" := [Kind("H"), Kind("i?"), Kind("c"), Kind("c"), Kind("g")]
  ]

  /** Once the package is loaded, the colour definitions are allowed in
      the preamble only, `color` and `textcolor` in either mode, and the
      boxes in horizontal mode. */
  lemma ColorModes(reg: Registry)
    ensures var r := Load(reg, ColorArgs, {});
            && IsPreamble(r, "definecolor") && IsPreamble(r, "definecolorset")
            && IsHVmode(r, "color") && IsHVmode(r, "textcolor")
            && IsHmode(r, "colorbox") && IsHmode(r, "fcolorbox")
  {
  }

  type Color = map<string, string>

  /** The colours known before any definition, none with a model. */
  const InitialColors: map<string, Color> := map n | n in {
      "red", "green", "blue", "cyan", "magenta", "yellow", "black", "gray", "white",
      "darkgray", "lightgray", "brown", "lime", "olive", "orange", "pink", "purple", "teal", "violet"
    } :: map[]

  /** The colour types `definecolor` accepts: none given, `named` or `ps`. */
  predicate KnownType(t: Option<string>) {
    t.None? || t.value == "named" || t.value == "ps"
  }

  /** `models[i]` is not named again later in the list. */
  predicate LastOf(models: seq<string>, i: int)
    requires 0 <= i < |models|
  {
    forall j | i < j < |models| :: models[j] != models[i]
  }

  /** The colour that assigns each model its specification, in order, so
      a model named twice keeps its later specification. */
  function ColorOf(models: seq<string>, specs: seq<string>): (r: Color)
    requires |models| == |specs|
    ensures forall m :: m in r <==> m in models
    decreases |models|
  {
    if |models| == 0 then map[]
    else
      var n := |models| - 1;
      var prev := ColorOf(models[..n], specs[..n]);
      assert forall m | m in models :: m == models[n] || m in models[..n] by {
        assert models == models[..n] + [models[n]];
      }
      prev[models[n] := specs[n]]
  }

  /** A model not named again later keeps the specification at its
      position. */
  lemma {:induction false} ColorOfLast(models: seq<string>, specs: seq<string>, i: int)
    requires |models| == |specs| && 0 <= i < |models| && LastOf(models, i)
    ensures ColorOf(models, specs)[models[i]] == specs[i]
    decreases |models|
  {
    var n := |models| - 1;
    if i < n {
      assert models[i] != models[n];
      assert LastOf(models[..n], i) by {
        forall j | i < j < n
          ensures models[..n][j] != models[..n][i]
        {
          assert models[..n][j] == models[j];
        }
      }
      ColorOfLast(models[..n], specs[..n], i);
    }
  }

  /** Every model holds the specification of its last mention. */
  lemma ColorOfValues(models: seq<string>, specs: seq<string>)
    requires |models| == |specs|
    ensures forall i | 0 <= i < |models| && LastOf(models, i) :: ColorOf(models, specs)[models[i]] == specs[i]
  {
    forall i | 0 <= i < |models| && LastOf(models, i)
      ensures ColorOf(models, specs)[models[i]] == specs[i]
    {
      ColorOfLast(models, specs, i);
    }
  }

  /** `definecolor`: the type must be known and every model needs a
      specification; the name then maps to the new colour, replacing any
      earlier one. */
  function DefineColor(colors: map<string, Color>, typ: Option<string>, name: string, models: seq<string>, specs: seq<string>): (r: Result<map<string, Color>>)
    ensures !KnownType(typ) ==> r == Err(UnknownColorType)
    ensures KnownType(typ) && |models| != |specs| ==> r == Err(ColorSpecMismatch)
    ensures r.Ok? <==> KnownType(typ) && |models| == |specs|
    ensures r.Ok? ==> name in r.value && forall m :: m in r.value[name] <==> m in models
    ensures r.Ok? ==> forall i | 0 <= i < |models| && LastOf(models, i) :: r.value[name][models[i]] == specs[i]
    ensures r.Ok? ==> forall n :: n in r.value <==> n in colors || n == name
    ensures r.Ok? ==> forall n | n in colors && n != name :: r.value[n] == colors[n]
  {
    if !KnownType(typ) then Err(UnknownColorType)
    else if |models| != |specs| then Err(ColorSpecMismatch)
    else
      ColorOfValues(models, specs);
      Ok(colors[name := ColorOf(models, specs)])
  }

  /** One entry of a colour set: a name and its specifications. */
  datatype SetSpec = SetSpec(name: string, speclist: seq<string>)

  /** A missing head or tail is empty. */
  function OrEmpty(s: Option<string>): (r: string)
    ensures s.Some? ==> r == s.value
    ensures s.None? ==> r == ""
  {
    if s.Some? then s.value else ""
  }

  /** The name an entry of a colour set defines. */
  function SetName(hd: Option<string>, tl: Option<string>, e: SetSpec): string {
    OrEmpty(hd) + e.name + OrEmpty(tl)
  }

  /** Entry `i` is the last one to define its name. */
  predicate LastEntry(hd: Option<string>, tl: Option<string>, set_: seq<SetSpec>, i: int)
    requires 0 <= i < |set_|
  {
    forall j | i < j < |set_| :: SetName(hd, tl, set_[j]) != SetName(hd, tl, set_[i])
  }

  /** `definecolorset`: the type must be known; then each entry is defined,
      in order, as head + name + tail with the shared models. */
  function DefineColorSet(colors: map<string, Color>, typ: Option<string>, models: seq<string>,
                          hd: Option<string>, tl: Option<string>, set_: seq<SetSpec>): (r: Result<map<string, Color>>)
    ensures !KnownType(typ) ==> r == Err(UnknownColorType)
    ensures r.Ok? <==> KnownType(typ) && forall i | 0 <= i < |set_| :: |set_[i].speclist| == |models|
    ensures r.Ok? ==> forall n | n in colors :: n in r.value
    ensures r.Ok? ==> forall n | n in colors && Untouched(hd, tl, set_, n) :: r.value[n] == colors[n]
    decreases |set_|
  {
    if !KnownType(typ) then Err(UnknownColorType)
    else if |set_| == 0 then Ok(colors)
    else
      var rest := set_[1..];
      assert forall i | 0 <= i < |rest| :: rest[i] == set_[i + 1];
      var c1 :- DefineColor(colors, typ, SetName(hd, tl, set_[0]), models, set_[0].speclist);
      DefineColorSet(c1, typ, models, hd, tl, rest)
  }

  /** No entry of the set defines `n`. */
  predicate Untouched(hd: Option<string>, tl: Option<string>, set_: seq<SetSpec>, n: string) {
    forall i | 0 <= i < |set_| :: SetName(hd, tl, set_[i]) != n
  }

  /** Every name of a colour set ends up with the colour of its last entry. */
  lemma {:induction false} DefineColorSetDefines(colors: map<string, Color>, typ: Option<string>, models: seq<string>,
                                                  hd: Option<string>, tl: Option<string>, set_: seq<SetSpec>, i: nat)
    requires DefineColorSet(colors, typ, models, hd, tl, set_).Ok?
    requires i < |set_| && LastEntry(hd, tl, set_, i)
    ensures var r := DefineColorSet(colors, typ, models, hd, tl, set_).value;
            SetName(hd, tl, set_[i]) in r && r[SetName(hd, tl, set_[i])] == ColorOf(models, set_[i].speclist)
    decreases |set_|
  {
    var rest := set_[1..];
    var c1 := DefineColor(colors, typ, SetName(hd, tl, set_[0]), models, set_[0].speclist).value;
    assert DefineColorSet(colors, typ, models, hd, tl, set_) == DefineColorSet(c1, typ, models, hd, tl, rest);
    var n := SetName(hd, tl, set_[i]);
    if i == 0 {
      assert Untouched(hd, tl, rest, n) by {
        forall j | 0 <= j < |rest|
          ensures SetName(hd, tl, rest[j]) != n
        {
          assert rest[j] == set_[j + 1];
        }
      }
    } else {
      assert LastEntry(hd, tl, rest, i - 1) by {
        forall j | i - 1 < j < |rest|
          ensures SetName(hd, tl, rest[j]) != SetName(hd, tl, rest[i - 1])
        {
          assert rest[j] == set_[j + 1] && rest[i - 1] == set_[i];
        }
      }
      DefineColorSetDefines(c1, typ, models, hd, tl, rest, i - 1);
      assert rest[i - 1] == set_[i];
    }
  }

  /** With distinct models, each model of a defined colour holds the
      specification at its own position. */
  lemma DefineColorDistinct(colors: map<string, Color>, typ: Option<string>, name: string, models: seq<string>, specs: seq<string>)
    requires KnownType(typ) && |models| == |specs|
    requires forall i, j | 0 <= i < j < |models| :: models[i] != models[j]
    ensures DefineColor(colors, typ, name, models, specs).Ok?
    ensures forall i | 0 <= i < |models| :: DefineColor(colors, typ, name, models, specs).value[name][models[i]] == specs[i]
  {
  }

  /** Redefining a colour forgets its earlier models entirely. */
  lemma RedefineReplaces(colors: map<string, Color>, name: string, m1: seq<string>, s1: seq<string>, m2: seq<string>, s2: seq<string>)
    requires |m1| == |s1| && |m2| == |s2|
    ensures DefineColor(colors, None, name, m1, s1).Ok?
    ensures DefineColor(DefineColor(colors, None, name, m1, s1).value, None, name, m2, s2) == DefineColor(colors, None, name, m2, s2)
  {
    var c := ColorOf(m1, s1);
    var d := ColorOf(m2, s2);
    assert colors[name := c][name := d] == colors[name := d];
  }

  /** The lookahead picks the branch of `color` and `textcolor`: `[` the
      model list with its specifications, `{` the colour name; anything else
      leaves the expected arguments as they were. */
  lemma ColorBranchSelected(st: ArgStack, macro: string, next: char)
    requires macro in {"color", "textcolor"}
    ensures var b := BeginArgs(st, macro, Some(ColorArgs[macro]));
            var rest := if macro == "color" then [] else [Kind("g")];
            var s := SelectArgsBranch(b, next);
            && s.Ok?
            && (next == '[' ==> s.value.1 && s.value.0[|st|].args == [Kind("c-ml?"), Kind("c-spl")] + rest)
            && (next == '{' ==> s.value.1 && s.value.0[|st|].args == [Kind("c")] + rest)
            && (next != '[' && next != '{' ==> !s.value.1 && s.value.0 == b)
  {
    var b := BeginArgs(st, macro, Some(ColorArgs[macro]));
    var d := ColorArgs[macro];
    var alts := ColorBranch.alts;
    assert b[|st|].args == d[1..];
    assert StartsOptional(alts[0]) && !StartsOptional(alts[1]) by {
      assert "c-ml?" in OptArgs;
    }
    assert FirstFit(alts, '[') == Some(0);
    assert FirstFit(alts, '{') == Some(1);
    if next != '[' && next != '{' {
      assert !AnyFits(alts, next);
    }
  }
}
